=== FILE: README.md ===
# PurC core, modelled in Dafny

This project models the core of PurC, the HVML interpreter, as pure Dafny
functions, methods and lemmas. The centre is the VCM expression evaluator.
It flattens an expression tree into an array of evaluation nodes. It then
drives an explicit stack of frames through the AFTER_PUSH, EVAL_PARAMS,
EVAL_VCM and DONE steps, memoising parameter results so that a suspended
evaluation (AGAIN) can be resumed. Around the evaluator sit smaller
components:

- the conversion of literal VCM trees to variants;
- the documented contract of the variant containers (arrays, objects, sets),
  size queries, iterators and casts;
- the character push-back buffer of the HVML tokenizer;
- the `<hvml>` element's stack-mode transition, body choice and child
  selection;
- the renderer-target parsing when a child coroutine is scheduled;
- two demonstration host functions;
- the CSS `foil-candidate-marks` property parser;
- the field-ordered IPC codecs of the network-session and
  resource-load-statistics parameters;
- the string and numbering helpers of the IPC message generator;
- the record accumulator of the error-table generator.

One module per component, one file per module:

| file | module | models |
|---|---|---|
| wrappers.dfy | Wrappers | `Option` with `:-` propagation |
| seqs.dfy | Seqs | generic prefix and suffix facts used by the proofs |
| variant.dfy | Variant | `purc-variant.h` documented contracts |
| vcm_tree.dfy | VcmTree | VCM node trees, node counts, level order |
| eval_index.dfy | EvalIndex | `build_eval_nodes` flattening |
| eval_engine.dfy | EvalEngine | frames, stack, `eval_frame`, `eval_vcm`, entry points |
| eval_dispatch.dfy | EvalDispatch | call flags, dynamic/native dispatch, getter position |
| vcm_literal.dfy | VcmLiteral | `utils/vcm.c` literal conversion |
| rwswrap.dfy | RwsWrap | `hvml-rwswrap.c` push-back buffer |
| hvml_element.dfy | HvmlElement | `elements/hvml.c` |
| child_co.dfy | ChildCo | `interpreter/child.c` |
| func_demo.dfy | FuncDemo | `test/externals/func_demo.c` |
| css_foil.dfy | CssFoil | `foil_candidate_marks.c` |
| ipc_codec.dfy | IpcCodec | the two IPC parameter codecs |
| msg_gen.dfy | MsgGen | `messages.py` helpers |
| error_info.dfy | ErrorInfo | `make-error-info.py` parse and generate_inc |

## How the model treats the code

- Values are immutable. A C operation that updates a container in place
  returns the updated container here. `None` stands for `false` or for
  `PURC_VARIANT_INVALID`.
- Operator hooks (`after_pushed`, `select_param`, `eval`), host getters and
  setters, native operation tables, number parsers and stream reads are
  function-valued parameters. The C hooks receive the whole context; the
  model passes them what they can read of it that the evaluator changes:
  the context flags (AGAIN, TIMEOUT and SILENTLY among them) and the
  evaluation node array with its memoised slots, besides the frame. A hook
  that raised AGAIN can therefore behave differently when the evaluation
  is resumed with AGAIN set. The one assumption about `select_param` is
  that it picks a node placed after the frame's own node, as the flattened
  layout places every child after its parent. This makes evaluation of a
  finite array finite.
- A node's address is an `id` field. The ids of one tree are distinct.
- The thread's last error (`purc_get_last_error`) is a field of the context.
- `select_param` returns a selection: a node to evaluate, NULL with the
  step unchanged (the position is passed over), or NULL after it moved the
  frame on (eval.c:529-537). The last case carries the error the hook
  raised, if any. The model takes "moved on" to mean EVAL_VCM, the only step
  the loop itself moves to; the frame is left there, and a pending error
  fails it.
- Parameter slots are addressed as `first_child_idx + pos` in the node
  array (`EvalEngine.SlotIndex`). `pcvcm_get_frame_result` and
  `pcvcm_set_frame_result` are declared elsewhere and are not part of this
  model; the flattened layout places a node's children at that index,
  which is what the model assumes the two functions read and write.
- `pcvcm_eval_sub_expr_full` pops the tail frame after the evaluation,
  whatever it left (eval.c:928-930). When a parameter of the sub-expression
  failed, the tail is that parameter's frame, and the frame pushed for the
  sub-expression stays above the caller's frames.
  `EvalEngine.EvalSubExprFull` states this.
- The literal converter reads the second child of an object node without
  checking that there is one (utils/vcm.c:38-59). `VcmLiteral.LiteralOk`
  therefore requires every object node to have at least one child.

Where the model follows the code rather than the documentation:

- **SILENTLY absorption.** `eval_frame` (Source/PurC/vcm/eval.c:567-574)
  turns an INVALID result into undefined unless the last error is AGAIN,
  provided SILENTLY is set and `!has_fatal_error(err)`. The `err` tested is
  the local declared at line 504, which is never assigned again. So an
  out-of-memory error is absorbed like any other. `EvalEngine.Absorbs`
  models the test as written, and `EvalEngine.OutOfMemoryAbsorbed` states
  the consequence.
- **`pcvcm_eval_full` under SILENTLY.** With AGAIN pending and a context
  requested, the function assigns INVALID and then overwrites it with
  undefined at once (eval.c:785-790). `EvalEngine.EvalFull` returns
  undefined in that case, as the code does.
- **`fill_cor_rdr_info`.** It assigns `toolkit_style` from the lookup even
  when the key is missing (child.c:59-60). The other four fields are set
  only when their key is present. `ChildCo.FillRdrInfo` follows this.
- **Widget prefix test.** It is `strncmp(target, "widget", len)` over the
  length of the text before the first `:`. Any prefix of `widget`, the empty
  one included, selects WIDGET. `ChildCo.WidgetIffPrefix` states this.
- **`hvml-rwswrap.h` and `hvml-rwswrap.c` disagree.** The header names the
  field `character` and has `next_char` return a pointer. The model follows
  the `.c` file: the field is `uc` and `next_char` returns the 32-bit code
  point.
- **`NetworkSessionCreationParameters` field order.** The constructor call in
  `decode` (NetworkSessionCreationParameters.cpp:161-182) lists the two
  device-management flags before `networkCacheDirectory`. The wire order
  puts them after it. The struct declaration is not part of this model.
  `IpcCodec.NsParams` follows the constructor list, and `DecodeNs` (through `Assemble`) assigns
  every field by name. The round trip therefore holds for a record with
  named fields. Whether the C++ aggregate initialiser matches depends on
  the unseen declaration.
- **Iterator `next` and `prev`, for objects and sets.** The comments on
  `purc_variant_object_iterator_next` and `_prev` (purc-variant.h:911-912,
  927) say they return true when there is no following (leading) pair. The
  comments on `purc_variant_set_iterator_next` and `_prev`
  (purc-variant.h:1239, 1254) say the same of the following (leading)
  element. The usage examples at purc-variant.h:849-853 and 1174-1178
  stop when the result is false. The model follows the examples:
  `Variant.IteratorNext` and `Variant.IteratorPrev`, shared by both
  iterators, succeed exactly when a neighbour exists.
- **`statsUserRegion`.** The `regions` object is placed into the result
  before the counting loop and then updated through its reference.
  `FuncDemo.StatsUserRegion` builds the result from the final `regions`,
  which is what the caller sees.

## Model

| member | source | states |
|---|---|---|
| EvalDispatch.GetCallFlags | Source/PurC/vcm/eval.c:327-343 | each call flag is raised exactly when its evaluation flag (SILENTLY, AGAIN, TIMEOUT) is set |
| EvalDispatch.GetCallFlagsInjective | Source/PurC/vcm/eval.c:327-343 | the flag mapping is one-to-one: equal call flags come from equal evaluation flags |
| EvalDispatch.CallDvariantMethod | Source/PurC/vcm/eval.c:434-445 | a missing getter/setter yields INVALID; any result is the host method's result on the root, arguments and call flags |
| EvalDispatch.DvariantDispatch | Source/PurC/vcm/eval.c:434-445 | a dynamic value dispatches to its getter for GETTER_METHOD and to its setter for SETTER_METHOD; a null method yields INVALID |
| EvalDispatch.CallNvariantMethod | Source/PurC/vcm/eval.c:448-463 | a non-native value or one without an operation table yields INVALID; a result comes from the looked-up property method called on the entity |
| EvalDispatch.NvariantDispatch | Source/PurC/vcm/eval.c:448-463 | a found property method's result is returned unchanged; no method or no table yields INVALID |
| EvalDispatch.HandleAsGetterPosition | Source/PurC/vcm/eval.c:465-486 | a child is evaluated not as a getter exactly when its parent is GET_ELEMENT, CALL_GETTER or CALL_SETTER and it is the first child; the root always is a getter |
| EvalDispatch.GetterBySlot | Source/PurC/vcm/eval.c:465-486 | in the flattened node array, the node in parameter slot pos of a frame is a getter exactly unless its parent is an action node and pos is 0 |
| EvalDispatch.RootParamsGetter | Source/PurC/vcm/eval.c:465-486 | for the outermost frame over a built tree, slot pos holds the root's child pos, with the same getter rule |
| EvalDispatch.BridgesOnResume | Source/PurC/vcm/eval.c:327-463 | called with the context's call flags, a bridge hands its host method AGAIN on a resumed evaluation and at most SILENTLY on a first one; a host that ignores the flags answers both calls alike |
| EvalDispatch.ResumedCallFlags | Source/PurC/vcm/eval.c:327-343 | a resumed evaluation passes AGAIN to the host methods; a first run passes at most SILENTLY |
| EvalEngine.BottomFrame | Source/PurC/vcm/eval.c:346-353 | the bottom frame is NULL exactly for an empty stack, and otherwise the most recently pushed frame |
| EvalEngine.Push | Source/PurC/vcm/eval.c:355-370 | push appends one frame at the tail (AFTER_PUSH, position 0) and keeps the frames below; it keeps frame_idx equal to depth-1 |
| EvalEngine.Pop | Source/PurC/vcm/eval.c:372-380 | pop removes exactly the tail frame and decrements frame_idx, keeping the invariant |
| EvalEngine.PopPush | Source/PurC/vcm/eval.c:355-380 | popping a pushed frame restores the context exactly |
| EvalEngine.SetSlot | Source/PurC/vcm/eval.c:548 | storing a parameter result fills exactly the frame's slot at that position and leaves every other node and the layout unchanged |
| EvalEngine.OutOfMemoryAbsorbed | Source/PurC/vcm/eval.c:567-574 | under SILENTLY an out-of-memory failure is absorbed, because the fatal test reads the unassigned local; AGAIN is never absorbed |
| EvalEngine.EvalFrame | Source/PurC/vcm/eval.c:495-600 | the step only moves forward through AFTER_PUSH, EVAL_PARAMS, EVAL_VCM, DONE and frames below are untouched; a value comes back exactly when the frame reached DONE, and then it is what the `eval` hook produced on the filled slots, or when the failure was absorbed, and then it is undefined; a frame left at AFTER_PUSH or EVAL_VCM failed in that hook, with nothing else changed |
| EvalEngine.Advance | Source/PurC/vcm/eval.c:512-560 | one step of the frame loop moves the step strictly forward unless it fails; reaching DONE yields what `eval` produced; a failing `after_pushed` or `eval` changes only the last error; a failure that leaves frames above is never absorbed |
| EvalEngine.EvalParamsLoop | Source/PurC/vcm/eval.c:523-552 | positions advance in increasing order; a normal end is at nr_params; a stop happens at a position below nr_params whose slot is empty and whose `select_param` returned NULL after moving the step, leaving the frame at EVAL_VCM and failing exactly when an error is pending; a failing parameter leaves its child frame pushed and is never absorbed; when every slot is memoised nothing is evaluated again |
| EvalEngine.EvalParam | Source/PurC/vcm/eval.c:524-549 | an occupied slot is skipped with only the position moving; a NULL `select_param` with the step unchanged is skipped; one that moved the step stops the loop with the frame at EVAL_VCM and the pending error as the result; a child failure keeps the parent frame and is never absorbed |
| EvalEngine.EvalSelected | Source/PurC/vcm/eval.c:539-549 | the selected node is pushed with the position as its return position; on success exactly that frame is popped and the parent's slot at the position holds the value the child's `eval` produced (or undefined when SILENTLY absorbed its failure); on failure the child frame stays |
| EvalEngine.Raised | Source/PurC/vcm/eval.c:613-622 | eval_vcm raises SILENTLY, TIMEOUT and AGAIN exactly when asked |
| EvalEngine.Enter | Source/PurC/vcm/eval.c:621-636 | a resume pushes no frame and starts at the bottom frame, failing on an empty stack; a fresh run pushes the first node with return position 0; given arguments replace the frame's |
| EvalEngine.EvalVcm | Source/PurC/vcm/eval.c:603-665 | the driver keeps the layout and every memoised result; error-free success ends with an empty stack and hands back the value of the outermost frame's node; a run that stops keeps that outermost frame at the bottom of the stack; a value is stored as the context result |
| EvalEngine.ReturnStep | Source/PurC/vcm/eval.c:638-650 | after the bottom frame yields a value with no error pending, it is popped and the value is written into the new bottom frame's slot at the popped frame's return position; when the stack empties the value is the popped frame's own; otherwise the stack is left as evaluation left it |
| EvalEngine.NewCtx | Source/PurC/vcm/eval.c:761-767 | a fresh context has an empty stack with frame_idx -1, no flags and no result |
| EvalEngine.EvalFull | Source/PurC/vcm/eval.c:724-824 | a missing tree gives undefined under SILENTLY and INVALID otherwise; SILENTLY always yields a value; the context is handed back exactly when requested and an error remains, with nr_nodes nodes rooted at the tree |
| EvalEngine.ClearAgain | Source/PurC/vcm/eval.c:857-862 | a pending AGAIN is cleared from both error slots; any other error is copied into the context |
| EvalEngine.EvalAgainFull | Source/PurC/vcm/eval.c:826-886 | no context gives INVALID; otherwise the driver resumes at the bottom frame with AGAIN raised, keeping the layout and memoised results; error-free success empties a stack that had frames and hands back a value the `eval` hook produced, with AGAIN among the flags it saw, for the outermost frame's node; a run that stops again keeps that outermost frame |
| EvalEngine.EvalResumed | Source/PurC/vcm/eval.c:724-886 | a full evaluation, resumed once when frames are left pending, ends with no error only with a value of the tree's root node: one produced under the first run's flags, or under the resumed run's flags with AGAIN set |
| EvalEngine.EvalSubExprFull | Source/PurC/vcm/eval.c:889-937 | no context fails with INVALID_VALUE; otherwise the tree is appended after the existing nodes and one frame is pushed for its root; on success the stack is as before and the value is the appended root's; on failure the frames below are kept and the frame for the appended root may remain above them |
| EvalIndex.AppendChildren | Source/PurC/vcm/eval.c:681-689 | children are appended as one block in sibling order, each with its own index and an INVALID slot; earlier nodes are unchanged |
| EvalIndex.FindLast | Source/PurC/vcm/eval.c:698-705 | the backward search returns a position holding the node, or none when no earlier position holds it |
| EvalIndex.MarkAppendSpec | Source/PurC/vcm/eval.c:697-707 | the node records the insertion position as its first child index and its children are appended there |
| EvalIndex.BuildChildrenSpec | Source/PurC/vcm/eval.c:691-709 | laying out a subtree adds Count-1 nodes, keeps the old ones, stores each index, and places every node's children as one block in sibling order |
| EvalIndex.BuildEachSpec | Source/PurC/vcm/eval.c:707-708 | the layout of a block of siblings keeps the same invariants, and each sibling's children are laid out |
| EvalIndex.BuildEvalNodesSpec | Source/PurC/vcm/eval.c:711-720 | the array grows by the level-order node count, the old part is untouched, the root lands at the insertion position, eval_nodes[i].idx == i, and each new node's children sit at first_child_idx.. in order |
| EvalIndex.BuildEvalNodesValid | Source/PurC/vcm/eval.c:711-720 | every first child index and child block of the flattened array lies inside it |
| VcmTree.LevelOrderCount | Source/PurC/vcm/eval.c:667-672 | the level-order traversal numbering nodes visits every node of the queued trees once |
| VcmTree.NrNodes | Source/PurC/vcm/eval.c:751-756 | the cached nr_nodes equals the tree's node count |
| VcmLiteral.ArrayFromItemsSpec | Source/PurC/utils/vcm.c:61-75 | appending the children keeps the old elements and adds each child's value after them, in order |
| VcmLiteral.ArrayLiteral | Source/PurC/utils/vcm.c:61-75 | an array node yields an array with one element per child, in the same order |
| VcmLiteral.ObjectFromPairsSpec | Source/PurC/utils/vcm.c:38-59 | setting the (key, value) pairs keeps keys unique; a key of some pair maps to its last pair's value, other keys keep their value |
| VcmLiteral.ObjectLiteral | Source/PurC/utils/vcm.c:38-59 | an object node yields an object with unique keys in which each pair key maps to the value of its last pair, and no other key is present |
| VcmLiteral.ObjectTrailingIgnored | Source/PurC/utils/vcm.c:38-59 | a trailing unpaired child of an object node changes nothing |
| VcmLiteral.ScalarLiterals | Source/PurC/utils/vcm.c:77-122 | KEY and STRING give their buffer; BOOLEAN is true iff the buffer is "true"; a negative unsigned literal wraps modulo 2^64; unknown types give null; a missing tree gives null |
| Variant.ArrayAppend | Source/PurC/include/purc-variant.h:517-528 | fails for a non-array; otherwise the size grows by one, the value is at the tail and the old elements keep their positions |
| Variant.ArrayPrepend | Source/PurC/include/purc-variant.h:531-542 | fails for a non-array; otherwise the value is at the head and every old element moves up by one |
| Variant.ArrayGet | Source/PurC/include/purc-variant.h:545-556 | INVALID exactly for a non-array or an index out of range |
| Variant.ArraySet | Source/PurC/include/purc-variant.h:559-574 | fails exactly when idx is past the maximum index; otherwise only element idx changes |
| Variant.ArrayRemove | Source/PurC/include/purc-variant.h:577-590 | fails exactly when idx is past the maximum index; otherwise later elements move down by one |
| Variant.ArrayInsertBefore | Source/PurC/include/purc-variant.h:593-609 | fails exactly when idx is past the maximum index; otherwise the value sits at idx and the size grows by one |
| Variant.ArrayInsertAfter | Source/PurC/include/purc-variant.h:612-627 | accepts idx up to one past the maximum index; the value sits right after element idx, or at the tail |
| Variant.ArrayInsertRemove | Source/PurC/include/purc-variant.h:593-627 | removing the inserted position undoes either insertion, and old elements are shifted past it |
| Variant.ArrayAppendRemove | Source/PurC/include/purc-variant.h:517-590 | appending and removing the last element gives the array back |
| Variant.ArrayPrependRemove | Source/PurC/include/purc-variant.h:531-590 | prepending and removing the head gives the array back |
| Variant.ArraySetSet | Source/PurC/include/purc-variant.h:559-574 | setting twice is setting once, and setting the current value changes nothing |
| Variant.ArraySize | Source/PurC/include/purc-variant.h:629-640 | the size query fails exactly for a non-array |
| Variant.ArraySizeCountsIndices | Source/PurC/include/purc-variant.h:545-640 | get at an index succeeds exactly when the index is below the reported size |
| Variant.ArrayGetSizeBad | Source/PurC/include/purc-variant.h:642-660 | the deprecated wrapper returns BADSIZE exactly for a non-array, and the size otherwise |
| Variant.ObjectGet | Source/PurC/include/purc-variant.h:694-705 | INVALID exactly for a non-object or a missing key; a result is the value of a pair with that key |
| Variant.ObjectGetUnique | Source/PurC/include/purc-variant.h:694-705 | with unique keys, the value get reports is the one stored with the key |
| Variant.ObjectSet | Source/PurC/include/purc-variant.h:730-743 | fails exactly for a non-object |
| Variant.ObjectSetSpec | Source/PurC/include/purc-variant.h:730-743 | after set the key maps to the new value, other keys are unchanged, keys stay unique, and the size grows exactly for a new key |
| Variant.ObjectRemove | Source/PurC/include/purc-variant.h:769-780 | fails exactly for a non-object or a missing key |
| Variant.ObjectRemoveSpec | Source/PurC/include/purc-variant.h:769-780 | after remove the key is gone, other keys are unchanged, and the size drops by one |
| Variant.ObjectSetRemove | Source/PurC/include/purc-variant.h:730-780 | setting a fresh key and removing it gives the object back |
| Variant.ObjectSize | Source/PurC/include/purc-variant.h:804-816 | the size query fails exactly for a non-object |
| Variant.ObjectSizeCountsKeys | Source/PurC/include/purc-variant.h:694-816 | with unique keys the object's size is the number of its distinct keys, and a key is among them exactly when get finds it |
| Variant.GetSizeBad | Source/PurC/include/purc-variant.h:818-836 | the object and set size wrappers return BADSIZE exactly for a value of the wrong type, and the size that the size query reports otherwise |
| Variant.MakeIteratorBegin | Source/PurC/include/purc-variant.h:862-876 | the begin iterator is NULL exactly for an empty object or set |
| Variant.MakeIteratorEnd | Source/PurC/include/purc-variant.h:878-892 | the end iterator is NULL exactly for an empty object or set |
| Variant.IteratorNext | Source/PurC/include/purc-variant.h:907-1246 | next succeeds exactly when a successor exists, and moves to it; this is both the object iterator's next (907-921) and the set iterator's (1233-1246) |
| Variant.IteratorPrev | Source/PurC/include/purc-variant.h:923-1261 | prev succeeds exactly when a predecessor exists, and moves to it; this is both the object iterator's prev (923-936) and the set iterator's (1248-1261) |
| Variant.IterateAll | Source/PurC/include/purc-variant.h:838-858 | the documented iteration loop visits every member once, from head to tail |
| Variant.SetAdd | Source/PurC/include/purc-variant.h:1017-1037 | succeeds exactly for a set, an object when keyed, and (when an equal member exists) overwrite on a keyed set; the value is then a member, every other member is v or an old member, every old member not equal to v is kept, and the size grows by one exactly when no equal member existed |
| Variant.SetAddWellFormed | Source/PurC/include/purc-variant.h:1017-1037 | set_add keeps members pairwise distinct under the unique keys |
| Variant.SetAddThenGet | Source/PurC/include/purc-variant.h:1017-1073 | after adding to a keyed set, looking up the value's key values finds exactly that value |
| Variant.SetRemove | Source/PurC/include/purc-variant.h:1039-1055 | succeeds exactly when an equal member exists; exactly one member equal to the value is removed, as a multiset, and every member not equal to it is kept |
| Variant.SetRemoveGone | Source/PurC/include/purc-variant.h:1039-1055 | removing from a well-formed set leaves it well formed with no member equal to the removed value |
| Variant.SetAddRemove | Source/PurC/include/purc-variant.h:1017-1055 | adding a new value to a generic set and removing it gives the set back |
| Variant.SetGetByKeyValues | Source/PurC/include/purc-variant.h:1057-1073 | INVALID exactly for a set not managed by keys or when no member has those key values; a result is such a member |
| Variant.SetRemoveByKeyValues | Source/PurC/include/purc-variant.h:1075-1092 | fails exactly when the lookup fails; otherwise exactly one member with those key values is removed, as a multiset, and every member with other key values is kept |
| Variant.SetRemoveByKeyValuesGone | Source/PurC/include/purc-variant.h:1057-1092 | after removal by key values from a well-formed set, a lookup of the same key values finds nothing |
| Variant.SetSize | Source/PurC/include/purc-variant.h:1094-1104 | the size query fails exactly for a non-set |
| Variant.SetSizeCountsIndices | Source/PurC/include/purc-variant.h:1094-1104 | get by index succeeds exactly when the index is below the reported size |
| Variant.SetGetByIndex | Source/PurC/include/purc-variant.h:1126-1137 | fails exactly for a non-set or an index out of range |
| Variant.SetRemoveByIndex | Source/PurC/include/purc-variant.h:1139-1150 | fails exactly for a non-set or an index out of range; the removed member is the one at the index |
| Variant.CastToLongInt | Source/PurC/include/purc-variant.h:1316-1334 | succeeds for null, boolean and every number kind with a 64-bit signed result; otherwise only a string parsed on request |
| Variant.CastToULongInt | Source/PurC/include/purc-variant.h:1336-1355 | succeeds for null, boolean and every number kind with a 64-bit unsigned result; otherwise only a string parsed on request |
| Variant.CastToReal | Source/PurC/include/purc-variant.h:1357-1396 | succeeds for null, boolean and every number kind; otherwise only a string parsed on request |
| Variant.CastToByteSequence | Source/PurC/include/purc-variant.h:1398-1415 | succeeds exactly for a string, an atom string or a byte sequence |
| Variant.CastLongIntRoundTrip | Source/PurC/include/purc-variant.h:1316-1355 | casting a long integer to unsigned and back gives the same integer |
| RwsWrap.ReadFromStream | Source/PurC/hvml/hvml-rwswrap.c:85-94 | a failed read yields the invalid character, any other read its code point |
| RwsWrap.NextChar | Source/PurC/hvml/hvml-rwswrap.c:96-112 | a pushed-back character is returned (and removed) before the stream is read |
| RwsWrap.EmptyReadsStream | Source/PurC/hvml/hvml-rwswrap.c:85-112 | with nothing buffered, next_char returns the next read's code point, or the invalid character on failure |
| RwsWrap.BufferChars | Source/PurC/hvml/hvml-rwswrap.c:114-127 | pushes the characters at the head from last to first; allocation failure stops it with the already-pushed suffix buffered |
| RwsWrap.ReadBackBuffered | Source/PurC/hvml/hvml-rwswrap.c:96-112 | whatever is buffered comes back, in order, from the next calls |
| RwsWrap.BufferThenRead | Source/PurC/hvml/hvml-rwswrap.c:106-127 | after buffer_chars(ucs, n) succeeds, the next n characters are ucs[0..n) and then the old buffer |
| RwsWrap.LaterBufferedFirst | Source/PurC/hvml/hvml-rwswrap.c:114-127 | characters buffered later are returned before those buffered earlier |
| RwsWrap.PartialBufferOnFailure | Source/PurC/hvml/hvml-rwswrap.c:114-123 | an allocation failure reports false and leaves exactly the pushed suffix ahead of the old list |
| RwsWrap.BufferArrlist | Source/PurC/hvml/hvml-rwswrap.c:129-144 | buffering an array list is buffering its entries truncated to 32 bits |
| RwsWrap.ArrlistIsChars | Source/PurC/hvml/hvml-rwswrap.c:129-144 | for 32-bit entries buffer_arrlist behaves like buffer_chars on the same contents |
| RwsWrap.Destroy | Source/PurC/hvml/hvml-rwswrap.c:146-157 | every buffered character is released, in the order reads would have returned them, leaving an empty buffer |
| HvmlElement.OnPopping | Source/PurC/interpreter/elements/hvml.c:204-241 | BEFORE_HEAD, AFTER_HEAD and AFTER_BODY move to AFTER_HVML, other modes stay; the context becomes NULL; the result is true |
| HvmlElement.IsMatchBodyId | Source/PurC/interpreter/elements/hvml.c:100-127 | true with no body id; otherwise true iff the id is a string equal to it |
| HvmlElement.BodyChosenById | Source/PurC/interpreter/elements/hvml.c:100-151 | the body chosen for an id is the first body whose id attribute is that string |
| HvmlElement.FindBody | Source/PurC/interpreter/elements/hvml.c:129-151 | NULL with no bodies; otherwise the first matching body, or the first body when none matches |
| HvmlElement.FirstBodyFallback | Source/PurC/interpreter/elements/hvml.c:129-151 | with no body id, or no body carrying it, the first body is chosen |
| HvmlElement.ChildClassification | Source/PurC/interpreter/elements/hvml.c:330-358 | every child is skipped, selected, or stops the walk with an error, and only one of these |
| HvmlElement.SelectChild | Source/PurC/interpreter/elements/hvml.c:296-361 | a back anchor on the frame is cleared; no context or another anchor selects nothing; otherwise the next selectable child after the last one is returned, content, comments and excluded bodies are skipped, and the end clears the error and restarts |
| HvmlElement.PoppedSelectsNothing | Source/PurC/interpreter/elements/hvml.c:204-361 | after on_popping clears the context, select_child selects nothing and leaves the error untouched |
| HvmlElement.SelectionAdvances | Source/PurC/interpreter/elements/hvml.c:296-361 | two successive calls that both select a child select them in document order, passing over every child in between |
| ChildCo.RunnerName | Source/PurC/interpreter/child.c:87-90 | no runner or "_self" gives the instance's runner, any other name itself |
| ChildCo.ParseRdrTarget | Source/PurC/interpreter/child.c:106-133 | no target gives PLAINWIN with no name or group; the page spec splits at its first '@' into name and group |
| ChildCo.WidgetIffPrefix | Source/PurC/interpreter/child.c:110-118 | with a ':' the type is WIDGET exactly when the text before it is a prefix of "widget", the empty one included |
| ChildCo.NoColonIsPlainWin | Source/PurC/interpreter/child.c:121-133 | without ':' or '@' the type is PLAINWIN and the name is the whole target |
| ChildCo.ParseFormatted | Source/PurC/interpreter/child.c:106-133 | parsing "type:name@group" gives back the name and group |
| ChildCo.TypeByPrefix | Source/PurC/interpreter/child.c:110-118 | the page type depends only on the text before the first ':' |
| ChildCo.FillRdrInfo | Source/PurC/interpreter/child.c:43-66 | class, title, layoutStyle and pageGroups change only when present; toolkitStyle is always assigned |
| ChildCo.FillRdrInfoProperties | Source/PurC/interpreter/child.c:43-66 | filling twice is filling once; with none of the four keys only toolkitStyle changes |
| ChildCo.FillRdrInfoStrings | Source/PurC/interpreter/child.c:47-53 | a present string member is copied into its field |
| ChildCo.RequestRdrInfo | Source/PurC/interpreter/child.c:142-149 | an object request whose `_renderer` member is an object gives the empty renderer information filled from that member; anything else gives the empty information |
| ChildCo.ScheduleCarriesTarget | Source/PurC/interpreter/child.c:85-173 | scheduling with a target formatted from a type, name and group succeeds when an endpoint and instance exist, and the request carries that name and group and the resolved runner |
| ChildCo.ScheduleChildCo | Source/PurC/interpreter/child.c:85-173 | cid 0 exactly when the endpoint is unknown and may not be created, the document does not load, or no destination instance exists; otherwise the request carries the runner, the parsed target and the renderer information |
| FuncDemo.GetMember | Source/test/externals/func_demo.c:6-21 | INVALID unless on an object with a string key; undefined for a missing key; the stored member otherwise |
| FuncDemo.ToArray | Source/test/externals/func_demo.c:27-31 | the two-element array of the two arguments, in order, when making the array succeeds, and undefined when it fails |
| FuncDemo.GetMemberAfterUpdate | Source/test/externals/func_demo.c:6-21 | getMember reads back a member just set, reads other members as before, and reads a removed member as undefined |
| FuncDemo.ToArrayIsTwoAppends | Source/test/externals/func_demo.c:27 | to_array gives what appending the two arguments to an empty array gives |
| FuncDemo.CountRegions | Source/test/externals/func_demo.c:67-105 | after the loop every region maps to the number of object members in it, no other key is present, and the counters sum to the number of object members |
| FuncDemo.BumpStep | Source/test/externals/func_demo.c:69-105 | counting an object member adds one to its own region (or "unknown") and keeps every other count |
| FuncDemo.SkipStep | Source/test/externals/func_demo.c:69-105 | a non-object member changes no count |
| FuncDemo.StatsUserRegion | Source/test/externals/func_demo.c:37-105 | undefined unless given an array and a string, and undefined when making the result or the regions object fails; count is the array size; regions maps each region to its number of object members, so the counters sum to the number of object members |
| CssFoil.CaselessEqByFolding | Source/CSSEng/parse/properties/foil_candidate_marks.c:47-58 | two names match caselessly exactly when their ASCII lower-case foldings are equal |
| CssFoil.Append | Source/CSSEng/parse/properties/foil_candidate_marks.c:47-77 | a full style fails with NOMEM and is unchanged; otherwise the word is appended |
| CssFoil.StringAdd | Source/CSSEng/parse/properties/foil_candidate_marks.c:60-66 | the returned number names the string in the sheet, and the old strings keep their numbers; failure is NOMEM with the sheet unchanged |
| CssFoil.ParseFoilCandidateMarks | Source/CSSEng/parse/properties/foil_candidate_marks.c:40-86 | any non-OK result restores ctx; success advances ctx by exactly one token |
| CssFoil.RejectsOtherTokens | Source/CSSEng/parse/properties/foil_candidate_marks.c:40-45 | a missing token, or one neither IDENT nor STRING, is invalid and changes nothing |
| CssFoil.RejectsOtherIdents | Source/CSSEng/parse/properties/foil_candidate_marks.c:79-80 | any IDENT other than inherit and auto is invalid and changes nothing |
| CssFoil.Keywords | Source/CSSEng/parse/properties/foil_candidate_marks.c:47-58 | inherit (any case) appends the inherit entry and auto (any case) appends OPV AUTO, consuming the token |
| CssFoil.StringValue | Source/CSSEng/parse/properties/foil_candidate_marks.c:60-77 | a STRING appends OPV SET and then the string's number, which gives the string back |
| CssFoil.StringNoMem | Source/CSSEng/parse/properties/foil_candidate_marks.c:60-66 | a new string the sheet cannot store fails with NOMEM, restoring ctx and the style |
| IpcCodec.DefaultRls | Source/PurC/fetchers/messages/ResourceLoadStatisticsParameters.h:41-55 | enabled, isItpStateExplicitlySet, enableLogTestingEvent and enableDebugMode default to false and shouldIncludeLocalhost to true |
| IpcCodec.DecodeStatsOnly | Source/PurC/fetchers/messages/ResourceLoadStatisticsParameters.h:113-123 | the two conditional fields are read only in a statistics build, and consume exactly their two tokens |
| IpcCodec.RlsRoundTrip | Source/PurC/fetchers/messages/ResourceLoadStatisticsParameters.h:57-161 | decoding an encoding gives back the parameters and the rest of the stream, in both build configurations |
| IpcCodec.RlsDecodeOnlyEncodings | Source/PurC/fetchers/messages/ResourceLoadStatisticsParameters.h:76-143 | a successful decode read exactly the encoding of the parameters it returns, so any out-of-order or missing field fails |
| IpcCodec.DefaultRlsRoundTrip | Source/PurC/fetchers/messages/ResourceLoadStatisticsParameters.h:41-161 | the default parameters survive a round trip |
| IpcCodec.NsRoundTrip | Source/PurC/fetchers/messages/NetworkSessionCreationParameters.cpp:33-182 | decoding an encoding gives back the parameters, nested statistics parameters included |
| IpcCodec.NsDecodeOnlyEncodings | Source/PurC/fetchers/messages/NetworkSessionCreationParameters.cpp:59-159 | a successful decode read exactly the encoding of what it returns; a field that fails to decode fails the whole decode |
| MsgGen.SurroundInCondition | Source/RemoteFetcher/scripts/generator/messages.py:68-71 | an empty condition leaves the text unchanged; otherwise the text sits between an #if line and #endif |
| MsgGen.SurroundInjective | Source/RemoteFetcher/scripts/generator/messages.py:68-71 | surrounding under one condition loses nothing: different texts stay different |
| MsgGen.FunctionParameterType | Source/RemoteFetcher/scripts/generator/messages.py:74-96 | builtin types and enum: kinds are passed by value; everything else becomes const T& |
| MsgGen.ParameterTypeNamesType | Source/RemoteFetcher/scripts/generator/messages.py:74-96 | the parameter type always names the original type, and is a const reference exactly when not passed by value |
| MsgGen.ForwardDeclaration | Source/RemoteFetcher/scripts/generator/messages.py:184-193 | struct gives "struct T", enum:X gives "enum class T : X", anything else "class T" |
| MsgGen.ForwardDeclarationKeyword | Source/RemoteFetcher/scripts/generator/messages.py:184-193 | the declaration's keyword identifies its kind, in both directions |
| MsgGen.HandlerName | Source/RemoteFetcher/scripts/generator/messages.py:465-468 | names starting URL get url plus the rest; other names get their first letter lowered; an empty name fails |
| MsgGen.HandlerNameCaseless | Source/RemoteFetcher/scripts/generator/messages.py:465-468 | the handler name differs from the message name only in case |
| MsgGen.HandlerFunction | Source/RemoteFetcher/scripts/generator/messages.py:465-468 | the handler is qualified by the receiver's name |
| MsgGen.Filter | Source/RemoteFetcher/scripts/generator/messages.py:828-834 | every kept message has the requested sync classification |
| MsgGen.FilterPartition | Source/RemoteFetcher/scripts/generator/messages.py:828-834 | the sync and async lists together are a permutation of all messages |
| MsgGen.SplitMessages | Source/RemoteFetcher/scripts/generator/messages.py:828-834 | a message is sync iff it has reply parameters and is not Async; the two lists partition the messages in order |
| MsgGen.ReceiverNames | Source/RemoteFetcher/scripts/generator/messages.py:887-903 | receivers are numbered 1..n, then IPC n+1, AsyncReply n+2 and Invalid n+3 |
| MsgGen.MessageNames | Source/RemoteFetcher/scripts/generator/messages.py:906-933 | message names are numbered consecutively from 1, each Async message followed by its Reply, then the trailing names |
| MsgGen.NumberMessages | Source/RemoteFetcher/scripts/generator/messages.py:908-925 | the receivers' messages are numbered consecutively from 1 in order, each Async message's Reply taking the next value |
| MsgGen.ExpandLength | Source/RemoteFetcher/scripts/generator/messages.py:906-925 | each Async message takes exactly one extra value |
| MsgGen.MessageValue | Source/RemoteFetcher/scripts/generator/messages.py:906-925 | message i gets value i+1 plus the number of Async messages before it, and its Reply the next value |
| ErrorInfo.Step | Source/build-tools/make-error-info.py:62-94 | an OUTPUT_FILE or OUTPUT_VAR line changes no record |
| ErrorInfo.OutputLinesSkipOtherPatterns | Source/build-tools/make-error-info.py:64-72 | an OUTPUT line sets its value and skips all other matching |
| ErrorInfo.LastErrorLine | Source/build-tools/make-error-info.py:74-82 | the last error line, or none when there is none |
| ErrorInfo.RunTracks | Source/build-tools/make-error-info.py:62-94 | after any prefix of the input, the emitted records and the pending fields are those of the error lines read so far |
| ErrorInfo.StepTracks | Source/build-tools/make-error-info.py:62-94 | one loop iteration keeps that correspondence |
| ErrorInfo.StepTracksNewRecord | Source/build-tools/make-error-info.py:74-82 | an error line after a record emits it and starts a new one with fresh fields |
| ErrorInfo.StepTracksFirstRecord | Source/build-tools/make-error-info.py:75-81 | the first error line keeps the fields read before it |
| ErrorInfo.StepTracksSameRecord | Source/build-tools/make-error-info.py:84-94 | a field line inside a record overwrites that field |
| ErrorInfo.StepTracksNoRecord | Source/build-tools/make-error-info.py:84-94 | field lines before any error line are carried |
| ErrorInfo.RunMatchesRecords | Source/build-tools/make-error-info.py:54-98 | the records plus the final pending one are one record per error line, in order, each with the last field values of its span |
| ErrorInfo.Parse | Source/build-tools/make-error-info.py:54-98 | the output holds one record per error line, in order, and each has an error; the output file and variable are those of the last OUTPUT_FILE and OUTPUT_VAR lines, or empty |
| ErrorInfo.RunOutputs | Source/build-tools/make-error-info.py:64-72 | after any input the output file and variable are those of the last line carrying them, or empty |
| ErrorInfo.PreambleCarries | Source/build-tools/make-error-info.py:75-81 | an except= line before the first error line ends up in that error's record |
| ErrorInfo.GenerateEntries | Source/build-tools/make-error-info.py:100-114 | one entry per record, in order, each ending with 0 |
| ErrorInfo.EntriesRoundTrip | Source/build-tools/make-error-info.py:100-114 | each entry gives back its record's error, except, flags and msg |

## Left out

- Logging, `getenv` reads, `print_indent`, the `pcvcm_dump_*` functions and `pcvcm_print_stack` in eval.c: diagnostics and stream output.
- The native-wrapper helpers of eval.c (lines 383-430): they build and query objects through key constants that are not part of this model.
- The operator hooks (`after_pushed`, `select_param`, `eval` in ops.h): they are abstract function parameters of `EvalEngine.Ops`; what they read of the context is reduced to its flags and node array, and what they change in it is reduced to the last error (the find-variable callback and other context fields are not modelled).
- The pre-order `nodes` pointer table filled by `build_nodes_cb`: no modelled code reads it.
- `frame_create`/`frame_destroy`/`ctxt_create` reference counting and freeing: memory management; the frame fields they set are part of `EvalEngine.Push` and `EvalEngine.NewCtx`.
- EvalEngine.Push: frame allocation never fails, so the `!frame` exits of `push_frame` callers are not modelled.
- EvalEngine.SetSlot: a position outside the node array is ignored; the C code would write out of bounds.
- EvalEngine.EvalFrame: the store of the result into `frame->node->attach` is not modelled; nothing in the modelled code reads it.
- EvalEngine.EvalFull: context creation and `calloc` failure are not modelled.
- EvalEngine.EvalAgainFull: the value of a resumed run is proved to be one the `eval` hook produced for the outermost frame's node, but not equal to what an uninterrupted run would give; the hooks see the AGAIN flag and the memoised slots, so the two can differ.
- EvalEngine.EvalResumed: for the same reason it states only that both paths hand back a value of the root node, not that the two values agree.
- EvalEngine.EvalParam: a `select_param` that moves the step to anything but EVAL_VCM, or that raises an error while returning NULL with the step unchanged, is not modelled; the loop would then go on with that error pending.
- Variant.CastLongIntRoundTrip: the header does not say how negative values convert; the model takes the C conversions between `int64_t` and `uint64_t` to wrap modulo 2^64 (`AsInt64`, `AsUInt64`), and the round trip is a consequence of that reading.
- EvalEngine.EvalSubExprFull: the `realloc` of the node array is taken to succeed; the array simply grows.
- `pcvcm_eval_again_full` writes the recount to the `tree` argument's `nr_nodes` rather than the context's tree (eval.c:850); the model keeps no `nr_nodes` cache, so this is not reflected.
- Floating-point parsing and arithmetic (`atof`, long double, `purc_variant_numberify`): payloads are reals and the parsers are parameters.
- Variant.CastToLongInt: the conversion of a floating value outside the 64-bit range, undefined in C, saturates.
- `purc_variant_compare_ex`: its ordering compares floating-point magnitudes.
- `purc_variant_set_set_by_index` and the iterator release functions: not among the modelled operations; release is memory management.
- `purc_variant_serialize`, stringify and JSON loading: stream and file I/O whose implementation is not part of this model.
- Reference counts, listeners, and loading dynamic objects from shared libraries: concurrency, foreign calls and dynamic loading.
- hvml.c `after_pushed`, `attr_found_val`, and the `on_element`/`on_content`/`on_comment` calls inside `select_child`: eDOM mutation and attribute evaluation through interpreter APIs that are not part of this model.
- child.c `purc_load_hvml_from_string`, `purc_inst_create_or_get`, the schedulers and the atom lookup: instance and scheduler plumbing; their outcomes are parameters of `ChildCo.ScheduleChildCo`.
- msg-handler.c: coroutine message queues and red-black-tree lookup, i.e. concurrency plumbing.
- The IPC byte encoding inside `IPC::Encoder`/`Decoder`: fields are tokens in a stream, so the model checks field order and presence, not bytes.
- IpcCodec.NsRoundTrip: enum-value validity checks and `SessionID` validity inside the decoders are not modelled; an enum field is any natural number.
- FuncDemo.StatsUserRegion: the exact counts are proved for arrays of fewer than 2^64 members; a counter wrap-around would need that many.
- FuncDemo.CountRegions: the same bound applies to the counting loop on its own.
- FuncDemo.ToArray: a NULL argument is not expressible; whether `purc_variant_make_array` accepts one is decided inside the variant library, which is not part of this model. Its failure is a parameter (`made`), as are the two object allocations of `FuncDemo.StatsUserRegion`.
- Variant: creating a variant and updating a container are taken never to fail for lack of memory. The header's "True on success, otherwise False" (for example purc-variant.h:524, 739, 777) is therefore read as failing only for the documented type, index and key causes, and each operation's contract states exactly that set.
- CssFoil.ParseFoilCandidateMarks: bytecode words are symbolic; their bit encoding and the numeric property constants are not modelled.
- MsgGen.HandlerName: Python's `str.lower` is modelled on ASCII letters only.
- MsgGen.MessageNames: the enum's underlying-type range and the `#if` conditions around entries are not modelled; conditions do not change the numbering.
- MsgGen.ReceiverNames: the enum is declared `: uint8_t` (messages.py:887); the numbering is modelled on unbounded integers, so more than 252 receivers, which would overflow that type, are not detected.
- RwsWrap.BufferChars: on an allocation failure the source also records PURC_ERROR_OUT_OF_MEMORY as the instance's last error (hvml-rwswrap.c:119-121); the model reports only the failure and the buffer left behind. The loop counter `int i = nr_ucs - 1` narrows a `size_t`; the model counts on unbounded integers, so inputs of 2^31 or more characters are not modelled.
- RwsWrap.BufferArrlist: the same holds for its allocation failure (hvml-rwswrap.c:136-139) and for its `int i = length - 1` counter.
- The messages.py whole-file generators and header tables, and the make-error-info.py `__main__` file handling and license header: template emission and file I/O.
- ErrorInfo.Parse: the regular expressions are abstracted as per-line captures; a line's captures are given, not matched.
- ErrorInfo.EntriesRoundTrip: a field whose text is literally `None` renders like a missing field, so the round trip assumes no field has that text.
- test_interpreter.cpp and test_observe.cpp: end-to-end interpreter runs with no checkable outcome.

=== FILE: child_co.dfy ===
/** Scheduling a child coroutine (`interpreter/child.c`): the runner name
    used for the endpoint, the parsing of the renderer target string into a
    page type, page name and group, and the renderer extra information read
    from the request's `_renderer` object.

    The instance, the atom table, the vDOM loader and the schedulers are
    not part of this model: whether the endpoint atom exists, whether the
    document loads and which instance is the destination are parameters,
    and the outcome is the request that would be handed to the scheduler. */
module ChildCo {
  import opened Wrappers
  import opened Variant

  /** `DEFAULT_RUNNER_NAME`. */
  const DEFAULT_RUNNER_NAME: string := "_self"

  /** `PCRDR_PAGE_TYPE_NAME_WIDGET`; the header defining it is not part of
      this model and its value is taken to be "widget". */
  const WIDGET_NAME: string := "widget"

  datatype PageType = PageNull | PlainWin | Widget

  /** The runner of the new coroutine: the instance's own runner when none
      is named or the default name is given, the named one otherwise. */
  function RunnerName(runner: Option<string>, instRunner: string): (r: string)
    ensures runner.None? || runner.value == DEFAULT_RUNNER_NAME ==> r == instRunner
    ensures runner.Some? && runner.value != DEFAULT_RUNNER_NAME ==> r == runner.value
  {
    if runner.None? || runner.value == DEFAULT_RUNNER_NAME then instRunner else runner.value
  }

  // ---------------------------------------------------------------------
  // C string helpers.  Strings are NUL-free; the end of a sequence is the
  // terminating NUL.

  /** `strchr`: the position of the first occurrence of c. */
  function IndexOf(s: string, c: char): (r: Option<nat>)
    ensures r.Some? ==> r.value < |s| && s[r.value] == c && forall j :: 0 <= j < r.value ==> s[j] != c
    ensures r.None? ==> forall j :: 0 <= j < |s| ==> s[j] != c
    decreases |s|
  {
    if |s| == 0 then None
    else if s[0] == c then Some(0)
    else match IndexOf(s[1..], c)
      case None => None
      case Some(k) => Some(k + 1)
  }

  /** `strncmp(a, b, n) == 0`: the first n characters agree, stopping early
      where both strings end together. */
  function StrnEq(a: string, b: string, n: nat): bool
    decreases n
  {
    if n == 0 then true
    else if |a| == 0 || |b| == 0 then |a| == 0 && |b| == 0
    else a[0] == b[0] && StrnEq(a[1..], b[1..], n - 1)
  }

  /** When the first string is longer than n, `strncmp(a, b, n) == 0`
      holds exactly when the first n characters of a are a prefix of b. */
  lemma {:induction false} StrnEqPrefix(a: string, b: string, n: nat)
    requires n < |a|
    ensures StrnEq(a, b, n) <==> n <= |b| && a[..n] == b[..n]
    decreases n
  {
    if n > 0 && |b| > 0 {
      StrnEqPrefix(a[1..], b[1..], n - 1);
      if a[0] == b[0] && n - 1 <= |b[1..]| && a[1..][..n - 1] == b[1..][..n - 1] {
        assert a[..n] == [a[0]] + a[1..][..n - 1];
        assert b[..n] == [b[0]] + b[1..][..n - 1];
      }
      if n <= |b| && a[..n] == b[..n] {
        assert a[0] == a[..n][0];
        assert a[1..][..n - 1] == a[..n][1..];
        assert b[1..][..n - 1] == b[..n][1..];
      }
    } else if n > 0 {
      assert a[..n][0] == a[0];
    }
  }

  // ---------------------------------------------------------------------
  // The renderer target

  /** The page type, page name and group parsed from `rdr_target`. */
  datatype RdrTarget = RdrTarget(pageType: PageType, pageName: Option<string>, group: Option<string>)

  /** The text after the type prefix: everything after the first ':' or the
      whole target when there is none. */
  function PageSpec(t: string): (r: string)
    ensures IndexOf(t, ':').None? ==> r == t
    ensures IndexOf(t, ':').Some? ==> r == t[IndexOf(t, ':').value + 1..]
  {
    match IndexOf(t, ':')
    case None => t
    case Some(k) => t[k + 1..]
  }

  /** The page type chosen by the prefix before the first ':': a widget when
      `strncmp` finds it agrees with the widget name over the prefix's
      length, a plain window otherwise and when there is no ':'. */
  function TargetType(t: string): PageType
  {
    match IndexOf(t, ':')
    case None => PlainWin
    case Some(k) => if StrnEq(t, WIDGET_NAME, k) then Widget else PlainWin
  }

  /** The renderer-target parsing of `pcintr_schedule_child_co`: no target
      means a plain window with neither name nor group; otherwise the type
      comes from the prefix, and the page spec is split at its first '@'
      into name and group. */
  function ParseRdrTarget(target: Option<string>): (r: RdrTarget)
    ensures target.None? ==> r == RdrTarget(PlainWin, None, None)
    ensures target.Some? ==> r.pageName.Some? && r.pageType == TargetType(target.value)
    ensures target.Some? ==>
      var spec := PageSpec(target.value);
      match IndexOf(spec, '@')
      case None => r.pageName == Some(spec) && r.group.None?
      case Some(g) => r.pageName == Some(spec[..g]) && r.group == Some(spec[g + 1..])
  {
    if target.None? then RdrTarget(PlainWin, None, None)
    else
      var spec := PageSpec(target.value);
      match IndexOf(spec, '@')
      case None => RdrTarget(TargetType(target.value), Some(spec), None)
      case Some(g) => RdrTarget(TargetType(target.value), Some(spec[..g]), Some(spec[g + 1..]))
  }

  /** The widget test accepts exactly the prefixes of the widget name,
      including the empty one (a target starting with ':'). */
  lemma WidgetIffPrefix(prefix: string, rest: string)
    requires ':' !in prefix
    ensures TargetType(prefix + ":" + rest) == Widget <==>
      |prefix| <= |WIDGET_NAME| && prefix == WIDGET_NAME[..|prefix|]
  {
    var t := prefix + ":" + rest;
    FirstColonAfter(prefix, rest);
    StrnEqPrefix(t, WIDGET_NAME, |prefix|);
    assert t[..|prefix|] == prefix;
  }

  lemma FirstColonAfter(prefix: string, rest: string)
    requires ':' !in prefix
    ensures IndexOf(prefix + ":" + rest, ':') == Some(|prefix|)
  {
    var t := prefix + ":" + rest;
    assert t[|prefix|] == ':';
    assert forall j :: 0 <= j < |prefix| ==> t[j] == prefix[j];
  }

  /** A target with neither ':' nor '@' is a plain window named by the
      whole target, with no group. */
  lemma NoColonIsPlainWin(t: string)
    requires ':' !in t && '@' !in t
    ensures ParseRdrTarget(Some(t)) == RdrTarget(PlainWin, Some(t), None)
  {
  }

  /** The target a caller writes for a page: the type name, ':', the page
      name and, if there is one, '@' and the group. */
  function FormatRdrTarget(typeName: string, name: string, group: Option<string>): string
  {
    typeName + ":" + name + (if group.Some? then "@" + group.value else "")
  }

  /** Parsing a formatted target gives back the page name and group, when
      the name contains no '@' and the type name no ':'. */
  lemma {:induction false} ParseFormatted(typeName: string, name: string, group: Option<string>)
    requires ':' !in typeName && '@' !in name
    ensures var r := ParseRdrTarget(Some(FormatRdrTarget(typeName, name, group)));
      && r.pageName == Some(name)
      && r.group == group
      && r.pageType == TargetType(typeName + ":")
  {
    var t := FormatRdrTarget(typeName, name, group);
    if group.Some? {
      assert t == typeName + ":" + (name + "@" + group.value);
      ParseWithGroup(typeName, name, group.value);
    } else {
      assert t == typeName + ":" + name;
      ParseWithoutGroup(typeName, name);
    }
  }

  /** `ParseFormatted` for a target that names a group. */
  lemma {:induction false} ParseWithGroup(typeName: string, name: string, group: string)
    requires ':' !in typeName && '@' !in name
    ensures var r := ParseRdrTarget(Some(typeName + ":" + (name + "@" + group)));
      && r.pageName == Some(name)
      && r.group == Some(group)
      && r.pageType == TargetType(typeName + ":")
  {
    var tail := name + "@" + group;
    SpecAfterFirstColon(typeName, tail);
    FirstAtAfter(name, group);
    TypeByPrefix(typeName, tail);
  }

  /** `ParseFormatted` for a target without a group. */
  lemma {:induction false} ParseWithoutGroup(typeName: string, name: string)
    requires ':' !in typeName && '@' !in name
    ensures var r := ParseRdrTarget(Some(typeName + ":" + name));
      && r.pageName == Some(name)
      && r.group.None?
      && r.pageType == TargetType(typeName + ":")
  {
    SpecAfterFirstColon(typeName, name);
    assert forall j :: 0 <= j < |name| ==> name[j] != '@';
    assert IndexOf(name, '@').None?;
    TypeByPrefix(typeName, name);
  }

  lemma SpecAfterFirstColon(prefix: string, rest: string)
    requires ':' !in prefix
    ensures PageSpec(prefix + ":" + rest) == rest
  {
    FirstColonAfter(prefix, rest);
    assert (prefix + ":" + rest)[|prefix| + 1..] == rest;
  }

  lemma FirstAtAfter(name: string, group: string)
    requires '@' !in name
    ensures var t := name + "@" + group;
      IndexOf(t, '@') == Some(|name|) && t[..|name|] == name && t[|name| + 1..] == group
  {
    var t := name + "@" + group;
    assert t[|name|] == '@';
    assert forall j :: 0 <= j < |name| ==> t[j] == name[j];
    assert t[..|name|] == name;
    assert t[|name| + 1..] == group;
  }

  /** The type depends only on the text before the first ':'. */
  lemma TypeByPrefix(prefix: string, rest: string)
    requires ':' !in prefix
    ensures TargetType(prefix + ":" + rest) == TargetType(prefix + ":")
  {
    WidgetIffPrefix(prefix, rest);
    WidgetIffPrefix(prefix, "");
    assert prefix + ":" + "" == prefix + ":";
  }

  // ---------------------------------------------------------------------
  // Renderer extra information

  /** `purc_renderer_extra_info` as far as `fill_cor_rdr_info` sets it;
      `None` is NULL. */
  datatype RdrInfo = RdrInfo(
    klass: Option<string>,
    title: Option<string>,
    layoutStyle: Option<string>,
    toolkitStyle: Option<Value>,
    pageGroups: Option<string>)

  const EMPTY_RDR_INFO: RdrInfo := RdrInfo(None, None, None, None, None)

  /** `purc_variant_get_string_const`: the text of a string, NULL for any
      other value. */
  function StringConst(v: Value): (r: Option<string>)
    ensures r.Some? <==> v.String?
  {
    if v.String? then Some(v.s) else None
  }

  /** `purc_variant_object_get_by_ckey`. */
  function GetByCKey(obj: Value, key: string): Option<Value>
  {
    ObjectGet(obj, String(key))
  }

  /** A string field set only when its key is present: to the string, or
      to NULL when the member is not a string. */
  function FillString(prev: Option<string>, obj: Value, key: string): (r: Option<string>)
    ensures GetByCKey(obj, key).None? ==> r == prev
    ensures GetByCKey(obj, key).Some? ==> r == StringConst(GetByCKey(obj, key).value)
  {
    match GetByCKey(obj, key)
    case None => prev
    case Some(v) => StringConst(v)
  }

  /** `fill_cor_rdr_info`: `class`, `title`, `layoutStyle` and `pageGroups`
      overwrite their field only when present; `toolkitStyle` is assigned
      whatever the lookup gives, so a missing key resets it to NULL. */
  function FillRdrInfo(info: RdrInfo, rdr: Value): (r: RdrInfo)
    ensures r.klass == FillString(info.klass, rdr, "class")
    ensures r.title == FillString(info.title, rdr, "title")
    ensures r.layoutStyle == FillString(info.layoutStyle, rdr, "layoutStyle")
    ensures r.toolkitStyle == GetByCKey(rdr, "toolkitStyle")
    ensures r.pageGroups == FillString(info.pageGroups, rdr, "pageGroups")
  {
    RdrInfo(
      FillString(info.klass, rdr, "class"),
      FillString(info.title, rdr, "title"),
      FillString(info.layoutStyle, rdr, "layoutStyle"),
      GetByCKey(rdr, "toolkitStyle"),
      FillString(info.pageGroups, rdr, "pageGroups"))
  }

  /** Filling twice from the same object is filling once, and an object with
      none of the keys leaves every field but `toolkit_style` as it was. */
  lemma FillRdrInfoProperties(info: RdrInfo, rdr: Value)
    ensures FillRdrInfo(FillRdrInfo(info, rdr), rdr) == FillRdrInfo(info, rdr)
    ensures (&& GetByCKey(rdr, "class").None? && GetByCKey(rdr, "title").None?
             && GetByCKey(rdr, "layoutStyle").None? && GetByCKey(rdr, "pageGroups").None?) ==>
      FillRdrInfo(info, rdr) == info.(toolkitStyle := GetByCKey(rdr, "toolkitStyle"))
  {
  }

  /** A present string member is copied into its field. */
  lemma FillRdrInfoStrings(info: RdrInfo, rdr: Value, cls: string, title: string)
    requires GetByCKey(rdr, "class") == Some(String(cls))
    requires GetByCKey(rdr, "title") == Some(String(title))
    ensures FillRdrInfo(info, rdr).klass == Some(cls)
    ensures FillRdrInfo(info, rdr).title == Some(title)
  {
  }

  // ---------------------------------------------------------------------
  // pcintr_schedule_child_co

  /** What the scheduling code would hand to the scheduler: the runner, the
      parsed target, the renderer extra information and whether the
      destination is the current instance's move buffer. */
  datatype ChildRequest = ChildRequest(runnerName: string, target: RdrTarget, rdrInfo: RdrInfo, local: bool)

  /** The request is an object whose `_renderer` member is an object. */
  predicate HasRendererObject(request: Option<Value>)
  {
    && request.Some? && request.value.Object?
    && GetByCKey(request.value, "_renderer").Some? && GetByCKey(request.value, "_renderer").value.Object?
  }

  /** The extra information taken from a request: from its `_renderer`
      member when the request is an object and that member is one. */
  function RequestRdrInfo(request: Option<Value>): (r: RdrInfo)
    ensures request.None? || !request.value.Object? ==> r == EMPTY_RDR_INFO
    ensures HasRendererObject(request) ==> r == FillRdrInfo(EMPTY_RDR_INFO, GetByCKey(request.value, "_renderer").value)
    ensures !HasRendererObject(request) ==> r == EMPTY_RDR_INFO
  {
    if request.Some? && request.value.Object? then
      match GetByCKey(request.value, "_renderer")
      case Some(rdr) => if rdr.Object? then FillRdrInfo(EMPTY_RDR_INFO, rdr) else EMPTY_RDR_INFO
      case None => EMPTY_RDR_INFO
    else EMPTY_RDR_INFO
  }

  /** `pcintr_schedule_child_co` up to the scheduler call: nothing is
      scheduled (cid 0) when the endpoint does not exist and may not be
      created, when the document does not load, or when no destination
      instance is obtained (`destInst` 0). */
  function ScheduleChildCo(
      instRunner: string, runner: Option<string>, rdrTarget: Option<string>, request: Option<Value>,
      createRunner: bool, endpointKnown: bool, vdomLoaded: bool, destInst: nat, moveBuff: nat)
    : (r: Option<ChildRequest>)
    ensures !endpointKnown && !createRunner ==> r.None?
    ensures !vdomLoaded || destInst == 0 ==> r.None?
    ensures r.Some? <==> (endpointKnown || createRunner) && vdomLoaded && destInst != 0
    ensures r.Some? ==>
      && r.value.runnerName == RunnerName(runner, instRunner)
      && r.value.target == ParseRdrTarget(rdrTarget)
      && r.value.rdrInfo == RequestRdrInfo(request)
      && (r.value.local <==> moveBuff == destInst)
  {
    if !endpointKnown && !createRunner then None
    else if !vdomLoaded then None
    else if destInst == 0 then None
    else Some(ChildRequest(RunnerName(runner, instRunner), ParseRdrTarget(rdrTarget), RequestRdrInfo(request), moveBuff == destInst))
  }

  /** A child coroutine scheduled with a target written as
      `type:name@group` is handed to the scheduler with that page name and
      group, and with the runner the caller named (or the instance's own
      for `_self` or none). */
  lemma {:induction false} ScheduleCarriesTarget(
      instRunner: string, runner: Option<string>, typeName: string, name: string, group: Option<string>,
      request: Option<Value>, createRunner: bool, endpointKnown: bool, destInst: nat, moveBuff: nat)
    requires ':' !in typeName && '@' !in name
    requires (endpointKnown || createRunner) && destInst != 0
    ensures var r := ScheduleChildCo(instRunner, runner, Some(FormatRdrTarget(typeName, name, group)), request,
                                     createRunner, endpointKnown, true, destInst, moveBuff);
      && r.Some?
      && r.value.target.pageName == Some(name) && r.value.target.group == group
      && r.value.runnerName == (if runner.None? || runner.value == DEFAULT_RUNNER_NAME then instRunner else runner.value)
  {
    ParseFormatted(typeName, name, group);
  }
}

=== FILE: css_foil.dfy ===
/** The `foil-candidate-marks` property parser of the CSS engine
    (`CSSEng/parse/properties/foil_candidate_marks.c`): one token, which is
    `inherit`, `auto` (both without regard to case) or a string, becomes
    the property's bytecode; anything else is invalid.  Whatever the
    outcome other than success, the token position is restored.

    The token vector, the style bytecode and the sheet's string table are
    reduced to sequences.  How the bytecode words are encoded, and the
    numeric values of the property and its operand constants, are not part
    of this model: the words are kept symbolic.  Memory exhaustion is
    modelled by a capacity for the style and a flag for the string table. */
module CssFoil {
  import opened Wrappers

  datatype TokenType = Ident | StringToken | OtherToken(code: nat)

  datatype Token = Token(kind: TokenType, text: string)

  datatype CssError = CssOk | CssNoMem | CssInvalid

  /** The operand values of the property. */
  datatype MarksValue = MarksAuto | MarksSet

  /** One word of style bytecode for this property: the inherit marker, an
      opcode-property-value word, or a plain operand. */
  datatype StyleWord = InheritWord | OpvWord(value: MarksValue) | Operand(n: nat)

  /** A style under construction: its words and how many it can hold before
      an append runs out of memory. */
  datatype Style = Style(words: seq<StyleWord>, capacity: nat)

  /** The sheet's string table and whether adding to it can allocate. */
  datatype Sheet = Sheet(strings: seq<string>, canGrow: bool)

  /** `parserutils_vector_iterate`: the token at the position, moving past
      it, or nothing at the end. */
  function Iterate(vector: seq<Token>, ctx: nat): (r: (Option<Token>, nat))
    ensures ctx < |vector| ==> r == (Some(vector[ctx]), ctx + 1)
    ensures ctx >= |vector| ==> r == (None, ctx)
  {
    if ctx < |vector| then (Some(vector[ctx]), ctx + 1) else (None, ctx)
  }

  function LowerAscii(c: char): char
  {
    if 'A' <= c <= 'Z' then (c as int + 32) as char else c
  }

  /** `lwc_string_caseless_isequal`: equal after folding ASCII letters to
      lower case. */
  predicate CaselessEq(a: string, b: string)
  {
    |a| == |b| && forall i :: 0 <= i < |a| ==> LowerAscii(a[i]) == LowerAscii(b[i])
  }

  /** The whole string folded to lower case, one character at a time. */
  function FoldLower(s: string): (r: string)
    ensures |r| == |s|
  {
    if s == [] then [] else [LowerAscii(s[0])] + FoldLower(s[1..])
  }

  /** Caseless equality is plain equality of the folded strings. */
  lemma {:induction false} CaselessEqByFolding(a: string, b: string)
    ensures CaselessEq(a, b) <==> FoldLower(a) == FoldLower(b)
  {
    FoldLowerAt(a);
    FoldLowerAt(b);
    if FoldLower(a) == FoldLower(b) {
      forall i | 0 <= i < |a|
        ensures LowerAscii(a[i]) == LowerAscii(b[i])
      {
        assert FoldLower(a)[i] == FoldLower(b)[i];
      }
    }
  }

  lemma {:induction false} FoldLowerAt(s: string)
    ensures forall i :: 0 <= i < |s| ==> FoldLower(s)[i] == LowerAscii(s[i])
  {
    if s != [] {
      FoldLowerAt(s[1..]);
    }
  }

  /** `css__stylesheet_style_append` (and `_appendOPV`,
      `css_stylesheet_style_inherit`, which append one word): fails with
      NOMEM when the style is full, leaving it as it was. */
  function Append(s: Style, w: StyleWord): (r: (CssError, Style))
    ensures |s.words| < s.capacity ==> r == (CssOk, s.(words := s.words + [w]))
    ensures |s.words| >= s.capacity ==> r == (CssNoMem, s)
  {
    if |s.words| < s.capacity then (CssOk, s.(words := s.words + [w])) else (CssNoMem, s)
  }

  /** `css__stylesheet_string_add`: the number of the string in the sheet,
      adding it at the end when it is not there yet; NOMEM when it must be
      added and cannot. */
  function StringAdd(sh: Sheet, str: string): (r: (CssError, Sheet, nat))
    ensures r.0 == CssOk ==> r.2 < |r.1.strings| && r.1.strings[r.2] == str
    ensures r.0 == CssOk ==> |sh.strings| <= |r.1.strings| && r.1.strings[..|sh.strings|] == sh.strings
    ensures r.0 != CssOk ==> r.0 == CssNoMem && r.1 == sh
  {
    match Find(sh.strings, str, 0)
    case Some(i) => (CssOk, sh, i)
    case None =>
      if sh.canGrow then (CssOk, sh.(strings := sh.strings + [str]), |sh.strings|)
      else (CssNoMem, sh, 0)
  }

  function Find(ss: seq<string>, str: string, from: nat): (r: Option<nat>)
    ensures r.Some? ==> from <= r.value < |ss| && ss[r.value] == str
    decreases |ss| - from
  {
    if from >= |ss| then None
    else if ss[from] == str then Some(from)
    else Find(ss, str, from + 1)
  }

  const INHERIT: string := "inherit"
  const AUTO: string := "auto"

  datatype ParseResult = ParseResult(err: CssError, ctx: nat, style: Style, sheet: Sheet)

  /** `css__parse__foil_candidate_marks_impl`. */
  function ParseFoilCandidateMarks(sh: Sheet, vector: seq<Token>, ctx: nat, style: Style): (r: ParseResult)
    ensures r.err != CssOk ==> r.ctx == ctx
    ensures r.err == CssOk ==> r.ctx == ctx + 1
  {
    var (token, next) := Iterate(vector, ctx);
    if token.None? || !(token.value.kind.Ident? || token.value.kind.StringToken?) then
      ParseResult(CssInvalid, ctx, style, sh)
    else
      var t := token.value;
      var (err, style', sh') :=
        if t.kind.Ident? && CaselessEq(t.text, INHERIT) then
          var (e, s1) := Append(style, InheritWord); (e, s1, sh)
        else if t.kind.Ident? && CaselessEq(t.text, AUTO) then
          var (e, s1) := Append(style, OpvWord(MarksAuto)); (e, s1, sh)
        else if t.kind.StringToken? then
          var (e1, sh1, snumber) := StringAdd(sh, t.text);
          if e1 != CssOk then (e1, style, sh1)
          else
            var (e2, s1) := Append(style, OpvWord(MarksSet));
            if e2 != CssOk then (e2, s1, sh1)
            else
              var (e3, s2) := Append(s1, Operand(snumber)); (e3, s2, sh1)
        else (CssInvalid, style, sh);
      ParseResult(err, if err == CssOk then next else ctx, style', sh')
  }

  // ---------------------------------------------------------------------
  // Properties

  /** A missing token, or one that is neither an identifier nor a string,
      is invalid and changes nothing. */
  lemma RejectsOtherTokens(sh: Sheet, vector: seq<Token>, ctx: nat, style: Style)
    requires ctx >= |vector| || !(vector[ctx].kind.Ident? || vector[ctx].kind.StringToken?)
    ensures ParseFoilCandidateMarks(sh, vector, ctx, style) == ParseResult(CssInvalid, ctx, style, sh)
  {
  }

  /** An identifier other than `inherit` and `auto` is invalid and changes
      nothing. */
  lemma RejectsOtherIdents(sh: Sheet, vector: seq<Token>, ctx: nat, style: Style)
    requires ctx < |vector| && vector[ctx].kind.Ident?
    requires !CaselessEq(vector[ctx].text, INHERIT) && !CaselessEq(vector[ctx].text, AUTO)
    ensures ParseFoilCandidateMarks(sh, vector, ctx, style) == ParseResult(CssInvalid, ctx, style, sh)
  {
  }

  /** `inherit` in any case appends the inherit marker; `auto` in any case
      appends the AUTO operand; with room in the style both succeed and
      consume the token. */
  lemma Keywords(sh: Sheet, vector: seq<Token>, ctx: nat, style: Style)
    requires ctx < |vector| && vector[ctx].kind.Ident? && |style.words| < style.capacity
    ensures CaselessEq(vector[ctx].text, INHERIT) ==>
      ParseFoilCandidateMarks(sh, vector, ctx, style) ==
        ParseResult(CssOk, ctx + 1, style.(words := style.words + [InheritWord]), sh)
    ensures !CaselessEq(vector[ctx].text, INHERIT) && CaselessEq(vector[ctx].text, AUTO) ==>
      ParseFoilCandidateMarks(sh, vector, ctx, style) ==
        ParseResult(CssOk, ctx + 1, style.(words := style.words + [OpvWord(MarksAuto)]), sh)
  {
  }

  /** A string token appends the SET operand followed by the number of the
      string in the sheet, and that number gives the string back. */
  lemma StringValue(sh: Sheet, vector: seq<Token>, ctx: nat, style: Style)
    requires ctx < |vector| && vector[ctx].kind.StringToken?
    requires sh.canGrow && |style.words| + 2 <= style.capacity
    ensures var r := ParseFoilCandidateMarks(sh, vector, ctx, style);
      && r.err == CssOk
      && r.ctx == ctx + 1
      && |r.style.words| == |style.words| + 2
      && r.style.words[..|style.words|] == style.words
      && r.style.words[|style.words|] == OpvWord(MarksSet)
      && r.style.words[|style.words| + 1].Operand?
      && r.style.words[|style.words| + 1].n < |r.sheet.strings|
      && r.sheet.strings[r.style.words[|style.words| + 1].n] == vector[ctx].text
  {
    var r := ParseFoilCandidateMarks(sh, vector, ctx, style);
    var (e1, sh1, snumber) := StringAdd(sh, vector[ctx].text);
    var s1 := style.(words := style.words + [OpvWord(MarksSet)]);
    assert r.style.words == style.words + [OpvWord(MarksSet)] + [Operand(snumber)];
  }

  /** With no memory for the string table, a string token fails with NOMEM
      and the position and style are restored. */
  lemma StringNoMem(sh: Sheet, vector: seq<Token>, ctx: nat, style: Style)
    requires ctx < |vector| && vector[ctx].kind.StringToken?
    requires !sh.canGrow && vector[ctx].text !in sh.strings
    ensures ParseFoilCandidateMarks(sh, vector, ctx, style) == ParseResult(CssNoMem, ctx, style, sh)
  {
    FindAbsent(sh.strings, vector[ctx].text, 0);
  }

  lemma {:induction false} FindAbsent(ss: seq<string>, str: string, from: nat)
    requires str !in ss
    ensures Find(ss, str, from).None?
    decreases |ss| - from
  {
    if from < |ss| {
      FindAbsent(ss, str, from + 1);
    }
  }
}

=== FILE: error_info.dfy ===
/** The error-table generator `build-tools/make-error-info.py`: `parse`
    folds the lines of an `.error.in` file into error records, and
    `generate_inc` turns the records into the entries of a C array.

    The regular expressions are abstracted: each stripped line is given
    with what each of the six patterns captured on it (`None` when the
    pattern does not match).  Python's `match.groups()` tuple is the one
    captured string here; `'%s' % None` renders as `None`. */
module ErrorInfo {
  import opened Wrappers
  import opened Seqs

  /** What the patterns capture on one stripped line. */
  datatype Line = Line(
    outputFile: Option<string>,
    outputVar: Option<string>,
    error: Option<string>,
    exceptName: Option<string>,
    flags: Option<string>,
    msg: Option<string>)

  /** One record of `messages`: the error name and the three fields last
      seen for it. */
  datatype Fields = Fields(error: Option<string>, exceptName: Option<string>, flags: Option<string>, msg: Option<string>)

  datatype ParseState = ParseState(
    outputFile: string,
    outputVar: string,
    messages: seq<Fields>,
    pending: Fields)

  const NO_FIELDS: Fields := Fields(None, None, None, None)

  /** OUTPUT_FILE and OUTPUT_VAR lines end the loop body with `continue`. */
  predicate IsOutputLine(l: Line)
  {
    l.outputFile.Some? || l.outputVar.Some?
  }

  /** The field selectors that the `except=`, `flags=` and `msg=` patterns
      fill. */
  datatype FieldName = ExceptField | FlagsField | MsgField

  /** What a line contributes to a field, after the OUTPUT checks. */
  function Capture(l: Line, f: FieldName): Option<string>
  {
    if IsOutputLine(l) then None
    else match f
      case ExceptField => l.exceptName
      case FlagsField => l.flags
      case MsgField => l.msg
  }

  /** The error a line starts a record with, after the OUTPUT checks. */
  function ErrorOf(l: Line): Option<string>
  {
    if IsOutputLine(l) then None else l.error
  }

  function Get(r: Fields, f: FieldName): Option<string>
  {
    match f
    case ExceptField => r.exceptName
    case FlagsField => r.flags
    case MsgField => r.msg
  }

  // ---------------------------------------------------------------------
  // parse, as written: one loop step per line

  /** The body of the `for line in file` loop. */
  function Step(st: ParseState, l: Line): (r: ParseState)
    ensures IsOutputLine(l) ==> r.messages == st.messages && r.pending == st.pending
  {
    if l.outputFile.Some? then st.(outputFile := l.outputFile.value)
    else if l.outputVar.Some? then st.(outputVar := l.outputVar.value)
    else
      var st1 :=
        if l.error.Some? then
          if st.pending.error.Some? then
            st.(messages := st.messages + [st.pending], pending := NO_FIELDS.(error := l.error))
          else st.(pending := st.pending.(error := l.error))
        else st;
      var p := st1.pending;
      var p1 := if l.exceptName.Some? then p.(exceptName := l.exceptName) else p;
      var p2 := if l.flags.Some? then p1.(flags := l.flags) else p1;
      var p3 := if l.msg.Some? then p2.(msg := l.msg) else p2;
      st1.(pending := p3)
  }

  const INITIAL: ParseState := ParseState("", "", [], NO_FIELDS)

  /** The state after the loop has run over `lines`. */
  function Run(lines: seq<Line>): ParseState
    decreases |lines|
  {
    if |lines| == 0 then INITIAL else Step(Run(lines[..|lines| - 1]), lines[|lines| - 1])
  }

  /** The pending record, if it has an error. */
  function Pending(st: ParseState): seq<Fields>
  {
    if st.pending.error.Some? then [st.pending] else []
  }

  /** `parse`: the output file, the output variable, and the records, the
      last pending one emitted at the end of input. */
  method Parse(lines: seq<Line>) returns (outputFile: string, outputVar: string, messages: seq<Fields>)
    ensures messages == Records(lines)
    ensures forall k :: 0 <= k < |messages| ==> messages[k].error.Some?
    ensures outputFile == LastOutputFile(lines) && outputVar == LastOutputVar(lines)
  {
    var st := INITIAL;
    var i := 0;
    while i < |lines|
      invariant 0 <= i <= |lines|
      invariant st == Run(lines[..i])
    {
      assert lines[..i + 1][..i] == lines[..i];
      st := Step(st, lines[i]);
      i := i + 1;
    }
    assert lines[..i] == lines;
    RunMatchesRecords(lines);
    RunOutputs(lines);
    outputFile, outputVar := st.outputFile, st.outputVar;
    messages := st.messages + Pending(st);
  }

  // ---------------------------------------------------------------------
  // The outputs and the records, defined independently

  /** The value of the last OUTPUT_FILE line, or the empty string. */
  function LastOutputFile(lines: seq<Line>): string
    decreases |lines|
  {
    if |lines| == 0 then ""
    else if lines[|lines| - 1].outputFile.Some? then lines[|lines| - 1].outputFile.value
    else LastOutputFile(lines[..|lines| - 1])
  }

  /** The value of the last OUTPUT_VAR line that is not also an OUTPUT_FILE
      line (that pattern is tried first), or the empty string. */
  function LastOutputVar(lines: seq<Line>): string
    decreases |lines|
  {
    if |lines| == 0 then ""
    else if lines[|lines| - 1].outputFile.None? && lines[|lines| - 1].outputVar.Some? then lines[|lines| - 1].outputVar.value
    else LastOutputVar(lines[..|lines| - 1])
  }

  /** The loop's output file and variable are the last ones the lines set. */
  lemma {:induction false} RunOutputs(lines: seq<Line>)
    ensures Run(lines).outputFile == LastOutputFile(lines)
    ensures Run(lines).outputVar == LastOutputVar(lines)
    decreases |lines|
  {
    if |lines| > 0 {
      RunOutputs(lines[..|lines| - 1]);
    }
  }


  /** The index of the last line that starts a record. */
  function LastErrorLine(lines: seq<Line>): (r: Option<nat>)
    ensures r.Some? ==> r.value < |lines| && ErrorOf(lines[r.value]).Some?
    ensures r.Some? ==> forall j :: r.value < j < |lines| ==> ErrorOf(lines[j]).None?
    ensures r.None? ==> forall j :: 0 <= j < |lines| ==> ErrorOf(lines[j]).None?
    decreases |lines|
  {
    if |lines| == 0 then None
    else if ErrorOf(lines[|lines| - 1]).Some? then Some(|lines| - 1)
    else LastErrorLine(lines[..|lines| - 1])
  }

  /** The last value the lines give a field, if any. */
  function LastCapture(lines: seq<Line>, f: FieldName): Option<string>
    decreases |lines|
  {
    if |lines| == 0 then None
    else if Capture(lines[|lines| - 1], f).Some? then Capture(lines[|lines| - 1], f)
    else LastCapture(lines[..|lines| - 1], f)
  }

  /** Where the fields of the record started by the last error line are
      collected from: that line, or the first line if it is the first
      error line, since nothing is reset before the first record. */
  function SpanStart(lines: seq<Line>): (s: nat)
    ensures s <= |lines|
  {
    match LastErrorLine(lines)
    case None => 0
    case Some(p) => if LastErrorLine(lines[..p]).Some? then p else 0
  }

  function RecordAt(lines: seq<Line>, p: nat, s: nat): Fields
    requires s <= p < |lines|
  {
    Fields(ErrorOf(lines[p]),
      LastCapture(lines[s..], ExceptField), LastCapture(lines[s..], FlagsField), LastCapture(lines[s..], MsgField))
  }

  /** One record per error line, in order; each holds the last `except=`,
      `flags=` and `msg=` values from its error line up to the next one,
      the first record also those of the lines before it. */
  function Records(lines: seq<Line>): seq<Fields>
    decreases |lines|
  {
    match LastErrorLine(lines)
    case None => []
    case Some(p) => Records(lines[..p]) + [RecordAt(lines, p, SpanStart(lines))]
  }

  lemma LastCaptureSnoc(lines: seq<Line>, l: Line, f: FieldName)
    ensures LastCapture(lines + [l], f) == if Capture(l, f).Some? then Capture(l, f) else LastCapture(lines, f)
  {
    assert (lines + [l])[..|lines|] == lines;
  }

  lemma LastErrorSnoc(lines: seq<Line>, l: Line)
    ensures LastErrorLine(lines + [l]) == if ErrorOf(l).Some? then Some(|lines|) else LastErrorLine(lines)
  {
    assert (lines + [l])[..|lines|] == lines;
  }

  /** What the loop keeps about the lines it has read: the records emitted
      and pending are those of the reference, and the pending fields are
      the last ones of the current span. */
  ghost predicate Tracks(lines: seq<Line>, st: ParseState)
  {
    && st.messages + Pending(st) == Records(lines)
    && (st.pending.error.Some? <==> LastErrorLine(lines).Some?)
    && (forall k :: 0 <= k < |st.messages| ==> st.messages[k].error.Some?)
    && forall f :: Get(st.pending, f) == LastCapture(lines[SpanStart(lines)..], f)
  }

  /** The loop keeps `Tracks` line by line. */
  lemma {:induction false} RunTracks(lines: seq<Line>)
    ensures Tracks(lines, Run(lines))
    decreases |lines|
  {
    if |lines| > 0 {
      var prev := lines[..|lines| - 1];
      var l := lines[|lines| - 1];
      assert lines == prev + [l];
      RunTracks(prev);
      StepTracks(prev, l, Run(prev));
    }
  }

  /** A value of the field after a line: the line's own, else the one it
      had. */
  function Override(prev: Option<string>, l: Line, f: FieldName): Option<string>
  {
    if Capture(l, f).Some? then Capture(l, f) else prev
  }

  /** One loop step, field by field. */
  lemma StepEffect(st: ParseState, l: Line)
    ensures var st' := Step(st, l);
      && (ErrorOf(l).None? ==>
            && st'.messages == st.messages && st'.pending.error == st.pending.error
            && forall f :: Get(st'.pending, f) == Override(Get(st.pending, f), l, f))
      && (ErrorOf(l).Some? && st.pending.error.Some? ==>
            && st'.messages == st.messages + [st.pending] && st'.pending.error == ErrorOf(l)
            && forall f :: Get(st'.pending, f) == Capture(l, f))
      && (ErrorOf(l).Some? && st.pending.error.None? ==>
            && st'.messages == st.messages && st'.pending.error == ErrorOf(l)
            && forall f :: Get(st'.pending, f) == Override(Get(st.pending, f), l, f))
  {
  }

  lemma StepTracks(lines: seq<Line>, l: Line, st: ParseState)
    requires Tracks(lines, st)
    ensures Tracks(lines + [l], Step(st, l))
  {
    StepEffect(st, l);
    LastErrorSnoc(lines, l);
    if ErrorOf(l).None? {
      match LastErrorLine(lines) {
        case None => StepTracksNoRecord(lines, l, st);
        case Some(p) => StepTracksSameRecord(lines, l, st, p);
      }
    } else if st.pending.error.Some? {
      StepTracksNewRecord(lines, l, st);
    } else {
      StepTracksFirstRecord(lines, l, st);
    }
  }

  lemma StepTracksNoRecord(lines: seq<Line>, l: Line, st: ParseState)
    requires Tracks(lines, st) && ErrorOf(l).None? && LastErrorLine(lines).None?
    ensures Tracks(lines + [l], Step(st, l))
  {
    var lines' := lines + [l];
    StepEffect(st, l);
    LastErrorSnoc(lines, l);
    assert lines'[0..] == lines' && lines[0..] == lines;
    forall f
      ensures Get(Step(st, l).pending, f) == LastCapture(lines', f)
    {
      LastCaptureSnoc(lines, l, f);
    }
  }

  lemma StepTracksSameRecord(lines: seq<Line>, l: Line, st: ParseState, p: nat)
    requires Tracks(lines, st) && ErrorOf(l).None? && LastErrorLine(lines) == Some(p)
    ensures Tracks(lines + [l], Step(st, l))
  {
    var lines' := lines + [l];
    var st' := Step(st, l);
    StepEffect(st, l);
    LastErrorSnoc(lines, l);
    var s := SpanStart(lines);
    TakeSnoc(lines, l, p);
    assert SpanStart(lines') == s;
    DropSnoc(lines, l, s);
    forall f
      ensures Get(st'.pending, f) == LastCapture(lines'[s..], f)
    {
      LastCaptureSnoc(lines[s..], l, f);
    }
    assert st.messages == Records(lines[..p]) && st.pending == RecordAt(lines, p, s) by {
      assert st.messages + [st.pending] == Records(lines[..p]) + [RecordAt(lines, p, s)];
      SnocInjective(st.messages, st.pending, Records(lines[..p]), RecordAt(lines, p, s));
    }
    assert lines'[p] == lines[p];
    assert Get(st'.pending, ExceptField) == RecordAt(lines', p, s).exceptName;
    assert Get(st'.pending, FlagsField) == RecordAt(lines', p, s).flags;
    assert Get(st'.pending, MsgField) == RecordAt(lines', p, s).msg;
    assert st'.pending == RecordAt(lines', p, s);
  }

  lemma StepTracksNewRecord(lines: seq<Line>, l: Line, st: ParseState)
    requires Tracks(lines, st) && ErrorOf(l).Some? && st.pending.error.Some?
    ensures Tracks(lines + [l], Step(st, l))
  {
    var lines' := lines + [l];
    var st' := Step(st, l);
    StepEffect(st, l);
    LastErrorSnoc(lines, l);
    assert lines'[..|lines|] == lines;
    assert SpanStart(lines') == |lines|;
    assert lines'[|lines|..] == [l];
    forall f
      ensures Get(st'.pending, f) == LastCapture([l], f)
    {
      assert [l] == [] + [l];
      LastCaptureSnoc([], l, f);
    }
    assert st'.pending == RecordAt(lines', |lines|, |lines|);
  }

  lemma StepTracksFirstRecord(lines: seq<Line>, l: Line, st: ParseState)
    requires Tracks(lines, st) && ErrorOf(l).Some? && st.pending.error.None?
    ensures Tracks(lines + [l], Step(st, l))
  {
    var lines' := lines + [l];
    var st' := Step(st, l);
    StepEffect(st, l);
    LastErrorSnoc(lines, l);
    assert lines'[..|lines|] == lines;
    assert SpanStart(lines') == 0 && SpanStart(lines) == 0;
    assert lines'[0..] == lines' && lines[0..] == lines;
    forall f
      ensures Get(st'.pending, f) == LastCapture(lines', f)
    {
      LastCaptureSnoc(lines, l, f);
    }
    assert st'.pending == RecordAt(lines', |lines|, 0);
  }

  /** `parse` as written produces exactly the reference records. */
  lemma RunMatchesRecords(lines: seq<Line>)
    ensures Run(lines).messages + Pending(Run(lines)) == Records(lines)
    ensures forall k :: 0 <= k < |Records(lines)| ==> Records(lines)[k].error.Some?
  {
    RunTracks(lines);
  }

  /** OUTPUT_FILE and OUTPUT_VAR lines are captured and nothing else on
      them is looked at. */
  lemma OutputLinesSkipOtherPatterns(st: ParseState, l: Line)
    requires IsOutputLine(l)
    ensures Step(st, l).messages == st.messages && Step(st, l).pending == st.pending
    ensures l.outputFile.Some? ==> Step(st, l).outputFile == l.outputFile.value
    ensures l.outputFile.None? ==> Step(st, l).outputVar == l.outputVar.value
  {
  }

  /** Fields given before the first error line belong to the first record
      unless its own span gives them again. */
  lemma PreambleCarries(pre: Line, e: Line)
    requires !IsOutputLine(pre) && pre.error.None? && pre.exceptName.Some?
    requires !IsOutputLine(e) && e.error.Some? && e.exceptName.None?
    ensures Records([pre, e]) == [Fields(e.error, pre.exceptName, LastCapture([pre, e], FlagsField), LastCapture([pre, e], MsgField))]
  {
    var lines := [pre, e];
    assert lines[..1] == [pre];
    assert [pre][..0] == [];
    assert LastErrorLine([pre]) == None;
    assert SpanStart(lines) == 0;
    assert lines[0..] == lines;
    assert LastCapture(lines, ExceptField) == pre.exceptName;
  }

  // ---------------------------------------------------------------------
  // generate_inc

  /** One initialiser of the `err_msg_info` array: the comment naming the
      error and the four values `msg`, `except`, `flags`, `0`. */
  datatype Entry = Entry(comment: string, values: seq<string>)

  /** `'%s' % x` for a captured field. */
  function Render(o: Option<string>): string
  {
    match o
    case Some(s) => s
    case None => "None"
  }

  /** `generate_inc`'s entries, one per record, in order. */
  function GenerateEntries(messages: seq<Fields>): (r: seq<Entry>)
    ensures |r| == |messages|
    ensures forall i :: 0 <= i < |r| ==> |r[i].values| == 4 && r[i].values[3] == "0"
    decreases |messages|
  {
    if |messages| == 0 then []
    else
      var m := messages[0];
      [Entry(Render(m.error), [Render(m.msg), Render(m.exceptName), Render(m.flags), "0"])]
        + GenerateEntries(messages[1..])
  }

  /** Reading a rendered field back: `None` stands for no value. */
  function Unrender(s: string): Option<string>
  {
    if s == "None" then None else Some(s)
  }

  /** The record an entry was generated from. */
  function RecordOf(e: Entry): Fields
    requires |e.values| == 4
  {
    Fields(Unrender(e.comment), Unrender(e.values[1]), Unrender(e.values[2]), Unrender(e.values[0]))
  }

  /** No captured field is the literal text `None`, which would render the
      same as no value. */
  predicate Unambiguous(m: Fields)
  {
    m.error != Some("None") && m.exceptName != Some("None") && m.flags != Some("None") && m.msg != Some("None")
  }

  /** The entries give the records back, in order, as long as no field is
      the text `None`. */
  lemma {:induction false} EntriesRoundTrip(messages: seq<Fields>)
    requires forall i :: 0 <= i < |messages| ==> Unambiguous(messages[i])
    ensures var es := GenerateEntries(messages);
      forall i :: 0 <= i < |es| ==> RecordOf(es[i]) == messages[i]
    decreases |messages|
  {
    if |messages| > 0 {
      EntriesRoundTrip(messages[1..]);
      var es := GenerateEntries(messages);
      assert es[1..] == GenerateEntries(messages[1..]);
      forall i | 0 <= i < |es|
        ensures RecordOf(es[i]) == messages[i]
      {
        if i > 0 {
          assert es[i] == es[1..][i - 1];
          assert messages[i] == messages[1..][i - 1];
        }
      }
    }
  }
}

=== FILE: eval_dispatch.dfy ===
/** The host dispatch bridge of `vcm/eval.c`: the call flags handed to
    host methods, the dispatch to the getter or setter of a dynamic or
    native value, and the rule that decides whether a node is evaluated as
    a getter call or as a callee reference.

    Host methods are not part of this model; they are supplied as total
    function values from method identifiers to results (`None` is
    `PURC_VARIANT_INVALID`). */
module EvalDispatch {
  import opened Wrappers
  import opened Variant
  import opened VcmTree
  import opened EvalEngine
  import opened EvalIndex

  /** The `PCVRT_CALL_FLAG_*` bits passed to a host method. */
  datatype CallFlag = CallSilently | CallAgain | CallTimeout

  /** `pcvcm_eval_ctxt_get_call_flags`: each evaluation flag is mapped to
      its call flag and nothing else is raised. */
  function GetCallFlags(flags: set<EvalFlag>): (r: set<CallFlag>)
    ensures CallSilently in r <==> Silently in flags
    ensures CallAgain in r <==> AgainFlag in flags
    ensures CallTimeout in r <==> Timeout in flags
  {
    (if Silently in flags then {CallSilently} else {})
    + (if AgainFlag in flags then {CallAgain} else {})
    + (if Timeout in flags then {CallTimeout} else {})
  }

  /** The mapping is one-to-one: the call flags determine the evaluation
      flags they came from. */
  lemma {:induction false} GetCallFlagsInjective(a: set<EvalFlag>, b: set<EvalFlag>)
    requires GetCallFlags(a) == GetCallFlags(b)
    ensures a == b
  {
    forall x: EvalFlag
      ensures x in a <==> x in b
    {
      match x
      case Silently => assert CallSilently in GetCallFlags(a) <==> CallSilently in GetCallFlags(b);
      case AgainFlag => assert CallAgain in GetCallFlags(a) <==> CallAgain in GetCallFlags(b);
      case Timeout => assert CallTimeout in GetCallFlags(a) <==> CallTimeout in GetCallFlags(b);
    }
  }

  /** `enum pcvcm_eval_method_type`. */
  datatype MethodType = GetterMethod | SetterMethod

  /** `purc_variant_dynamic_get_getter` / `_get_setter`: the method of a
      dynamic value selected by the method type; nothing for any other
      value. */
  function DynamicMethod(v: Value, t: MethodType): (r: Option<FnId>)
    ensures r.Some? ==> v.Dynamic?
  {
    if !v.Dynamic? then None
    else if t == GetterMethod then v.getter
    else v.setter
  }

  /** `pcvcm_eval_call_dvariant_method`: call the selected method of a
      dynamic value with the root, the arguments and the call flags; a
      missing method yields INVALID. */
  function CallDvariantMethod(
      root: Value, v: Value, args: seq<Value>, t: MethodType, callFlags: set<CallFlag>,
      host: (FnId, Value, seq<Value>, set<CallFlag>) -> Option<Value>): (r: Option<Value>)
    ensures DynamicMethod(v, t).None? ==> r.None?
    ensures r.Some? ==> v.Dynamic? && r == host(DynamicMethod(v, t).value, root, args, callFlags)
  {
    match DynamicMethod(v, t)
    case None => None
    case Some(fn) => host(fn, root, args, callFlags)
  }

  /** A dynamic value dispatches to its getter for GETTER_METHOD and to its
      setter for SETTER_METHOD, and a missing one yields INVALID. */
  lemma {:induction false} DvariantDispatch(
      root: Value, getter: Option<FnId>, setter: Option<FnId>, args: seq<Value>, fl: set<CallFlag>,
      host: (FnId, Value, seq<Value>, set<CallFlag>) -> Option<Value>)
    ensures getter.Some? ==> CallDvariantMethod(root, Dynamic(getter, setter), args, GetterMethod, fl, host) == host(getter.value, root, args, fl)
    ensures setter.Some? ==> CallDvariantMethod(root, Dynamic(getter, setter), args, SetterMethod, fl, host) == host(setter.value, root, args, fl)
    ensures getter.None? ==> CallDvariantMethod(root, Dynamic(getter, setter), args, GetterMethod, fl, host).None?
    ensures setter.None? ==> CallDvariantMethod(root, Dynamic(getter, setter), args, SetterMethod, fl, host).None?
  {
    assert DynamicMethod(Dynamic(getter, setter), GetterMethod) == getter;
    assert DynamicMethod(Dynamic(getter, setter), SetterMethod) == setter;
  }

  /** The native operation table of a host: `property_getter` and
      `property_setter` look a method up by table, entity and key name,
      `call` runs it on the entity. */
  datatype NativeOps = NativeOps(
    propertyGetter: (nat, nat, string) -> Option<FnId>,
    propertySetter: (nat, nat, string) -> Option<FnId>,
    call: (FnId, nat, seq<Value>, set<CallFlag>) -> Option<Value>)

  /** The property method a native operation table offers for a key:
      `property_getter` for GETTER_METHOD, `property_setter` otherwise. */
  function PropertyMethod(host: NativeOps, t: MethodType, table: nat, entity: nat, keyName: string): Option<FnId>
  {
    if t == GetterMethod then host.propertyGetter(table, entity, keyName)
    else host.propertySetter(table, entity, keyName)
  }

  /** `pcvcm_eval_call_nvariant_method`: a native value with an operation
      table looks up the property method for the key name and calls it on
      its entity; no table or no method yields INVALID. */
  function CallNvariantMethod(
      v: Value, keyName: string, args: seq<Value>, t: MethodType, callFlags: set<CallFlag>,
      host: NativeOps): (r: Option<Value>)
    ensures !(v.Native? && v.ops.Some?) ==> r.None?
    ensures r.Some? ==>
      && v.Native? && v.ops.Some?
      && PropertyMethod(host, t, v.ops.value, v.entity, keyName).Some?
      && r == host.call(PropertyMethod(host, t, v.ops.value, v.entity, keyName).value, v.entity, args, callFlags)
  {
    if !(v.Native? && v.ops.Some?) then None
    else
      match PropertyMethod(host, t, v.ops.value, v.entity, keyName)
      case None => None
      case Some(fn) => host.call(fn, v.entity, args, callFlags)
  }

  /** A native value with an operation table whose property lookup finds a
      method returns exactly that method's result on its entity; a lookup
      that finds nothing yields INVALID. */
  lemma {:induction false} NvariantDispatch(
      entity: nat, table: nat, keyName: string, args: seq<Value>, t: MethodType, fl: set<CallFlag>, host: NativeOps)
    ensures var m := PropertyMethod(host, t, table, entity, keyName);
      && (m.Some? ==> CallNvariantMethod(Native(entity, Some(table)), keyName, args, t, fl, host) == host.call(m.value, entity, args, fl))
      && (m.None? ==> CallNvariantMethod(Native(entity, Some(table)), keyName, args, t, fl, host).None?)
    ensures CallNvariantMethod(Native(entity, None), keyName, args, t, fl, host).None?
  {
  }

  /** `pcvcm_eval_is_handle_as_getter` for a node and its parent (`None`
      for the root): the node is a callee reference only when its parent is
      an action node and the node is that parent's first child. */
  function IsHandleAsGetter(parent: Option<VcmNode>, node: VcmNode): bool
  {
    !(&& parent.Some?
      && IsAction(parent.value.kind)
      && |parent.value.children| > 0
      && parent.value.children[0].id == node.id)
  }

  /** In a tree with distinct node addresses, the i-th child of `p` is
      handled as a getter exactly unless `p` is GET_ELEMENT, CALL_GETTER or
      CALL_SETTER and i is 0; the root always is. */
  lemma {:induction false} HandleAsGetterPosition(p: VcmNode, i: nat, root: VcmNode)
    requires UniqueIds(p) && i < |p.children|
    ensures IsHandleAsGetter(Some(p), p.children[i]) <==> !(IsAction(p.kind) && i == 0)
    ensures IsHandleAsGetter(None, root)
  {
    var cs := p.children;
    if i > 0 {
      assert UniqueForest(cs);
      IdsForestElem(cs[1..], i - 1);
      assert cs[1..][i - 1] == cs[i];
      assert cs[0].id in Ids(cs[0]);
      assert Ids(cs[0]) !! IdsForest(cs[1..]);
      assert cs[0].id != cs[i].id;
    }
  }

  /** In the flattened layout the node evaluated for a frame's parameter
      position is that position's child, so it is handled as a getter
      exactly unless the frame's node is an action node and the position
      is 0. */
  lemma {:induction false} GetterBySlot(nodes: seq<EvalNode>, f: Frame, pos: nat)
    requires f.nodeIdx < |nodes| && LaidOut(nodes, f.nodeIdx) && UniqueIds(nodes[f.nodeIdx].node)
    requires pos < |nodes[f.nodeIdx].node.children|
    ensures SlotIndex(nodes, f, pos) < |nodes|
    ensures var p := nodes[f.nodeIdx].node;
      IsHandleAsGetter(Some(p), nodes[SlotIndex(nodes, f, pos)].node) <==> !(IsAction(p.kind) && pos == 0)
  {
    var p := nodes[f.nodeIdx].node;
    assert nodes[SlotIndex(nodes, f, pos)].node == p.children[pos];
    HandleAsGetterPosition(p, pos, p);
  }

  /** For a freshly laid-out tree: the parameter nodes of the root's frame
      are its children, the first of them a callee reference exactly when
      the root is an action node. */
  lemma {:induction false} RootParamsGetter(nodes: seq<EvalNode>, root: VcmNode, pos: nat)
    requires UniqueIds(root) && IdxOk(nodes) && pos < |root.children|
    ensures var r := BuildEvalNodes(nodes, root);
      var f := Frame(|nodes|, AfterPush, 0, |root.children|, 0, 0, None);
      && f.nodeIdx < |r| && SlotIndex(r, f, pos) < |r|
      && r[SlotIndex(r, f, pos)].node == root.children[pos]
      && (IsHandleAsGetter(Some(root), r[SlotIndex(r, f, pos)].node) <==> !(IsAction(root.kind) && pos == 0))
  {
    BuildEvalNodesSpec(nodes, root);
    var r := BuildEvalNodes(nodes, root);
    var f := Frame(|nodes|, AfterPush, 0, |root.children|, 0, 0, None);
    assert LaidOut(r, |nodes|);
    GetterBySlot(r, f, pos);
  }

  /** A dynamic-value host that answers the same whatever call flags it
      is given. */
  ghost predicate DynamicFlagBlind(host: (FnId, Value, seq<Value>, set<CallFlag>) -> Option<Value>)
  {
    forall fn, root, args, cf: set<CallFlag> :: host(fn, root, args, cf) == host(fn, root, args, {})
  }

  /** A native host whose methods answer the same whatever call flags they
      are given. */
  ghost predicate NativeFlagBlind(host: NativeOps)
  {
    forall fn, entity, args, cf: set<CallFlag> :: host.call(fn, entity, args, cf) == host.call(fn, entity, args, {})
  }

  /** The bridges as the engine calls them, with the call flags of its
      context: on a resumed evaluation the host method is handed AGAIN, on
      a first one at most SILENTLY.  The flags are the only thing that
      differs between the two calls, so a host that ignores them answers
      the resumed call as it answered the first. */
  lemma {:induction false} BridgesOnResume(
      root: Value, v: Value, keyName: string, args: seq<Value>, t: MethodType,
      fl: set<EvalFlag>, silently: bool, timeout: bool,
      dhost: (FnId, Value, seq<Value>, set<CallFlag>) -> Option<Value>, nhost: NativeOps)
    ensures var again := GetCallFlags(fl + Raised(silently, timeout, true));
      var first := GetCallFlags(Raised(silently, false, false));
      && (DynamicMethod(v, t).Some? ==>
            && CallDvariantMethod(root, v, args, t, again, dhost) == dhost(DynamicMethod(v, t).value, root, args, again)
            && CallAgain in again
            && CallDvariantMethod(root, v, args, t, first, dhost) == dhost(DynamicMethod(v, t).value, root, args, first)
            && CallAgain !in first)
      && (DynamicFlagBlind(dhost) ==>
            CallDvariantMethod(root, v, args, t, again, dhost) == CallDvariantMethod(root, v, args, t, first, dhost))
      && (NativeFlagBlind(nhost) ==>
            CallNvariantMethod(v, keyName, args, t, again, nhost) == CallNvariantMethod(v, keyName, args, t, first, nhost))
  {
  }

  /** A host method called while an evaluation is resumed is told AGAIN; one
      called during a fresh evaluation is not, and learns only whether
      SILENTLY is set. */
  lemma {:induction false} ResumedCallFlags(fl: set<EvalFlag>, silently: bool, timeout: bool)
    ensures CallAgain in GetCallFlags(fl + Raised(silently, timeout, true))
    ensures GetCallFlags(Raised(silently, false, false)) == if silently then {CallSilently} else {}
  {
    var a := GetCallFlags(Raised(silently, false, false));
    forall x: CallFlag
      ensures x in a <==> x in (if silently then {CallSilently} else {})
    {
      match x
      case CallSilently =>
      case CallAgain =>
      case CallTimeout =>
    }
  }
}

=== FILE: eval_engine.dfy ===
/** The explicit-stack VCM evaluator of `vcm/eval.c`: evaluation frames,
    the tail-only frame stack, the per-frame state machine with memoised
    parameter slots, the driver that supports suspension (AGAIN) and
    resumption, and the three entry points.

    The operator-specific hooks (`after_pushed`, `select_param`, `eval`)
    are not part of this model; they are supplied as total function values
    in an `Ops` record.  A hook that fails reports the error code it raised,
    which becomes the thread's last error. */
module EvalEngine {
  import opened Wrappers
  import opened Variant
  import opened VcmTree
  import opened EvalIndex

  /** The error codes the evaluator tells apart; every other code is an
      `OtherError`. */
  datatype Err = NoError | Again | OutOfMemory | InvalidValue | OtherError(code: nat)

  /** `has_fatal_error`. */
  predicate HasFatalError(e: Err)
  {
    e == OutOfMemory
  }

  /** The `PCVCM_EVAL_FLAG_*` bits of a context. */
  datatype EvalFlag = Silently | AgainFlag | Timeout

  /** `enum pcvcm_eval_stack_frame_step`. */
  datatype Step = AfterPush | EvalParams | EvalVcm | Done

  /** The position of a step in the frame life cycle. */
  function Rank(s: Step): nat
  {
    match s
    case AfterPush => 0
    case EvalParams => 1
    case EvalVcm => 2
    case Done => 3
  }

  /** `struct pcvcm_eval_stack_frame`: the evaluation node it works on, its
      step, the next parameter position, the parameter count, the slot of
      the parent its result goes to, its depth and its arguments. */
  datatype Frame = Frame(nodeIdx: nat, step: Step, pos: nat, nrParams: nat, returnPos: nat, idx: int, args: Option<Value>)

  /** `struct pcvcm_eval_ctxt`, restricted to what the evaluator reads and
      writes.  `lastError` is the thread's last error
      (`purc_get_last_error`), `err` the context's copy of it. */
  datatype Ctx = Ctx(
    nodes: seq<EvalNode>,
    stack: seq<Frame>,
    frameIdx: int,
    flags: set<EvalFlag>,
    err: Err,
    lastError: Err,
    result: Option<Value>)

  /** What an operator's `eval` hook produces: a value, or the error it
      raised. */
  datatype Outcome = Produced(value: Value) | Failed(error: Err)

  /** What `select_param` tells the EVAL_PARAMS loop about a position: the
      evaluation node to evaluate for it; NULL with the frame's step left as
      it was, which skips the position; or NULL after the hook moved the
      frame on to EVAL_VCM, together with the last error it set if it set
      one, which stops the parameters (or fails the frame when an error is
      pending). */
  datatype Selection = Select(idx: nat) | Skip | Stop(raised: Option<Err>)

  /** The operator hooks of a frame, as total functions of what they read
      of the context (its flags, AGAIN among them, and the evaluation node
      array) and of the frame. */
  datatype Ops = Ops(
    afterPushed: (set<EvalFlag>, Frame, seq<EvalNode>) -> Err,
    selectParam: (set<EvalFlag>, Frame, seq<EvalNode>, nat) -> Selection,
    eval: (set<EvalFlag>, Frame, seq<EvalNode>) -> Outcome)

  /** `select_param` picks an evaluation node that comes after the frame's
      own node, as the flattened layout places every child after its
      parent; this is what makes the evaluation of a finite array finite. */
  ghost predicate SelectsForward(ops: Ops)
  {
    forall fl: set<EvalFlag>, f: Frame, ns: seq<EvalNode>, p: nat ::
      ops.selectParam(fl, f, ns, p).Select? ==> f.nodeIdx < ops.selectParam(fl, f, ns, p).idx < |ns|
  }

  /** The last error after a stopping `select_param`: the one it set, or
      the one already pending. */
  function ErrorAfter(raised: Option<Err>, pending: Err): Err
  {
    if raised.Some? then raised.value else pending
  }

  /** What a frame on evaluation node `k` hands back under the context
      flags `fl`, its evaluation having left the node array `seen`: a value
      its `eval` hook produced at EVAL_VCM, or undefined for a failure
      absorbed under SILENTLY. */
  ghost predicate HandsBack(ops: Ops, fl: set<EvalFlag>, k: nat, seen: seq<EvalNode>, v: Value)
  {
    || (exists f: Frame :: f.nodeIdx == k && f.step == Step.EvalVcm && ops.eval(fl, f, seen) == Produced(v))
    || (v == Undefined && Silently in fl)
  }

  // ---------------------------------------------------------------------
  // Well-formed contexts

  predicate FrameOk(nodes: seq<EvalNode>, f: Frame)
  {
    && f.nodeIdx < |nodes|
    && f.nrParams == |nodes[f.nodeIdx].node.children|
    && f.pos <= f.nrParams
  }

  /** The evaluator's invariant: the node array is laid out, `frame_idx` is
      the depth of the stack minus one, and every frame stores its depth
      and refers to a node of the array. */
  predicate Valid(c: Ctx)
  {
    && NodesValid(c.nodes)
    && c.frameIdx == |c.stack| - 1
    && forall k :: 0 <= k < |c.stack| ==> FrameOk(c.nodes, c.stack[k]) && c.stack[k].idx == k
  }

  /** Two node arrays with the same nodes, indexes and first child indexes;
      only result slots may differ. */
  predicate SameLayout(a: seq<EvalNode>, b: seq<EvalNode>)
  {
    && |a| == |b|
    && forall k :: 0 <= k < |a| ==>
         b[k].node == a[k].node && b[k].idx == a[k].idx && b[k].firstChildIdx == a[k].firstChildIdx
  }

  /** Every memoised result of `a` is still present in `b`. */
  predicate MemoKept(a: seq<EvalNode>, b: seq<EvalNode>)
  {
    && |a| == |b|
    && forall k :: 0 <= k < |a| && a[k].result.Some? ==> b[k].result.Some?
  }

  /** The fields of a frame that nothing after its creation changes. */
  predicate SameFrame(a: Frame, b: Frame)
  {
    a.nodeIdx == b.nodeIdx && a.nrParams == b.nrParams && a.returnPos == b.returnPos && a.idx == b.idx && a.args == b.args
  }

  lemma KeptTrans(a: seq<EvalNode>, b: seq<EvalNode>, d: seq<EvalNode>)
    requires SameLayout(a, b) && MemoKept(a, b) && SameLayout(b, d) && MemoKept(b, d)
    ensures SameLayout(a, d) && MemoKept(a, d)
  {
  }

  lemma {:induction false} ValidUnderLayout(c: Ctx, nodes: seq<EvalNode>)
    requires Valid(c) && SameLayout(c.nodes, nodes)
    ensures Valid(c.(nodes := nodes))
  {
    var d := c.(nodes := nodes);
    forall k | 0 <= k < |d.stack|
      ensures FrameOk(nodes, d.stack[k])
    {
      assert FrameOk(c.nodes, c.stack[k]);
    }
  }

  // ---------------------------------------------------------------------
  // Parameter slots

  /** Where `pcvcm_get_frame_result(ctxt, frame, pos)` reads: the result of
      the pos-th evaluation node of the frame's child block. */
  function SlotIndex(nodes: seq<EvalNode>, f: Frame, pos: nat): nat
    requires f.nodeIdx < |nodes|
  {
    nodes[f.nodeIdx].firstChildIdx + pos
  }

  function GetSlot(nodes: seq<EvalNode>, f: Frame, pos: nat): Option<Value>
    requires f.nodeIdx < |nodes|
  {
    var i := SlotIndex(nodes, f, pos);
    if i < |nodes| then nodes[i].result else None
  }

  /** `pcvcm_set_frame_result`: memoise `v` in the frame's pos-th slot. A
      position outside the array is left alone. */
  function SetSlot(nodes: seq<EvalNode>, f: Frame, pos: nat, v: Value): (r: seq<EvalNode>)
    requires f.nodeIdx < |nodes|
    ensures SameLayout(nodes, r) && MemoKept(nodes, r)
    ensures SlotIndex(nodes, f, pos) < |nodes| ==> GetSlot(r, f, pos) == Some(v)
    ensures forall k :: 0 <= k < |nodes| && k != SlotIndex(nodes, f, pos) ==> r[k] == nodes[k]
  {
    var i := SlotIndex(nodes, f, pos);
    if i < |nodes| then nodes[i := nodes[i].(result := Some(v))] else nodes
  }

  /** A frame whose remaining slots all hold a result. */
  predicate AllMemoised(nodes: seq<EvalNode>, f: Frame)
    requires f.nodeIdx < |nodes|
  {
    forall p :: f.pos <= p < f.nrParams ==> GetSlot(nodes, f, p).Some?
  }

  /** Slot p of frame f holds a value that the frame on node k handed back,
      and the node array that frame's evaluation left differs from `nodes`
      in that slot only. */
  ghost predicate FilledBy(ops: Ops, fl: set<EvalFlag>, nodes: seq<EvalNode>, f: Frame, p: nat, k: nat)
    requires f.nodeIdx < |nodes|
  {
    && GetSlot(nodes, f, p).Some?
    && exists seen: seq<EvalNode> ::
         && |seen| == |nodes|
         && nodes == SetSlot(seen, f, p, GetSlot(nodes, f, p).value)
         && HandsBack(ops, fl, k, seen, GetSlot(nodes, f, p).value)
  }

  /** The frame's current position is empty and `select_param` stops the
      parameters there. */
  predicate StopsAt(ops: Ops, fl: set<EvalFlag>, nodes: seq<EvalNode>, f: Frame)
    requires f.nodeIdx < |nodes|
  {
    GetSlot(nodes, f, f.pos).None? && ops.selectParam(fl, f, nodes, f.pos).Stop?
  }

  // ---------------------------------------------------------------------
  // The frame stack

  function Top(c: Ctx): Frame
    requires |c.stack| > 0
  {
    c.stack[|c.stack| - 1]
  }

  function SetTop(c: Ctx, f: Frame): Ctx
    requires |c.stack| > 0
  {
    c.(stack := c.stack[|c.stack| - 1 := f])
  }

  /** `bottom_frame`: the most recently pushed frame, NULL for an empty
      stack. */
  function BottomFrame(c: Ctx): (r: Option<Frame>)
    ensures r.None? <==> |c.stack| == 0
    ensures r.Some? ==> r.value == c.stack[|c.stack| - 1]
  {
    if |c.stack| == 0 then None else Some(c.stack[|c.stack| - 1])
  }

  /** `push_frame` (with `pcvcm_eval_stack_frame_create`): a new frame at
      the tail, at step AFTER_PUSH, position 0, with as many parameters as
      the node has children. */
  function Push(c: Ctx, nodeIdx: nat, returnPos: nat): (r: Ctx)
    requires nodeIdx < |c.nodes|
    ensures |r.stack| == |c.stack| + 1 && r.stack[..|c.stack|] == c.stack
    ensures Valid(c) ==> Valid(r)
    ensures Top(r).nodeIdx == nodeIdx && Top(r).returnPos == returnPos
    ensures Top(r).step == AfterPush && Top(r).pos == 0 && Top(r).args.None?
    ensures r.nodes == c.nodes && r.flags == c.flags && r.lastError == c.lastError && r.err == c.err && r.result == c.result
  {
    var f := Frame(nodeIdx, AfterPush, 0, |c.nodes[nodeIdx].node.children|, returnPos, c.frameIdx + 1, None);
    var r := c.(stack := c.stack + [f], frameIdx := c.frameIdx + 1);
    assert r.stack[..|c.stack|] == c.stack;
    r
  }

  /** `pop_frame`: drop the tail frame. */
  function Pop(c: Ctx): (r: Ctx)
    requires |c.stack| > 0
    ensures r.stack == c.stack[..|c.stack| - 1] && r.frameIdx == c.frameIdx - 1
    ensures Valid(c) ==> Valid(r)
    ensures r.nodes == c.nodes && r.flags == c.flags && r.lastError == c.lastError && r.err == c.err && r.result == c.result
  {
    c.(stack := c.stack[..|c.stack| - 1], frameIdx := c.frameIdx - 1)
  }

  /** Popping a pushed frame restores the context. */
  lemma {:induction false} PopPush(c: Ctx, nodeIdx: nat, returnPos: nat)
    requires nodeIdx < |c.nodes|
    ensures Pop(Push(c, nodeIdx, returnPos)) == c
  {
    var p := Push(c, nodeIdx, returnPos);
    assert p.stack[..|p.stack| - 1] == c.stack;
  }

  /** The absorption test at the end of `eval_frame`: no result, the last
      error is not AGAIN, SILENTLY is set, and `localErr` is not fatal.  The
      code passes its local `err`, which is never assigned after its
      initialisation to 0. */
  predicate Absorbs(flags: set<EvalFlag>, lastError: Err, localErr: Err)
  {
    lastError != Again && Silently in flags && !HasFatalError(localErr)
  }

  /** Because the fatal-error test reads the local `err` (always 0), an
      out-of-memory error is absorbed under SILENTLY like any other. */
  lemma {:induction false} OutOfMemoryAbsorbed(flags: set<EvalFlag>)
    requires Silently in flags
    ensures Absorbs(flags, OutOfMemory, NoError)
    ensures !Absorbs(flags, Again, NoError)
  {
  }

  // ---------------------------------------------------------------------
  // eval_frame

  /** The tail frame of `c` reaches DONE during the call that produced `d`
      (a frame that was already DONE yields nothing when evaluated again). */
  predicate Completes(c: Ctx, d: Ctx)
    requires |c.stack| > 0 && |d.stack| >= |c.stack|
  {
    c.stack[|c.stack| - 1].step != Done && d.stack[|c.stack| - 1].step == Done
  }

  /** `eval_frame` on the tail frame.  The frame moves forward through
      AFTER_PUSH, EVAL_PARAMS, EVAL_VCM and DONE and never back; frames
      below it are untouched.  It yields a value exactly when it reached
      DONE, the value its `eval` hook produced, or when the failure is
      absorbed, and then the value is undefined.  A frame left at
      AFTER_PUSH is one whose `after_pushed` hook failed, and a frame that
      started at EVAL_VCM and is still there is one whose `eval` hook
      failed; a frame that reached DONE leaves no frame above it, and a
      failure that leaves frames above it is never absorbed. */
  method EvalFrame(ops: Ops, c: Ctx) returns (c': Ctx, r: Option<Value>)
    requires Valid(c) && |c.stack| > 0 && SelectsForward(ops)
    ensures Valid(c') && SameLayout(c.nodes, c'.nodes) && MemoKept(c.nodes, c'.nodes) && c'.flags == c.flags
    ensures |c'.stack| >= |c.stack| && c'.stack[..|c.stack| - 1] == c.stack[..|c.stack| - 1]
    ensures SameFrame(c.stack[|c.stack| - 1], c'.stack[|c.stack| - 1])
    ensures Rank(c.stack[|c.stack| - 1].step) <= Rank(c'.stack[|c.stack| - 1].step)
    ensures c.stack[|c.stack| - 1].pos <= c'.stack[|c.stack| - 1].pos
    ensures c'.stack[|c.stack| - 1].step == Done ==> |c'.stack| == |c.stack|
    ensures r.Some? <==> Completes(c, c') || Absorbs(c.flags, c'.lastError, NoError)
    ensures Completes(c, c') ==>
      r.Some? && ops.eval(c.flags, c'.stack[|c.stack| - 1].(step := Step.EvalVcm), c'.nodes) == Produced(r.value)
    ensures !Completes(c, c') && r.Some? ==> r == Some(Undefined)
    ensures r.Some? ==> HandsBack(ops, c.flags, c.stack[|c.stack| - 1].nodeIdx, c'.nodes, r.value)
    ensures c'.stack[|c.stack| - 1].step == AfterPush ==>
      && c' .stack == c.stack && c'.nodes == c.nodes
      && c'.lastError == ops.afterPushed(c.flags, c.stack[|c.stack| - 1], c.nodes) && c'.lastError != NoError
    ensures c.stack[|c.stack| - 1].step == Step.EvalVcm && c'.stack[|c.stack| - 1].step == Step.EvalVcm ==>
      && c'.stack == c.stack && c'.nodes == c.nodes
      && ops.eval(c.flags, c.stack[|c.stack| - 1], c.nodes) == Failed(c'.lastError)
    ensures |c'.stack| > |c.stack| ==> r.None?
    ensures c'.err == c'.lastError && c'.result == c.result
    decreases |c.nodes| - Top(c).nodeIdx, 5
  {
    var t := |c.stack| - 1;
    var cur := c;
    var result: Option<Value> := None;
    while cur.stack[t].step != Done
      invariant Valid(cur) && SameLayout(c.nodes, cur.nodes) && MemoKept(c.nodes, cur.nodes)
      invariant cur.flags == c.flags && cur.result == c.result
      invariant |cur.stack| == |c.stack| && cur.stack[..t] == c.stack[..t]
      invariant SameFrame(c.stack[t], cur.stack[t]) && Rank(c.stack[t].step) <= Rank(cur.stack[t].step)
      invariant c.stack[t].pos <= cur.stack[t].pos
      invariant result.Some? <==> cur.stack[t].step == Done && c.stack[t].step != Done
      invariant result.Some? ==> ops.eval(c.flags, cur.stack[t].(step := Step.EvalVcm), cur.nodes) == Produced(result.value)
      invariant cur.stack[t].step == AfterPush ==> cur == c
      invariant c.stack[t].step == Step.EvalVcm && cur.stack[t].step == Step.EvalVcm ==> cur == c
      decreases 3 - Rank(cur.stack[t].step)
    {
      var v, failed;
      var before := cur;
      cur, v, failed := Advance(ops, cur);
      KeptTrans(c.nodes, before.nodes, cur.nodes);
      if failed {
        break;
      }
      result := v;
    }
    cur := cur.(err := cur.lastError);
    if result.None? && Absorbs(cur.flags, cur.lastError, NoError) {
      result := Some(Undefined);
    }
    c', r := cur, result;
    if Completes(c, c') {
      assert HandsBack(ops, c.flags, c.stack[t].nodeIdx, c'.nodes, r.value) by {
        var g := c'.stack[t].(step := Step.EvalVcm);
        assert g.nodeIdx == c.stack[t].nodeIdx && g.step == Step.EvalVcm && ops.eval(c.flags, g, c'.nodes) == Produced(r.value);
      }
    }
  }

  /** One step of the `eval_frame` loop on the tail frame, which is not yet
      DONE.  A step that does not fail moves the frame to a later step, and
      yields a value exactly when it reaches DONE, the one `eval` produced.
      A failing `after_pushed` or `eval` changes nothing but the last error;
      a failing parameter may leave frames above, and then the failure is
      not one SILENTLY absorbs. */
  method Advance(ops: Ops, c: Ctx) returns (c': Ctx, v: Option<Value>, failed: bool)
    requires Valid(c) && |c.stack| > 0 && Top(c).step != Done && SelectsForward(ops)
    ensures Valid(c') && SameLayout(c.nodes, c'.nodes) && MemoKept(c.nodes, c'.nodes)
    ensures c'.flags == c.flags && c'.result == c.result
    ensures |c'.stack| >= |c.stack| && c'.stack[..|c.stack| - 1] == c.stack[..|c.stack| - 1]
    ensures SameFrame(Top(c), c'.stack[|c.stack| - 1]) && Top(c).pos <= c'.stack[|c.stack| - 1].pos
    ensures !failed ==> |c'.stack| == |c.stack| && Rank(Top(c).step) < Rank(c'.stack[|c.stack| - 1].step)
    ensures failed ==> Rank(Top(c).step) <= Rank(c'.stack[|c.stack| - 1].step) < Rank(Done)
    ensures v.Some? <==> !failed && c'.stack[|c.stack| - 1].step == Done
    ensures v.Some? ==> ops.eval(c.flags, c'.stack[|c.stack| - 1].(step := Step.EvalVcm), c'.nodes) == Produced(v.value)
    ensures failed && |c'.stack| > |c.stack| ==> !Absorbs(c.flags, c'.lastError, NoError)
    ensures Top(c).step == AfterPush && failed ==>
      c' == c.(lastError := ops.afterPushed(c.flags, Top(c), c.nodes)) && c'.lastError != NoError
    ensures Top(c).step == Step.EvalVcm && failed ==>
      c' == c.(lastError := c'.lastError) && ops.eval(c.flags, Top(c), c.nodes) == Failed(c'.lastError)
    decreases |c.nodes| - Top(c).nodeIdx, 4
  {
    var t := |c.stack| - 1;
    var f := c.stack[t];
    v, failed := None, false;
    if f.step == AfterPush {
      var ret := ops.afterPushed(c.flags, f, c.nodes);
      if ret != NoError {
        return c.(lastError := ret), None, true;
      }
      c' := SetTop(c, f.(step := EvalParams));
    } else if f.step == EvalParams {
      var ok, stopped;
      c', ok, stopped := EvalParamsLoop(ops, c);
      if !ok {
        return c', None, true;
      }
      c' := SetTop(c', c'.stack[t].(step := Step.EvalVcm));
    } else {
      var out := ops.eval(c.flags, f, c.nodes);
      if out.Failed? {
        return c.(lastError := out.error), None, true;
      }
      c', v := SetTop(c, f.(step := Done)), Some(out.value);
      assert c'.stack[t].(step := Step.EvalVcm) == f;
    }
  }

  /** The EVAL_PARAMS step: positions are visited in increasing order and
      each one is handled by `EvalParam`.  The loop ends normally at the
      last position; it stops early, before the position whose
      `select_param` asked it to, with the frame moved on to EVAL_VCM; a
      stop while an error is pending fails the frame there, and a failing
      parameter fails it with the child frame left on the stack.  When
      every remaining slot is already memoised, nothing is evaluated again:
      only the position moves. */
  method EvalParamsLoop(ops: Ops, c: Ctx) returns (c': Ctx, ok: bool, stopped: bool)
    requires Valid(c) && |c.stack| > 0 && Top(c).step == EvalParams && SelectsForward(ops)
    ensures Valid(c') && SameLayout(c.nodes, c'.nodes) && MemoKept(c.nodes, c'.nodes) && c'.flags == c.flags
    ensures |c'.stack| >= |c.stack| && c'.stack[..|c.stack| - 1] == c.stack[..|c.stack| - 1]
    ensures SameFrame(c.stack[|c.stack| - 1], c'.stack[|c.stack| - 1])
    ensures c.stack[|c.stack| - 1].pos <= c'.stack[|c.stack| - 1].pos
    ensures stopped ==> ok
    ensures c'.stack[|c.stack| - 1].step == (if stopped || (!ok && |c'.stack| == |c.stack|) then Step.EvalVcm else EvalParams)
    ensures ok ==> |c'.stack| == |c.stack|
    ensures ok && !stopped ==> c'.stack[|c.stack| - 1].pos == c'.stack[|c.stack| - 1].nrParams
    ensures stopped || (!ok && |c'.stack| == |c.stack|) ==>
      var f := c'.stack[|c.stack| - 1];
      && f.pos < f.nrParams
      && StopsAt(ops, c.flags, c'.nodes, f.(step := EvalParams))
      && (ok <==> c'.lastError == NoError)
    ensures !ok && |c'.stack| > |c.stack| ==> !Absorbs(c.flags, c'.lastError, NoError)
    ensures AllMemoised(c.nodes, Top(c)) ==> ok && !stopped && c' == SetTop(c, Top(c).(pos := Top(c).nrParams))
    ensures c'.result == c.result
    decreases |c.nodes| - Top(c).nodeIdx, 3
  {
    var t := |c.stack| - 1;
    var cur := c;
    ok, stopped := true, false;
    while cur.stack[t].pos < cur.stack[t].nrParams
      invariant Valid(cur) && SameLayout(c.nodes, cur.nodes) && MemoKept(c.nodes, cur.nodes)
      invariant cur.flags == c.flags && cur.result == c.result
      invariant |cur.stack| == |c.stack| && cur.stack[..t] == c.stack[..t]
      invariant SameFrame(c.stack[t], cur.stack[t]) && cur.stack[t].step == EvalParams
      invariant c.stack[t].pos <= cur.stack[t].pos
      invariant AllMemoised(c.nodes, Top(c)) ==> cur == SetTop(c, c.stack[t].(pos := cur.stack[t].pos))
      decreases cur.stack[t].nrParams - cur.stack[t].pos
    {
      if AllMemoised(c.nodes, Top(c)) {
        MemoisedSlot(c, cur.stack[t].pos);
      }
      var before := cur;
      var done, stop;
      cur, done, stop := EvalParam(ops, cur);
      KeptTrans(c.nodes, before.nodes, cur.nodes);
      if AllMemoised(c.nodes, Top(c)) {
        assert cur.stack == c.stack[t := c.stack[t].(pos := cur.stack[t].pos)];
      }
      if !done {
        ok := false;
        if |cur.stack| == |c.stack| {
          assert cur.stack[t].(step := EvalParams) == Top(before);
        }
        break;
      }
      if stop {
        stopped := true;
        assert cur.stack[t].(step := EvalParams) == Top(before);
        break;
      }
    }
    c' := cur;
  }

  /** In a frame whose remaining slots are memoised, moving the position
      on leaves the slot at the new position filled. */
  lemma MemoisedSlot(c: Ctx, q: nat)
    requires |c.stack| > 0 && Top(c).nodeIdx < |c.nodes| && AllMemoised(c.nodes, Top(c))
    requires Top(c).pos <= q < Top(c).nrParams
    ensures var d := SetTop(c, Top(c).(pos := q)); GetSlot(d.nodes, Top(d), q).Some?
  {
    assert GetSlot(c.nodes, Top(c), q).Some?;
  }

  /** One position of the EVAL_PARAMS loop.  An occupied slot is skipped;
      so is a position for which `select_param` selects nothing and leaves
      the step alone.  A `select_param` that moves the frame on stops the
      parameters, or fails the frame when an error is then pending.
      Otherwise the selected node is evaluated by `EvalSelected`, which
      fills the slot on success; on failure the child frame (and whatever
      it left above it) stays on the stack.  On success the position moves
      on. */
  method EvalParam(ops: Ops, c: Ctx) returns (c': Ctx, ok: bool, stop: bool)
    requires Valid(c) && |c.stack| > 0 && Top(c).step == EvalParams && Top(c).pos < Top(c).nrParams
    requires SelectsForward(ops)
    ensures Valid(c') && SameLayout(c.nodes, c'.nodes) && MemoKept(c.nodes, c'.nodes)
    ensures c'.flags == c.flags && c'.result == c.result
    ensures |c'.stack| >= |c.stack| && c'.stack[..|c.stack| - 1] == c.stack[..|c.stack| - 1]
    ensures ok ==> |c'.stack| == |c.stack|
    ensures ok && !stop ==> c'.stack[|c.stack| - 1] == Top(c).(pos := Top(c).pos + 1)
    ensures StopsAt(ops, c.flags, c.nodes, Top(c)) ==>
      && |c'.stack| == |c.stack| && c'.stack[|c.stack| - 1] == Top(c).(step := Step.EvalVcm) && c'.nodes == c.nodes
      && c'.lastError == ErrorAfter(ops.selectParam(c.flags, Top(c), c.nodes, Top(c).pos).raised, c.lastError)
      && ok == stop == (c'.lastError == NoError)
    ensures !StopsAt(ops, c.flags, c.nodes, Top(c)) ==> !stop
    ensures ok && !stop ==>
      GetSlot(c'.nodes, Top(c), Top(c).pos).Some? || ops.selectParam(c.flags, Top(c), c.nodes, Top(c).pos).Skip?
    ensures !ok && !StopsAt(ops, c.flags, c.nodes, Top(c)) ==>
      |c'.stack| > |c.stack| && c'.stack[|c.stack| - 1] == Top(c) && !Absorbs(c.flags, c'.lastError, NoError)
    ensures GetSlot(c.nodes, Top(c), Top(c).pos).Some? ==> ok && !stop && c' == SetTop(c, Top(c).(pos := Top(c).pos + 1))
    decreases |c.nodes| - Top(c).nodeIdx, 1
  {
    var t := |c.stack| - 1;
    var f := c.stack[t];
    c', ok, stop := c, true, false;
    if GetSlot(c.nodes, f, f.pos).None? {
      match ops.selectParam(c.flags, f, c.nodes, f.pos)
      case Skip =>
      case Stop(raised) =>
        var e := ErrorAfter(raised, c.lastError);
        c' := SetTop(c, f.(step := Step.EvalVcm)).(lastError := e, err := e);
        ok, stop := e == NoError, e == NoError;
      case Select(k) =>
        c', ok := EvalSelected(ops, c, k);
        if !ok {
          assert c'.stack[t] == c'.stack[..|c.stack|][t];
        }
    }
    if ok && !stop {
      c' := SetTop(c', c'.stack[t].(pos := f.pos + 1));
    }
  }

  /** A selected parameter: the node is pushed with the position as its
      return position and evaluated; on success what it hands back is
      stored in the parent's slot at that position and exactly that frame
      is popped.  On failure the child frame, and whatever it left above
      it, stays on the stack. */
  method EvalSelected(ops: Ops, c: Ctx, k: nat) returns (c': Ctx, ok: bool)
    requires Valid(c) && |c.stack| > 0 && Top(c).step == EvalParams && Top(c).pos < Top(c).nrParams
    requires Top(c).nodeIdx < k < |c.nodes| && SelectsForward(ops)
    ensures Valid(c') && SameLayout(c.nodes, c'.nodes) && MemoKept(c.nodes, c'.nodes)
    ensures c'.flags == c.flags && c'.result == c.result
    ensures |c'.stack| >= |c.stack| && c'.stack[..|c.stack|] == c.stack
    ensures ok ==> |c'.stack| == |c.stack| && FilledBy(ops, c.flags, c'.nodes, Top(c), Top(c).pos, k)
    ensures !ok ==> |c'.stack| > |c.stack| && !Absorbs(c.flags, c'.lastError, NoError)
    decreases |c.nodes| - Top(c).nodeIdx, 0
  {
    var t := |c.stack| - 1;
    var f := c.stack[t];
    var pushed := Push(c, k, f.pos);
    var after, val := EvalFrame(ops, pushed);
    assert after.stack[..t + 1] == c.stack by {
      assert pushed.stack[..t + 1] == c.stack;
    }
    if val.None? {
      return after, false;
    }
    var child := after.stack[t + 1];
    var stored := SetSlot(after.nodes, after.stack[t], child.returnPos, val.value);
    ValidUnderLayout(after, stored);
    KeptTrans(c.nodes, after.nodes, stored);
    c', ok := Pop(after.(nodes := stored)), true;
    assert c'.stack == c.stack;
    assert SlotIndex(after.nodes, after.stack[t], child.returnPos) < |after.nodes| by {
      assert FrameOk(c.nodes, f);
    }
    assert FilledBy(ops, c.flags, c'.nodes, f, f.pos, k) by {
      assert GetSlot(c'.nodes, f, f.pos) == val;
      assert c'.nodes == SetSlot(after.nodes, f, f.pos, val.value);
      assert HandsBack(ops, c.flags, k, after.nodes, val.value);
    }
  }

  // ---------------------------------------------------------------------
  // eval_vcm

  /** The flags `eval_vcm` ORs into the context. */
  function Raised(silently: bool, timeout: bool, again: bool): (r: set<EvalFlag>)
    ensures Silently in r <==> silently
    ensures Timeout in r <==> timeout
    ensures AgainFlag in r <==> again
  {
    (if silently then {Silently} else {}) + (if timeout then {Timeout} else {}) + (if again then {AgainFlag} else {})
  }

  /** How `eval_vcm` picks its first frame: a resumption takes the bottom
      frame and pushes nothing (and finds nothing on an empty stack); a
      fresh evaluation pushes the first evaluation node with return position
      0.  Arguments, when given, replace the chosen frame's. */
  function Enter(c: Ctx, args: Option<Value>, again: bool): (r: Option<Ctx>)
    requires Valid(c) && |c.nodes| > 0
    ensures r.None? <==> again && |c.stack| == 0
    ensures r.Some? ==> Valid(r.value) && |r.value.stack| > 0 && r.value.nodes == c.nodes && r.value.flags == c.flags
    ensures r.Some? ==> r.value.lastError == c.lastError && r.value.err == c.err && r.value.result == c.result
    ensures r.Some? && again ==>
      && |r.value.stack| == |c.stack|
      && r.value.stack[..|c.stack| - 1] == c.stack[..|c.stack| - 1]
      && (args.None? ==> r.value.stack == c.stack)
    ensures r.Some? && !again ==>
      && |r.value.stack| == |c.stack| + 1
      && r.value.stack[..|c.stack|] == c.stack
      && Top(r.value).nodeIdx == 0 && Top(r.value).step == AfterPush && Top(r.value).returnPos == 0
    ensures r.Some? && args.Some? ==> Top(r.value).args == args
  {
    if again && |c.stack| == 0 then None
    else
      var d := if again then c else Push(c, 0, 0);
      if args.Some? then Some(SetTop(d, Top(d).(args := args))) else Some(d)
  }

  /** The evaluation node of the outermost frame once `eval_vcm` has chosen
      its first frame: the bottom of the existing stack, or the first node
      when a fresh evaluation starts on an empty stack. */
  function Outermost(c: Ctx): nat
  {
    if |c.stack| > 0 then c.stack[0].nodeIdx else 0
  }

  /** One round of the `eval_vcm` loop: evaluate the bottom frame; when it
      yields a value and no error is pending, pop it and store the value in
      the new bottom frame's slot at the popped frame's return position.
      Otherwise the stack is left as the evaluation left it. */
  method ReturnStep(ops: Ops, c: Ctx) returns (c': Ctx, r: Option<Value>)
    requires Valid(c) && |c.stack| > 0 && SelectsForward(ops)
    ensures Valid(c') && SameLayout(c.nodes, c'.nodes) && MemoKept(c.nodes, c'.nodes)
    ensures c'.flags == c.flags && c'.result == c.result && c'.err == c'.lastError
    ensures r.Some? && c'.err == NoError ==> c'.stack == c.stack[..|c.stack| - 1]
    ensures r.Some? && c'.err == NoError && |c'.stack| > 0 && SlotIndex(c.nodes, Top(c'), Top(c).returnPos) < |c.nodes| ==>
      FilledBy(ops, c.flags, c'.nodes, Top(c'), Top(c).returnPos, Top(c).nodeIdx)
    ensures r.Some? && c'.err == NoError && |c'.stack| == 0 ==>
      HandsBack(ops, c.flags, Top(c).nodeIdx, c'.nodes, r.value)
    ensures r.None? || c'.err != NoError ==>
      && |c'.stack| >= |c.stack| && c'.stack[..|c.stack| - 1] == c.stack[..|c.stack| - 1]
      && SameFrame(Top(c), c'.stack[|c.stack| - 1])
    ensures r.None? ==> !Absorbs(c.flags, c'.lastError, NoError)
  {
    var returnPos := Top(c).returnPos;
    var d, v := EvalFrame(ops, c);
    if v.None? || d.err != NoError {
      return d, v;
    }
    var popped := Pop(d);
    if |popped.stack| > 0 {
      var stored := SetSlot(popped.nodes, Top(popped), returnPos, v.value);
      ValidUnderLayout(popped, stored);
      KeptTrans(c.nodes, d.nodes, stored);
      c' := popped.(nodes := stored);
      if SlotIndex(c.nodes, Top(c'), returnPos) < |c.nodes| {
        assert FilledBy(ops, c.flags, c'.nodes, Top(c'), returnPos, Top(c).nodeIdx) by {
          assert GetSlot(c'.nodes, Top(c'), returnPos) == v;
          assert c'.nodes == SetSlot(d.nodes, Top(c'), returnPos, v.value);
        }
      }
    } else {
      c' := popped;
    }
    r := v;
  }

  /** `eval_vcm`: choose the first frame, then repeat `ReturnStep` until
      the stack is empty or an evaluation fails or leaves an error behind.
      A run that empties the stack hands back the value of the outermost
      frame; one that stops keeps the outermost frame on the stack.  A
      value is also kept as the context's result. */
  method EvalVcm(ops: Ops, c: Ctx, args: Option<Value>, silently: bool, timeout: bool, again: bool)
      returns (c': Ctx, r: Option<Value>)
    requires Valid(c) && |c.nodes| > 0 && SelectsForward(ops)
    ensures Valid(c') && SameLayout(c.nodes, c'.nodes) && MemoKept(c.nodes, c'.nodes)
    ensures c'.flags == c.flags + Raised(silently, timeout, again)
    ensures again && |c.stack| == 0 ==> r.None? && c'.stack == [] && c'.lastError == c.lastError
    ensures r.Some? ==> c'.result == r
    ensures r.None? ==> c'.result == c.result
    ensures r.Some? && c'.lastError == NoError ==> c'.stack == []
    ensures r.Some? && c'.stack == [] ==> HandsBack(ops, c'.flags, Outermost(c), c'.nodes, r.value)
    ensures c'.stack != [] ==> c'.stack[0].nodeIdx == Outermost(c) && (r.None? || c'.lastError != NoError)
    ensures r.None? && !(again && |c.stack| == 0) ==> c'.lastError == Again || Silently !in c'.flags
  {
    var fl := c.flags + Raised(silently, timeout, again);
    var cur := c.(flags := fl);
    var entered := Enter(cur, args, again);
    if entered.None? {
      return cur, None;
    }
    cur := entered.value;
    assert cur.stack[0].nodeIdx == Outermost(c);
    r := None;
    while |cur.stack| > 0
      invariant Valid(cur) && SameLayout(c.nodes, cur.nodes) && MemoKept(c.nodes, cur.nodes)
      invariant cur.flags == fl && cur.result == c.result
      invariant |cur.stack| > 0 ==> cur.stack[0].nodeIdx == Outermost(c)
      invariant |cur.stack| == 0 ==> r.Some? && cur.lastError == NoError && HandsBack(ops, fl, Outermost(c), cur.nodes, r.value)
      decreases |cur.stack|
    {
      var before := cur;
      cur, r := ReturnStep(ops, cur);
      KeptTrans(c.nodes, before.nodes, cur.nodes);
      if r.None? || cur.err != NoError {
        assert cur.stack[0].nodeIdx == Outermost(c) by {
          if |before.stack| > 1 {
            assert cur.stack[0] == cur.stack[..|before.stack| - 1][0];
          }
        }
        break;
      }
      if |cur.stack| > 0 {
        assert cur.stack[0] == before.stack[..|before.stack| - 1][0];
      }
    }
    if r.Some? {
      cur := cur.(result := r);
    }
    c' := cur;
  }

  // ---------------------------------------------------------------------
  // Entry points

  /** A fresh context (`pcvcm_eval_ctxt_create` and the set-up in
      `pcvcm_eval_full`): an empty stack with `frame_idx` -1, no flags, no
      error and no result. */
  function NewCtx(nodes: seq<EvalNode>): (r: Ctx)
    ensures NodesValid(nodes) ==> Valid(r)
    ensures r.stack == [] && r.flags == {} && r.result.None?
  {
    Ctx(nodes, [], -1, {}, NoError, NoError, None)
  }

  /** `pcvcm_eval_full`: clear the last error; a missing tree yields
      undefined under SILENTLY and INVALID otherwise; a tree is flattened
      into a new context and evaluated from scratch.  Under SILENTLY a
      missing result becomes undefined (also on AGAIN: the INVALID assigned
      for that case is overwritten at once).  The context is handed back
      exactly when the caller asked for it and an error remains. */
  method EvalFull(ops: Ops, tree: Option<VcmNode>, wantCtxt: bool, args: Option<Value>, silently: bool)
      returns (r: Option<Value>, ctxtOut: Option<Ctx>, lastError: Err)
    requires SelectsForward(ops)
    requires tree.Some? ==> UniqueIds(tree.value)
    ensures silently ==> r.Some?
    ensures tree.None? ==> r == (if silently then Some(Undefined) else None) && lastError == NoError
    ensures ctxtOut.Some? <==> wantCtxt && tree.Some? && lastError != NoError
    ensures ctxtOut.Some? ==>
      && Valid(ctxtOut.value)
      && ctxtOut.value.err == lastError
      && |ctxtOut.value.nodes| == NrNodes(tree.value)
      && ctxtOut.value.nodes[0].node == tree.value
      && ctxtOut.value.flags == Raised(silently, false, false)
    ensures r.None? ==> lastError == Again || !silently
    ensures tree.Some? && r.Some? && lastError == NoError ==>
      exists seen: seq<EvalNode> :: |seen| == NrNodes(tree.value) && HandsBack(ops, Raised(silently, false, false), 0, seen, r.value)
    ensures ctxtOut.Some? && ctxtOut.value.stack != [] ==> ctxtOut.value.stack[0].nodeIdx == 0
  {
    lastError := NoError;
    var result: Option<Value> := None;
    var ctxt: Option<Ctx> := None;
    if tree.None? {
      result := if silently then Some(Undefined) else None;
    } else {
      BuildEvalNodesValid([], tree.value);
      var nodes := BuildEvalNodes([], tree.value);
      assert [] + [EvalNode(tree.value, 0, 0, None)] == [EvalNode(tree.value, 0, 0, None)];
      var c, v := EvalVcm(ops, NewCtx(nodes), args, silently, false, false);
      result := v;
      ctxt := Some(c);
      lastError := c.lastError;
      assert c.flags == Raised(silently, false, false);
      if v.Some? && c.lastError == NoError {
        assert |c.nodes| == NrNodes(tree.value) && HandsBack(ops, Raised(silently, false, false), 0, c.nodes, v.value);
      }
    }
    if result.None? && silently {
      if lastError == Again && wantCtxt {
        result := None;
      }
      result := Some(Undefined);
    }
    if ctxt.Some? {
      ctxt := Some(ctxt.value.(err := lastError));
    }
    if lastError != NoError && wantCtxt {
      ctxtOut := ctxt;
    } else {
      ctxtOut := None;
    }
    r := result;
  }

  /** The context with a pending AGAIN cleared, as `pcvcm_eval_again_full`
      does before resuming: the context's error becomes the current last
      error, and both are reset when that error is AGAIN. */
  function ClearAgain(c: Ctx, lastError: Err): (r: Ctx)
    ensures r.err == r.lastError
    ensures r.lastError == (if lastError == Again then NoError else lastError)
    ensures r.nodes == c.nodes && r.stack == c.stack && r.frameIdx == c.frameIdx && r.flags == c.flags && r.result == c.result
  {
    if lastError == Again then c.(err := NoError, lastError := NoError)
    else c.(err := lastError, lastError := lastError)
  }

  /** `pcvcm_eval_again_full`: with no context nothing happens; otherwise a
      pending AGAIN is cleared and the driver resumes at the bottom frame
      without pushing one, with the AGAIN flag raised. */
  method EvalAgainFull(ops: Ops, ctxt: Option<Ctx>, lastError: Err, silently: bool, timeout: bool)
      returns (r: Option<Value>, ctxt': Option<Ctx>)
    requires ctxt.Some? ==> Valid(ctxt.value) && |ctxt.value.nodes| > 0
    requires SelectsForward(ops)
    ensures ctxt.None? ==> r.None? && ctxt'.None?
    ensures ctxt.Some? ==> ctxt'.Some? && Valid(ctxt'.value)
    ensures ctxt.Some? ==> SameLayout(ctxt.value.nodes, ctxt'.value.nodes) && MemoKept(ctxt.value.nodes, ctxt'.value.nodes)
    ensures ctxt.Some? ==> ctxt'.value.flags == ctxt.value.flags + Raised(silently, timeout, true)
    ensures ctxt.Some? && |ctxt.value.stack| == 0 ==> r.None? && ctxt'.value.lastError == ClearAgain(ctxt.value, lastError).lastError
    ensures ctxt.Some? && r.Some? && ctxt'.value.lastError == NoError ==> ctxt'.value.stack == []
    ensures r.Some? ==> ctxt'.Some? && ctxt'.value.result == r
    ensures ctxt.Some? && r.Some? && ctxt'.value.lastError == NoError ==>
      && ctxt.value.stack != [] && ctxt'.value.stack == []
      && HandsBack(ops, ctxt'.value.flags, ctxt.value.stack[0].nodeIdx, ctxt'.value.nodes, r.value)
    ensures ctxt.Some? && ctxt'.value.stack != [] ==>
      ctxt.value.stack != [] && ctxt'.value.stack[0].nodeIdx == ctxt.value.stack[0].nodeIdx
  {
    if ctxt.None? {
      return None, None;
    }
    var c := ClearAgain(ctxt.value, lastError);
    var c', v := EvalVcm(ops, c, None, silently, timeout, true);
    r, ctxt' := v, Some(c');
  }

  /** `pcvcm_eval_sub_expr_full`: with no context the call fails with
      INVALID_VALUE; otherwise the tree is appended to the context's node
      array, exactly one frame is pushed for its root and evaluated, and the
      tail frame is popped.  A successful evaluation leaves the stack as it
      found it; SILENTLY is not consulted. */
  method EvalSubExprFull(ops: Ops, tree: VcmNode, ctxt: Option<Ctx>, args: Option<Value>, silently: bool)
      returns (r: Option<Value>, ctxt': Option<Ctx>, raised: Option<Err>)
    requires ctxt.Some? ==> Valid(ctxt.value)
    requires UniqueIds(tree) && SelectsForward(ops)
    ensures ctxt.None? ==> r.None? && ctxt'.None? && raised == Some(InvalidValue)
    ensures ctxt.Some? ==> ctxt'.Some? && raised.None? && Valid(ctxt'.value)
    ensures ctxt.Some? ==>
      var c := ctxt.value;
      var d := ctxt'.value;
      && |d.nodes| == |c.nodes| + NrNodes(tree)
      && d.nodes[|c.nodes|].node == tree
      && (forall k :: 0 <= k < |c.nodes| ==> d.nodes[k].node == c.nodes[k].node && d.nodes[k].firstChildIdx == c.nodes[k].firstChildIdx)
      && d.flags == c.flags
      && (r.Some? ==> d.stack == c.stack)
      && |d.stack| >= |c.stack| && d.stack[..|c.stack|] == c.stack
      && (|d.stack| > |c.stack| ==> r.None? && d.stack[|c.stack|].nodeIdx == |c.nodes|)
      && (r.Some? ==> HandsBack(ops, c.flags, |c.nodes|, d.nodes, r.value))
  {
    if ctxt.None? {
      return None, None, Some(InvalidValue);
    }
    var c := ctxt.value;
    BuildEvalNodesValid(c.nodes, tree);
    var nodes := BuildEvalNodes(c.nodes, tree);
    var grown := c.(nodes := nodes);
    assert Valid(grown) by {
      forall k | 0 <= k < |grown.stack|
        ensures FrameOk(nodes, grown.stack[k])
      {
        assert FrameOk(c.nodes, c.stack[k]);
        assert nodes[c.stack[k].nodeIdx] == c.nodes[c.stack[k].nodeIdx];
      }
    }
    var pushed := Push(grown, |c.nodes|, 0);
    if args.Some? {
      pushed := SetTop(pushed, Top(pushed).(args := args));
    }
    assert pushed.stack[..|c.stack|] == c.stack;
    var after, v := EvalFrame(ops, pushed);
    var d := Pop(after);
    assert d.stack[..|c.stack|] == c.stack by {
      assert after.stack[..|c.stack|] == pushed.stack[..|c.stack|];
    }
    forall k | 0 <= k < |c.nodes|
      ensures d.nodes[k].node == c.nodes[k].node && d.nodes[k].firstChildIdx == c.nodes[k].firstChildIdx
    {
      assert nodes[k] == c.nodes[k];
    }
    r, ctxt', raised := v, Some(d), None;
  }

  /** An evaluation that is suspended and then resumed, as the interpreter
      drives `pcvcm_eval_full` and `pcvcm_eval_again_full`: when the first
      run hands back a context with frames still pending, the second run
      resumes it.  Whether or not it was suspended, a run that ends with no
      error pending hands back a value of the tree's root node, the node
      of the outermost frame. */
  method EvalResumed(ops: Ops, tree: VcmNode, silently: bool, timeout: bool)
      returns (r: Option<Value>, lastError: Err)
    requires UniqueIds(tree) && SelectsForward(ops)
    ensures r.Some? && lastError == NoError ==>
      exists seen: seq<EvalNode> ::
        && |seen| == NrNodes(tree)
        && (HandsBack(ops, Raised(silently, false, false), 0, seen, r.value)
            || HandsBack(ops, Raised(silently, timeout, true), 0, seen, r.value))
  {
    var ctxt;
    r, ctxt, lastError := EvalFull(ops, Some(tree), true, None, silently);
    if ctxt.Some? && ctxt.value.stack != [] {
      var again, c' := EvalAgainFull(ops, ctxt, lastError, silently, timeout);
      r, lastError := again, c'.value.lastError;
      if r.Some? && lastError == NoError {
        assert c'.value.flags == Raised(silently, timeout, true);
        assert |c'.value.nodes| == NrNodes(tree) && HandsBack(ops, Raised(silently, timeout, true), 0, c'.value.nodes, r.value);
      }
    }
  }
}

=== FILE: eval_index.dfy ===
/** The flattening indexer of the VCM evaluator: `build_eval_nodes` turns
    an expression tree into a flat array of evaluation nodes, each holding
    its own index, the index of its first child and an (initially INVALID)
    result slot.

    The functions below follow the C procedure step by step: the root is
    appended, then every node with children looks itself up by a backward
    search for its address, records the current insertion position as its
    first child index, appends all of its children, and then recurses into
    each child in turn. */
module EvalIndex {
  import opened Wrappers
  import opened Variant
  import opened VcmTree

  /** `struct pcvcm_eval_node`.  `result` is the memo slot: `None` is
      `PURC_VARIANT_INVALID`. */
  datatype EvalNode = EvalNode(node: VcmNode, idx: nat, firstChildIdx: nat, result: Option<Value>)

  /** `build_eval_nodes_cb`: append one node at the insertion position.
      The first child index is left as allocated (zero). */
  function AppendEvalNode(nodes: seq<EvalNode>, n: VcmNode): seq<EvalNode>
  {
    nodes + [EvalNode(n, |nodes|, 0, None)]
  }

  /** `pctree_node_children_for_each(node, build_eval_nodes_cb, ...)`: the
      children become one contiguous block, in sibling order. */
  function AppendChildren(nodes: seq<EvalNode>, cs: seq<VcmNode>): (r: seq<EvalNode>)
    ensures |r| == |nodes| + |cs|
    ensures forall j :: 0 <= j < |nodes| ==> r[j] == nodes[j]
    ensures forall j :: |nodes| <= j < |r| ==> r[j] == EvalNode(cs[j - |nodes|], j, 0, None)
    decreases |cs|
  {
    if |cs| == 0 then nodes
    else
      var r := AppendChildren(AppendEvalNode(nodes, cs[0]), cs[1..]);
      assert r[|nodes|] == AppendEvalNode(nodes, cs[0])[|nodes|];
      r
  }

  /** The backward search of `build_eval_node_children`: the last position
      below `i` holding the node with address `id`. */
  function FindLast(nodes: seq<EvalNode>, id: nat, i: nat): (r: Option<nat>)
    requires i <= |nodes|
    ensures r.Some? ==> r.value < i && nodes[r.value].node.id == id
    ensures r.None? ==> forall j :: 0 <= j < i ==> nodes[j].node.id != id
    decreases i
  {
    if i == 0 then None
    else if nodes[i - 1].node.id == id then Some(i - 1)
    else FindLast(nodes, id, i - 1)
  }

  /** Record `pos` as the first child index of the node found by the
      backward search; nothing happens when the search fails. */
  function MarkFirstChild(nodes: seq<EvalNode>, id: nat, pos: nat): seq<EvalNode>
  {
    match FindLast(nodes, id, |nodes|)
    case None => nodes
    case Some(j) => nodes[j := nodes[j].(firstChildIdx := pos)]
  }

  /** `build_eval_node_children`. */
  function BuildChildren(nodes: seq<EvalNode>, n: VcmNode): seq<EvalNode>
    decreases n, 1
  {
    if |n.children| == 0 then nodes
    else
      var marked := MarkFirstChild(nodes, n.id, |nodes|);
      BuildEach(AppendChildren(marked, n.children), n.children)
  }

  /** `pctree_node_children_for_each(node, build_eval_node_children, ...)`. */
  function BuildEach(nodes: seq<EvalNode>, cs: seq<VcmNode>): seq<EvalNode>
    decreases cs, 0
  {
    if |cs| == 0 then nodes
    else BuildEach(BuildChildren(nodes, cs[0]), cs[1..])
  }

  /** `build_eval_nodes`: append the root, then lay out its descendants. */
  function BuildEvalNodes(nodes: seq<EvalNode>, root: VcmNode): seq<EvalNode>
  {
    BuildChildren(AppendEvalNode(nodes, root), root)
  }

  // ---------------------------------------------------------------------
  // Layout invariants

  /** Every evaluation node stores its own index. */
  predicate IdxOk(nodes: seq<EvalNode>)
  {
    forall i :: 0 <= i < |nodes| ==> nodes[i].idx == i
  }

  /** Node k's children sit at `first_child_idx ..  first_child_idx + k)`
      in sibling order; a leaf keeps first child index zero. */
  predicate LaidOut(nodes: seq<EvalNode>, k: nat)
    requires k < |nodes|
  {
    var e := nodes[k];
    var ch := e.node.children;
    if |ch| == 0 then e.firstChildIdx == 0
    else
      && e.firstChildIdx + |ch| <= |nodes|
      && forall j :: e.firstChildIdx <= j < e.firstChildIdx + |ch| ==> nodes[j].node == ch[j - e.firstChildIdx]
  }

  /** `b` extends `a` and keeps the node, index and result of each of its
      positions; only first child indexes may differ. */
  predicate SameNodes(a: seq<EvalNode>, b: seq<EvalNode>)
  {
    && |a| <= |b|
    && forall p :: 0 <= p < |a| ==> b[p].node == a[p].node && b[p].idx == a[p].idx && b[p].result == a[p].result
  }

  lemma {:induction false} SameNodesTrans(a: seq<EvalNode>, b: seq<EvalNode>, c: seq<EvalNode>)
    requires SameNodes(a, b) && SameNodes(b, c)
    ensures SameNodes(a, c)
  {
  }

  lemma {:induction false} LaidOutStable(a: seq<EvalNode>, b: seq<EvalNode>, k: nat)
    requires SameNodes(a, b) && k < |a| && LaidOut(a, k)
    requires b[k].firstChildIdx == a[k].firstChildIdx
    ensures LaidOut(b, k)
  {
    var ch := a[k].node.children;
    if |ch| > 0 {
      var f := a[k].firstChildIdx;
      forall j | f <= j < f + |ch|
        ensures b[j].node == ch[j - f]
      {
        assert a[j].node == ch[j - f];
      }
    }
  }

  /** The backward search finds a node when no later position holds the
      same address. */
  lemma {:induction false} FindLastFinds(nodes: seq<EvalNode>, id: nat, at: nat, i: nat)
    requires at < i <= |nodes| && nodes[at].node.id == id
    requires forall j :: at < j < |nodes| ==> nodes[j].node.id != id
    ensures FindLast(nodes, id, i) == Some(at)
    decreases i
  {
    if i - 1 != at {
      FindLastFinds(nodes, id, at, i - 1);
    }
  }

  lemma {:induction false} IdsOfChildren(n: VcmNode)
    ensures IdsForest(n.children) <= Ids(n)
  {
  }

  /** The first half of `build_eval_node_children`: the node records the
      insertion position as its first child index and its children are
      appended after everything already laid out. */
  lemma {:induction false} MarkAppendSpec(nodes: seq<EvalNode>, n: VcmNode, at: nat)
    requires at < |nodes| && nodes[at].node == n && IdxOk(nodes)
    requires forall j :: at < j < |nodes| ==> nodes[j].node.id !in Ids(n)
    ensures var a := AppendChildren(MarkFirstChild(nodes, n.id, |nodes|), n.children);
      && |a| == |nodes| + |n.children|
      && SameNodes(nodes, a)
      && IdxOk(a)
      && a[at].firstChildIdx == |nodes|
      && (forall p :: 0 <= p < |nodes| && p != at ==> a[p].firstChildIdx == nodes[p].firstChildIdx)
      && (forall j :: |nodes| <= j < |a| ==> a[j].node == n.children[j - |nodes|] && a[j].firstChildIdx == 0)
      && (forall j :: |nodes| <= j < |a| ==> a[j].result.None?)
  {
    var ch := n.children;
    var pos := |nodes|;
    assert n.id in Ids(n);
    FindLastFinds(nodes, n.id, at, |nodes|);
    var marked := MarkFirstChild(nodes, n.id, pos);
    assert marked == nodes[at := nodes[at].(firstChildIdx := pos)];
  }

  /** `build_eval_node_children(n)` for the node stored at `at`, when no
      later position holds a node of n's subtree. */
  lemma {:induction false} BuildChildrenSpec(nodes: seq<EvalNode>, n: VcmNode, at: nat)
    requires at < |nodes| && nodes[at].node == n
    requires UniqueIds(n) && IdxOk(nodes)
    requires forall j :: at < j < |nodes| ==> nodes[j].node.id !in Ids(n)
    requires |n.children| == 0 ==> nodes[at].firstChildIdx == 0
    ensures var r := BuildChildren(nodes, n);
      && |r| == |nodes| + Count(n) - 1
      && SameNodes(nodes, r)
      && IdxOk(r)
      && (forall p :: 0 <= p < |nodes| && p != at ==> r[p].firstChildIdx == nodes[p].firstChildIdx)
      && LaidOut(r, at)
      && (forall j :: |nodes| <= j < |r| ==> LaidOut(r, j))
      && (forall j :: |nodes| <= j < |r| ==> r[j].node.id in IdsForest(n.children) && r[j].result.None?)
    decreases n, 1
  {
    var ch := n.children;
    if |ch| > 0 {
      MarkAppendSpec(nodes, n, at);
      var appended := AppendChildren(MarkFirstChild(nodes, n.id, |nodes|), ch);
      assert UniqueForest(ch);
      BuildEachSpec(appended, ch, |nodes|);
      var r := BuildEach(appended, ch);
      assert r == BuildChildren(nodes, n);
      SameNodesTrans(nodes, appended, r);
      assert LaidOut(r, at) by {
        forall j | |nodes| <= j < |nodes| + |ch|
          ensures r[j].node == ch[j - |nodes|]
        {
          assert appended[j].node == ch[j - |nodes|];
        }
      }
      forall j | |nodes| <= j < |r|
        ensures r[j].node.id in IdsForest(ch) && r[j].result.None?
      {
        if j < |appended| {
          assert appended[j].node == ch[j - |nodes|];
          IdsForestElem(ch, j - |nodes|);
        }
      }
    }
  }

  /** `pctree_node_children_for_each(..., build_eval_node_children, ...)`
      over a block of siblings stored at `base ..  base + |cs|)`, when no
      position after the block holds a node of their subtrees yet. */
  lemma {:induction false} BuildEachSpec(nodes: seq<EvalNode>, cs: seq<VcmNode>, base: nat)
    requires base + |cs| <= |nodes|
    requires forall j :: base <= j < base + |cs| ==> nodes[j].node == cs[j - base] && nodes[j].firstChildIdx == 0
    requires UniqueForest(cs) && IdxOk(nodes)
    requires forall j :: base + |cs| <= j < |nodes| ==> nodes[j].node.id !in IdsForest(cs)
    ensures var r := BuildEach(nodes, cs);
      && |r| + |cs| == |nodes| + CountForest(cs)
      && SameNodes(nodes, r)
      && IdxOk(r)
      && (forall p :: 0 <= p < |nodes| && !(base <= p < base + |cs|) ==> r[p].firstChildIdx == nodes[p].firstChildIdx)
      && (forall k :: base <= k < base + |cs| ==> LaidOut(r, k))
      && (forall j :: |nodes| <= j < |r| ==> LaidOut(r, j))
      && (forall j :: |nodes| <= j < |r| ==> r[j].node.id in IdsForest(cs) && r[j].result.None?)
    decreases cs, 0
  {
    if |cs| > 0 {
      var c := cs[0];
      var rest := cs[1..];
      assert IdsForest(cs) == Ids(c) + IdsForest(rest);
      // the first sibling: nothing after it belongs to its subtree
      forall j | base < j < |nodes|
        ensures nodes[j].node.id !in Ids(c)
      {
        if j < base + |cs| {
          assert nodes[j].node == rest[j - base - 1];
          IdsForestElem(rest, j - base - 1);
        }
      }
      BuildChildrenSpec(nodes, c, base);
      var n1 := BuildChildren(nodes, c);
      IdsOfChildren(c);
      // the remaining siblings
      forall j | base + 1 + |rest| <= j < |n1|
        ensures n1[j].node.id !in IdsForest(rest)
      {
      }
      var next := base + 1;
      forall j | next <= j < next + |rest|
        ensures n1[j].node == rest[j - next] && n1[j].firstChildIdx == 0
      {
        assert nodes[j].node == cs[j - base];
      }
      BuildEachSpec(n1, rest, next);
      var r := BuildEach(n1, rest);
      assert r == BuildEach(nodes, cs);
      SameNodesTrans(nodes, n1, r);
      assert CountForest(cs) == Count(c) + CountForest(rest);
      LaidOutStable(n1, r, base);
      forall j | |nodes| <= j < |r|
        ensures LaidOut(r, j)
        ensures r[j].node.id in IdsForest(cs) && r[j].result.None?
      {
        if j < |n1| {
          LaidOutStable(n1, r, j);
        }
      }
    }
  }

  /** The indexer invariants for a tree appended to an array that already
      satisfies them: the array grows by the node count, the old part is
      untouched, the root lands at the old insertion position, every node
      stores its own index, every new node's children form one block in
      sibling order, and every new result slot is INVALID. */
  lemma {:induction false} BuildEvalNodesSpec(nodes: seq<EvalNode>, root: VcmNode)
    requires UniqueIds(root) && IdxOk(nodes)
    ensures var r := BuildEvalNodes(nodes, root);
      && |r| == |nodes| + NrNodes(root)
      && r[..|nodes|] == nodes
      && r[|nodes|].node == root
      && IdxOk(r)
      && (forall k :: |nodes| <= k < |r| ==> LaidOut(r, k) && r[k].result.None?)
  {
    var a := AppendEvalNode(nodes, root);
    BuildChildrenSpec(a, root, |nodes|);
    var r := BuildEvalNodes(nodes, root);
    forall p | 0 <= p < |nodes|
      ensures r[p] == nodes[p]
    {
      assert a[p] == nodes[p];
    }
    assert r[..|nodes|] == nodes;
  }

  /** The bound the evaluator relies on: every first child index, and the
      whole child block, lies inside the array. */
  predicate NodesValid(nodes: seq<EvalNode>)
  {
    && IdxOk(nodes)
    && forall k :: 0 <= k < |nodes| ==>
         && nodes[k].firstChildIdx + |nodes[k].node.children| <= |nodes|
         && nodes[k].firstChildIdx < |nodes|
  }

  /** `build_eval_nodes` keeps the evaluator's bound. */
  lemma {:induction false} BuildEvalNodesValid(nodes: seq<EvalNode>, root: VcmNode)
    requires UniqueIds(root) && NodesValid(nodes)
    ensures NodesValid(BuildEvalNodes(nodes, root))
    ensures |BuildEvalNodes(nodes, root)| == |nodes| + Count(root)
    ensures BuildEvalNodes(nodes, root)[..|nodes|] == nodes
    ensures BuildEvalNodes(nodes, root)[|nodes|].node == root
    ensures forall k :: |nodes| <= k < |BuildEvalNodes(nodes, root)| ==> BuildEvalNodes(nodes, root)[k].result.None?
  {
    BuildEvalNodesSpec(nodes, root);
    var r := BuildEvalNodes(nodes, root);
    forall k | 0 <= k < |r|
      ensures r[k].firstChildIdx + |r[k].node.children| <= |r| && r[k].firstChildIdx < |r|
    {
      if k < |nodes| {
        assert r[k] == r[..|nodes|][k];
      } else {
        assert LaidOut(r, k);
      }
    }
  }
}

=== FILE: func_demo.dfy ===
/** The demonstration host functions of `test/externals/func_demo.c`:
    `get_member`, `to_array` and `statsUserRegion`, which groups the
    object members of an array by the value of one of their keys and counts
    each group.

    Values are immutable here.  In the source the `regions` object is put
    into the result before the counting loop and updated through its
    reference afterwards; the model builds the result from the final
    `regions` object, which is what the caller observes. */
module FuncDemo {
  import opened Wrappers
  import opened Variant
  import opened Seqs

  /** `get_member`: INVALID (with the INVALID_VALUE error) unless called on
      an object with a string key; undefined for a missing key; the member
      otherwise. */
  function GetMember(on: Value, with: Value): (r: Option<Value>)
    ensures r.None? <==> !on.Object? || !with.String?
    ensures r.Some? ==> (ObjectGet(on, with).None? ==> r.value == Undefined)
    ensures r.Some? ==> (ObjectGet(on, with).Some? ==> r == ObjectGet(on, with))
  {
    if !on.Object? || !with.String? then None
    else match ObjectGet(on, with)
      case None => Some(Undefined)
      case Some(v) => Some(v)
  }

  /** `to_array`: the two-element array of the two arguments, or undefined
      when making the array fails; `made` is whether
      `purc_variant_make_array` succeeded. */
  function ToArray(on: Value, with: Value, made: bool): (r: Value)
    ensures r.Array? <==> made
    ensures !made ==> r == Undefined
    ensures made ==> ArraySize(r) == Some(2)
    ensures made ==> ArrayGet(r, 0) == Some(on) && ArrayGet(r, 1) == Some(with)
  {
    if made then Array([on, with]) else Undefined
  }

  /** Reading back a member just set gives the new value, other members
      read as before, and a removed member reads as undefined. */
  lemma {:induction false} GetMemberAfterUpdate(o: Value, k: string, other: string, v: Value)
    requires o.Object? && KeysUnique(o.entries) && other != k
    ensures GetMember(ObjectSet(o, String(k), v).value, String(k)) == Some(v)
    ensures GetMember(ObjectSet(o, String(k), v).value, String(other)) == GetMember(o, String(other))
    ensures ObjectRemove(o, String(k)).Some? ==> GetMember(ObjectRemove(o, String(k)).value, String(k)) == Some(Undefined)
  {
    ObjectSetSpec(o, String(k), v);
    if ObjectRemove(o, String(k)).Some? {
      ObjectRemoveSpec(o, String(k));
    }
  }

  /** `to_array` builds what appending the two arguments to an empty array
      builds. */
  lemma {:induction false} ToArrayIsTwoAppends(on: Value, with: Value)
    ensures ToArray(on, with, true) == ArrayAppend(ArrayAppend(Array([]), on).value, with).value
  {
  }

  // ---------------------------------------------------------------------
  // statsUserRegion

  const UNKNOWN_KEY: Value := String("unknown")

  /** The region key of an object member: the member's value under the
      grouping key, or "unknown" when it has none. */
  function RegionOf(m: Value, key: Value): Value
  {
    match ObjectGet(m, key)
    case Some(v) => v
    case None => UNKNOWN_KEY
  }

  /** How many object members of `items` fall in region k. */
  function Tally(items: seq<Value>, key: Value, k: Value): (r: nat)
    ensures r <= |items|
    decreases |items|
  {
    if |items| == 0 then 0
    else
      var last := items[|items| - 1];
      Tally(items[..|items| - 1], key, k) + (if last.Object? && RegionOf(last, key) == k then 1 else 0)
  }

  /** How many members of `items` are objects. */
  function ObjectMembers(items: seq<Value>): (r: nat)
    ensures r <= |items|
    decreases |items|
  {
    if |items| == 0 then 0
    else ObjectMembers(items[..|items| - 1]) + (if items[|items| - 1].Object? then 1 else 0)
  }

  /** The counter a region value stands for. */
  function CounterOf(v: Value): nat
  {
    if v.ULongInt? then v.u else 0
  }

  /** The sum of the counters of an object's pairs. */
  function SumCounters(es: seq<KeyValue>): nat
    decreases |es|
  {
    if |es| == 0 then 0 else CounterOf(es[0].val) + SumCounters(es[1..])
  }

  lemma {:induction false} SumCountersUpdate(es: seq<KeyValue>, j: nat, kv: KeyValue)
    requires j < |es|
    ensures SumCounters(es[j := kv]) + CounterOf(es[j].val) == SumCounters(es) + CounterOf(kv.val)
    decreases j
  {
    if j > 0 {
      assert es[j := kv][1..] == es[1..][j - 1 := kv];
      SumCountersUpdate(es[1..], j - 1, kv);
    }
  }

  lemma {:induction false} SumCountersAppend(es: seq<KeyValue>, kv: KeyValue)
    ensures SumCounters(es + [kv]) == SumCounters(es) + CounterOf(kv.val)
    decreases |es|
  {
    if |es| == 0 {
      assert es + [kv] == [kv];
      assert [kv][1..] == [];
    } else {
      assert (es + [kv])[1..] == es[1..] + [kv];
      SumCountersAppend(es[1..], kv);
    }
  }

  /** The regions object after counting `items`: each region with at least
      one member maps to its count, and no other key is present. */
  ghost predicate CountsOf(regions: Value, items: seq<Value>, key: Value)
  {
    && regions.Object?
    && KeysUnique(regions.entries)
    && (forall i :: 0 <= i < |regions.entries| ==> regions.entries[i].val.ULongInt?)
    && forall k :: ObjectGet(regions, k) == (if Tally(items, key, k) == 0 then None else Some(ULongInt(Tally(items, key, k))))
  }

  /** Add one to the counter of region k, as the loop body does: the
      current counter cast to an unsigned integer (0 when absent), plus one,
      wrapping at 2^64; `None` when the wrapped count is zero, where the
      loop stops. */
  function Bump(regions: Value, k: Value): (r: Option<Value>)
    requires regions.Object?
  {
    var current := match ObjectGet(regions, k)
      case Some(c) => CastToULongInt(c, false, s => None).GetOr(0)
      case None => 0;
    var count := (current + 1) % UINT64_LIMIT;
    if count == 0 then None else ObjectSet(regions, k, ULongInt(count))
  }

  /** Counting one more member adds one to its own region only. */
  lemma TallySnoc(items: seq<Value>, key: Value, m: Value, k: Value)
    ensures Tally(items + [m], key, k) == Tally(items, key, k) + (if m.Object? && RegionOf(m, key) == k then 1 else 0)
    ensures ObjectMembers(items + [m]) == ObjectMembers(items) + (if m.Object? then 1 else 0)
  {
    var items' := items + [m];
    assert items'[..|items'| - 1] == items;
  }

  /** Setting the counter of region k from t to t + 1 adds one to the sum
      of the counters and keeps every value a counter. */
  lemma {:induction false} SetCounterSum(regions: Value, k: Value, t: nat)
    requires regions.Object? && KeysUnique(regions.entries)
    requires forall i :: 0 <= i < |regions.entries| ==> regions.entries[i].val.ULongInt?
    requires ObjectGet(regions, k) == (if t == 0 then None else Some(ULongInt(t)))
    ensures var r := ObjectSet(regions, k, ULongInt(t + 1)).value;
      && SumCounters(r.entries) == SumCounters(regions.entries) + 1
      && forall i :: 0 <= i < |r.entries| ==> r.entries[i].val.ULongInt?
  {
    var es := regions.entries;
    var kv := KV(k, ULongInt(t + 1));
    match FindKey(es, k) {
      case Some(i) =>
        ObjectGetUnique(es, i);
        assert es[i].val == ULongInt(t);
        SumCountersUpdate(es, i, kv);
        assert ObjectSet(regions, k, ULongInt(t + 1)).value.entries == es[i := kv];
      case None =>
        assert t == 0;
        SumCountersAppend(es, kv);
        assert ObjectSet(regions, k, ULongInt(t + 1)).value.entries == es + [kv];
    }
  }

  /** The loop body on an object member yields the counter the region
      already had plus one, while that stays below 2^64. */
  lemma BumpIsSet(regions: Value, k: Value, t: nat)
    requires regions.Object? && t + 1 < UINT64_LIMIT
    requires ObjectGet(regions, k) == (if t == 0 then None else Some(ULongInt(t)))
    ensures Bump(regions, k) == ObjectSet(regions, k, ULongInt(t + 1))
  {
    if t > 0 {
      assert CastToULongInt(ULongInt(t), false, s => None) == Some(t);
    }
  }

  /** One loop step keeps the counts exact and adds one to their sum, as
      long as no counter reaches 2^64. */
  lemma {:induction false} BumpStep(regions: Value, items: seq<Value>, key: Value, m: Value)
    requires CountsOf(regions, items, key)
    requires SumCounters(regions.entries) == ObjectMembers(items)
    requires m.Object? && |items| + 1 < UINT64_LIMIT
    ensures Bump(regions, RegionOf(m, key)).Some?
    ensures var r := Bump(regions, RegionOf(m, key)).value;
      && CountsOf(r, items + [m], key)
      && SumCounters(r.entries) == ObjectMembers(items + [m])
  {
    var k := RegionOf(m, key);
    var t := Tally(items, key, k);
    BumpIsSet(regions, k, t);
    var r := ObjectSet(regions, k, ULongInt(t + 1)).value;
    ObjectSetSpec(regions, k, ULongInt(t + 1));
    SetCounterSum(regions, k, t);
    TallySnoc(items, key, m, k);
    forall k2
      ensures ObjectGet(r, k2) == (if Tally(items + [m], key, k2) == 0 then None else Some(ULongInt(Tally(items + [m], key, k2))))
    {
      TallySnoc(items, key, m, k2);
      if k2 == k {
        assert ObjectGet(r, k2) == Some(ULongInt(t + 1));
        assert Tally(items + [m], key, k2) == t + 1;
      } else {
        assert ObjectGet(r, k2) == ObjectGet(regions, k2);
        assert Tally(items + [m], key, k2) == Tally(items, key, k2);
      }
    }
  }

  /** A non-object member changes nothing. */
  lemma {:induction false} SkipStep(regions: Value, items: seq<Value>, key: Value, m: Value)
    requires CountsOf(regions, items, key)
    requires SumCounters(regions.entries) == ObjectMembers(items)
    requires !m.Object?
    ensures CountsOf(regions, items + [m], key)
    ensures SumCounters(regions.entries) == ObjectMembers(items + [m])
  {
    forall k
      ensures Tally(items + [m], key, k) == Tally(items, key, k)
    {
      TallySnoc(items, key, m, k);
    }
    TallySnoc(items, key, m, m);
  }

  /** Before the loop: no member counted, an empty `regions` object. */
  lemma {:induction false} CountsOfNothing(items: seq<Value>, key: Value)
    ensures CountsOf(Object([]), items[..0], key)
    ensures SumCounters(Object([]).entries) == ObjectMembers(items[..0])
  {
    assert items[..0] == [];
    forall k
      ensures ObjectGet(Object([]), k) == (if Tally(items[..0], key, k) == 0 then None else Some(ULongInt(Tally(items[..0], key, k))))
    {
    }
  }

  /** The object `statsUserRegion` returns, with `count` and `regions`. */
  function StatsResult(count: nat, regions: Value): Value
  {
    Object([KV(String("count"), ULongInt(count)), KV(String("regions"), regions)])
  }

  /** The two members of the result read back as stored. */
  lemma {:induction false} StatsResultMembers(count: nat, regions: Value)
    ensures StatsResult(count, regions).Object?
    ensures ObjectGet(StatsResult(count, regions), String("count")) == Some(ULongInt(count))
    ensures ObjectGet(StatsResult(count, regions), String("regions")) == Some(regions)
  {
    var es := StatsResult(count, regions).entries;
    assert KeysUnique(es);
    ObjectGetUnique(es, 0);
    ObjectGetUnique(es, 1);
  }

  /** One iteration of the counting loop over `items[i]` keeps the counts
      of the prefix read so far exact. */
  lemma {:induction false} CountStep(regions: Value, items: seq<Value>, key: Value, i: nat)
    requires i < |items| < UINT64_LIMIT
    requires CountsOf(regions, items[..i], key) && SumCounters(regions.entries) == ObjectMembers(items[..i])
    ensures items[i].Object? ==>
      && Bump(regions, RegionOf(items[i], key)).Some?
      && CountsOf(Bump(regions, RegionOf(items[i], key)).value, items[..i + 1], key)
      && SumCounters(Bump(regions, RegionOf(items[i], key)).value.entries) == ObjectMembers(items[..i + 1])
    ensures !items[i].Object? ==>
      CountsOf(regions, items[..i + 1], key) && SumCounters(regions.entries) == ObjectMembers(items[..i + 1])
  {
    TakeNext(items, i);
    if items[i].Object? {
      BumpStep(regions, items[..i], key, items[i]);
    } else {
      SkipStep(regions, items[..i], key, items[i]);
    }
  }

  /** The counting loop of `statsUserRegion`: every region maps to the
      number of object members in it, and non-objects are skipped.  The loop
      stops early only when a counter wraps at 2^64, which needs at least
      2^64 members. */
  method CountRegions(items: seq<Value>, key: Value) returns (regions: Value)
    ensures regions.Object?
    ensures |items| < UINT64_LIMIT ==> CountsOf(regions, items, key) && SumCounters(regions.entries) == ObjectMembers(items)
  {
    regions := Object([]);
    var i := 0;
    if |items| < UINT64_LIMIT {
      CountsOfNothing(items, key);
    }
    while i < |items|
      invariant 0 <= i <= |items|
      invariant regions.Object?
      invariant |items| < UINT64_LIMIT ==>
        CountsOf(regions, items[..i], key) && SumCounters(regions.entries) == ObjectMembers(items[..i])
    {
      var m := items[i];
      if |items| < UINT64_LIMIT {
        CountStep(regions, items, key, i);
      }
      if m.Object? {
        var next := Bump(regions, RegionOf(m, key));
        if next.None? {
          break;
        }
        regions := next.value;
      }
      i := i + 1;
    }
    if |items| < UINT64_LIMIT {
      assert i == |items|;
      TakeAll(items);
    }
  }

  /** `statsUserRegion`: undefined unless called on an array with a string
      key, and undefined when making either the result or the `regions`
      object fails (`resultMade` and `regionsMade` say whether each
      `purc_variant_make_object` succeeded).  Otherwise an object whose
      `count` is the array size and whose `regions` is what `CountRegions`
      counted, so the counters add up to the number of object members. */
  method StatsUserRegion(on: Option<Value>, with: Option<Value>, resultMade: bool, regionsMade: bool) returns (r: Value)
    ensures !(on.Some? && on.value.Array? && with.Some? && with.value.String?) ==> r == Undefined
    ensures !resultMade || !regionsMade ==> r == Undefined
    ensures on.Some? && on.value.Array? && with.Some? && with.value.String? && resultMade && regionsMade ==>
      && r.Object?
      && ObjectGet(r, String("count")) == Some(ULongInt(|on.value.items|))
      && ObjectGet(r, String("regions")).Some?
    ensures on.Some? && on.value.Array? && with.Some? && with.value.String? && resultMade && regionsMade && |on.value.items| < UINT64_LIMIT ==>
      var regions := ObjectGet(r, String("regions")).value;
      && CountsOf(regions, on.value.items, with.value)
      && SumCounters(regions.entries) == ObjectMembers(on.value.items)
  {
    if on.None? || with.None? || !on.value.Array? || !with.value.String? {
      return Undefined;
    }
    if !resultMade || !regionsMade {
      return Undefined;
    }
    var items := on.value.items;
    var regions := CountRegions(items, with.value);
    r := StatsResult(|items|, regions);
    StatsResultMembers(|items|, regions);
  }
}

=== FILE: hvml_element.dfy ===
/** The operations of the `<hvml>` element (`interpreter/elements/hvml.c`):
    the stack-mode transition on popping, the choice of the `<body>` to
    run, and the child selection that walks the element's children one
    call at a time.

    The vDOM is reduced to what these operations look at: each child of
    the `<hvml>` element has an address and a node type, and the `id`
    attribute of a body element is evaluated by the interpreter, which is
    not part of this model (it is supplied as a function from body address
    to the evaluated value, `None` for no value). */
module HvmlElement {
  import opened Wrappers
  import opened Variant

  /** `enum pcintr_stack_vdom_insertion_mode`. */
  datatype StackMode = BeforeHvml | BeforeHead | InHead | AfterHead | InBody | AfterBody | AfterHvml

  /** The vDOM node types `select_child` tells apart; an element records
      whether its tag is `body`. */
  datatype VdomKind = DocumentNode | ElementNode(isBody: bool) | ContentNode | CommentNode | UnknownNode

  datatype VdomNode = VdomNode(addr: nat, kind: VdomKind)

  /** `struct ctxt_for_hvml`: the child last selected (an index among the
      element's children, `None` before the first call) and the chosen
      body (an address, `None` when there is none). */
  datatype HvmlCtxt = HvmlCtxt(curr: Option<nat>, body: Option<nat>)

  // ---------------------------------------------------------------------
  // on_popping

  /** The modes that popping the `<hvml>` element ends. */
  predicate EndsOnPop(m: StackMode)
  {
    m == BeforeHead || m == AfterHead || m == AfterBody
  }

  /** `on_popping`: the stack mode moves to AFTER_HVML from BEFORE_HEAD,
      AFTER_HEAD and AFTER_BODY and stays otherwise; the frame context is
      released; the result is always true. */
  function OnPopping(mode: StackMode, ctxt: Option<HvmlCtxt>): (r: (bool, StackMode, Option<HvmlCtxt>))
    ensures r.0
    ensures r.2.None?
    ensures EndsOnPop(mode) ==> r.1 == AfterHvml
    ensures !EndsOnPop(mode) ==> r.1 == mode
  {
    var m := match mode
      case BeforeHead => AfterHvml
      case AfterHead => AfterHvml
      case AfterBody => AfterHvml
      case _ => mode;
    (true, m, None)
  }

  // ---------------------------------------------------------------------
  // Choosing the body

  /** `is_match_body_id`: with no requested body id every body matches;
      otherwise the body's evaluated `id` must be a string equal to it. */
  function IsMatchBodyId(bodyId: Option<string>, elemId: Option<Value>): (r: bool)
    ensures bodyId.None? ==> r
    ensures bodyId.Some? ==> (r <==> elemId.Some? && elemId.value.String? && elemId.value.s == bodyId.value)
  {
    if bodyId.None? then true
    else match elemId
      case Some(String(eid)) => eid == bodyId.value
      case _ => false
  }

  /** The first body from `from` on whose id matches. */
  function FirstMatch(bodies: seq<nat>, bodyId: Option<string>, idOf: nat -> Option<Value>, from: nat): (r: Option<nat>)
    ensures r.Some? ==>
      && from <= r.value < |bodies|
      && IsMatchBodyId(bodyId, idOf(bodies[r.value]))
      && forall j :: from <= j < r.value ==> !IsMatchBodyId(bodyId, idOf(bodies[j]))
    ensures r.None? ==> forall j :: from <= j < |bodies| ==> !IsMatchBodyId(bodyId, idOf(bodies[j]))
    decreases |bodies| - from
  {
    if from >= |bodies| then None
    else if IsMatchBodyId(bodyId, idOf(bodies[from])) then Some(from)
    else FirstMatch(bodies, bodyId, idOf, from + 1)
  }

  /** The body `find_body` is meant to choose: the first one whose id
      matches, or else the first one, or none when there are no bodies. */
  function ChosenBody(bodies: seq<nat>, bodyId: Option<string>, idOf: nat -> Option<Value>): Option<nat>
  {
    if |bodies| == 0 then None
    else match FirstMatch(bodies, bodyId, idOf, 0)
      case Some(i) => Some(bodies[i])
      case None => Some(bodies[0])
  }

  /** `find_body`: scan the bodies in order for the first whose id
      matches; fall back to the first body. */
  method FindBody(bodies: seq<nat>, bodyId: Option<string>, idOf: nat -> Option<Value>) returns (r: Option<nat>)
    ensures |bodies| == 0 ==> r.None?
    ensures |bodies| > 0 ==> r.Some?
    ensures r.Some? ==> r.value in bodies
    ensures (forall i :: 0 <= i < |bodies| ==> !IsMatchBodyId(bodyId, idOf(bodies[i]))) && |bodies| > 0 ==>
      r == Some(bodies[0])
    ensures r == ChosenBody(bodies, bodyId, idOf)
  {
    if |bodies| == 0 {
      return None;
    }
    var i := 0;
    while i < |bodies|
      invariant 0 <= i <= |bodies|
      invariant forall j :: 0 <= j < i ==> !IsMatchBodyId(bodyId, idOf(bodies[j]))
    {
      if IsMatchBodyId(bodyId, idOf(bodies[i])) {
        var first := FirstMatch(bodies, bodyId, idOf, 0);
        assert first == Some(i);
        return Some(bodies[i]);
      }
      i := i + 1;
    }
    return Some(bodies[0]);
  }

  /** Without a requested body id, the first body is always chosen; with
      one that no body carries, the first body is chosen too. */
  lemma FirstBodyFallback(bodies: seq<nat>, bodyId: Option<string>, idOf: nat -> Option<Value>)
    requires |bodies| > 0
    requires bodyId.None? || forall i :: 0 <= i < |bodies| ==> idOf(bodies[i]) != Some(String(bodyId.value))
    ensures ChosenBody(bodies, bodyId, idOf) == Some(bodies[0])
  {
  }

  /** A requested id picks the first body carrying exactly that string as
      its id, whatever the bodies after it carry. */
  lemma {:induction false} BodyChosenById(bodies: seq<nat>, id: string, idOf: nat -> Option<Value>, i: nat)
    requires i < |bodies| && idOf(bodies[i]) == Some(String(id))
    requires forall j :: 0 <= j < i ==> idOf(bodies[j]) != Some(String(id))
    ensures ChosenBody(bodies, Some(id), idOf) == Some(bodies[i])
  {
    assert IsMatchBodyId(Some(id), idOf(bodies[i]));
    assert forall j :: 0 <= j < i ==> !IsMatchBodyId(Some(id), idOf(bodies[j]));
  }

  // ---------------------------------------------------------------------
  // select_child

  /** What `select_child` leaves in the instance's error slot. */
  datatype ErrEffect = Untouched | Cleared | NotSupported

  /** A child the walk passes over: content and comments, and a body that
      is not to be entered (after the body, or not the chosen one). */
  predicate Skipped(n: VdomNode, mode: StackMode, body: Option<nat>)
  {
    || n.kind.ContentNode?
    || n.kind.CommentNode?
    || (n.kind.ElementNode? && n.kind.isBody && (mode == AfterBody || body != Some(n.addr)))
  }

  /** A child the walk returns: an element that is not a body, or the
      chosen body while the mode is not AFTER_BODY. */
  predicate Selected(n: VdomNode, mode: StackMode, body: Option<nat>)
  {
    n.kind.ElementNode? && (!n.kind.isBody || (mode != AfterBody && body == Some(n.addr)))
  }

  /** Every child is passed over, selected, or stops the walk with an error
      (documents and unknown node types), and only one of these. */
  lemma ChildClassification(n: VdomNode, mode: StackMode, body: Option<nat>)
    ensures Skipped(n, mode, body) || Selected(n, mode, body) || n.kind.DocumentNode? || n.kind.UnknownNode?
    ensures !(Skipped(n, mode, body) && Selected(n, mode, body))
    ensures (Skipped(n, mode, body) || Selected(n, mode, body)) ==> !(n.kind.DocumentNode? || n.kind.UnknownNode?)
  {
  }

  /** The outcome of one `select_child` call. */
  datatype SelectResult = SelectResult(
    child: Option<nat>,          // index of the returned child element
    ctxt: Option<HvmlCtxt>,
    backAnchor: Option<nat>,
    err: ErrEffect)

  /** Where the walk resumes: the first child on the first call, the next
      sibling of the last child seen afterwards. */
  function StartOf(ctxt: HvmlCtxt): nat
  {
    if ctxt.curr.None? then 0 else ctxt.curr.value + 1
  }

  /** `select_child` for the frame `frame` whose element has the children
      `children`.  A back anchor on this frame is cleared first; no
      context, or a back anchor on another frame, selects nothing.
      Otherwise the children after the last one seen are walked, passing
      over content, comments and bodies not to be entered, until a child is
      selected, the children run out (the error is cleared and the walk
      restarts from the first child on the next call), or a node the walk
      does not support stops it. */
  method SelectChild(
      frame: nat, backAnchor: Option<nat>, ctxt: Option<HvmlCtxt>, mode: StackMode, children: seq<VdomNode>)
    returns (r: SelectResult)
    requires ctxt.Some? && ctxt.value.curr.Some? ==> ctxt.value.curr.value < |children|
    ensures r.backAnchor == (if backAnchor == Some(frame) then None else backAnchor)
    ensures ctxt.None? || r.backAnchor.Some? ==> r.child.None? && r.ctxt == ctxt && r.err == Untouched
    ensures ctxt.Some? && r.backAnchor.None? ==>
      var c := ctxt.value;
      var start := StartOf(c);
      && r.ctxt.Some? && r.ctxt.value.body == c.body
      && (r.err != Untouched <==> r.child.None?)
      && (r.child.Some? ==>
            && start <= r.child.value < |children|
            && Selected(children[r.child.value], mode, c.body)
            && r.ctxt.value.curr == r.child
            && forall j :: start <= j < r.child.value ==> Skipped(children[j], mode, c.body))
      && (r.err == Cleared ==>
            && r.ctxt.Some? && r.ctxt.value.curr.None?
            && forall j :: start <= j < |children| ==> Skipped(children[j], mode, c.body))
      && (r.err == NotSupported ==>
            && r.ctxt.Some? && r.ctxt.value.curr.Some?
            && start <= r.ctxt.value.curr.value < |children|
            && (children[r.ctxt.value.curr.value].kind.DocumentNode? || children[r.ctxt.value.curr.value].kind.UnknownNode?)
            && forall j :: start <= j < r.ctxt.value.curr.value ==> Skipped(children[j], mode, c.body))
  {
    var anchor := if backAnchor == Some(frame) then None else backAnchor;
    if ctxt.None? || anchor.Some? {
      return SelectResult(None, ctxt, anchor, Untouched);
    }
    var c := ctxt.value;
    var start := StartOf(c);
    var i := start;
    while i < |children|
      invariant start <= i <= |children| || (i == start && start == |children|)
      invariant forall j :: start <= j < i ==> Skipped(children[j], mode, c.body)
      decreases |children| - i
    {
      var n := children[i];
      match n.kind {
        case ElementNode(isBody) =>
          if !isBody || (mode != AfterBody && c.body == Some(n.addr)) {
            return SelectResult(Some(i), Some(c.(curr := Some(i))), anchor, Untouched);
          }
        case ContentNode =>
        case CommentNode =>
        case DocumentNode =>
          return SelectResult(None, Some(c.(curr := Some(i))), anchor, NotSupported);
        case UnknownNode =>
          return SelectResult(None, Some(c.(curr := Some(i))), anchor, NotSupported);
      }
      i := i + 1;
    }
    return SelectResult(None, Some(c.(curr := None)), anchor, Cleared);
  }

  /** Walking the children with repeated calls visits the selectable
      elements in order: when two successive calls on a frame without a back
      anchor both select a child, the second lies strictly after the first
      and every child between them is passed over. */
  method SelectionAdvances(frame: nat, ctxt: HvmlCtxt, mode: StackMode, children: seq<VdomNode>)
    returns (first: SelectResult, second: SelectResult)
    requires ctxt.curr.Some? ==> ctxt.curr.value < |children|
    ensures first.child.Some? && second.child.Some? ==>
      && first.child.value < second.child.value < |children|
      && forall j :: first.child.value < j < second.child.value ==> Skipped(children[j], mode, ctxt.body)
  {
    first := SelectChild(frame, None, Some(ctxt), mode, children);
    second := SelectChild(frame, first.backAnchor, first.ctxt, mode, children);
  }

  /** Once the element is popped its context is released, so a later
      `select_child` on the frame selects nothing and leaves the error
      alone. */
  method PoppedSelectsNothing(
      mode: StackMode, ctxt: Option<HvmlCtxt>, frame: nat, backAnchor: Option<nat>, children: seq<VdomNode>)
    returns (popped: bool, r: SelectResult)
    ensures popped && r.child.None? && r.ctxt.None? && r.err == Untouched
  {
    var p := OnPopping(mode, ctxt);
    popped := p.0;
    r := SelectChild(frame, backAnchor, p.2, p.1, children);
  }
}

=== FILE: ipc_codec.dfy ===
/** The field-by-field IPC codecs of `NetworkSessionCreationParameters`
    and `ResourceLoadStatisticsParameters` (`fetchers/messages`): `encode`
    writes every field in a fixed order, `decode` reads them back in the
    same order and gives up at the first field that does not decode.

    How the IPC encoder lays out a value in bytes (`ArgumentCoders`) is not
    part of this model: the stream is a list of typed tokens, one per
    field, and a field decodes exactly when the next token has its type.
    An encoder writes in front of what follows it, a decoder returns what
    it has not read.  Enumerations are kept as their numeric codes, session
    identifiers and sandbox handles as opaque numbers, registrable domains
    as strings. */
module IpcCodec {
  import opened Wrappers

  datatype Token =
    | TSessionID(id: nat)
    | TString(str: string)
    | TBool(b: bool)
    | TUnsigned(u: nat)
    | TEnum(code: nat)
    | THandle(handle: nat)
    | TDomain(domain: string)
    | TDomainSet(domains: set<string>)

  datatype Stream = End | Cons(head: Token, tail: Stream)

  // ---------------------------------------------------------------------
  // `decoder >> field`: the field and the rest of the stream, or nothing
  // when the stream has ended or the next token is of another type.

  function ReadSessionID(s: Stream): (r: Option<(nat, Stream)>)
    ensures r.Some? <==> s.Cons? && s.head.TSessionID?
    ensures r.Some? ==> s == Cons(TSessionID(r.value.0), r.value.1)
  {
    match s
    case Cons(TSessionID(x), t) => Some((x, t))
    case _ => None
  }

  function ReadString(s: Stream): (r: Option<(string, Stream)>)
    ensures r.Some? <==> s.Cons? && s.head.TString?
    ensures r.Some? ==> s == Cons(TString(r.value.0), r.value.1)
  {
    match s
    case Cons(TString(x), t) => Some((x, t))
    case _ => None
  }

  function ReadBool(s: Stream): (r: Option<(bool, Stream)>)
    ensures r.Some? <==> s.Cons? && s.head.TBool?
    ensures r.Some? ==> s == Cons(TBool(r.value.0), r.value.1)
  {
    match s
    case Cons(TBool(x), t) => Some((x, t))
    case _ => None
  }

  function ReadUnsigned(s: Stream): (r: Option<(nat, Stream)>)
    ensures r.Some? <==> s.Cons? && s.head.TUnsigned?
    ensures r.Some? ==> s == Cons(TUnsigned(r.value.0), r.value.1)
  {
    match s
    case Cons(TUnsigned(x), t) => Some((x, t))
    case _ => None
  }

  function ReadEnum(s: Stream): (r: Option<(nat, Stream)>)
    ensures r.Some? <==> s.Cons? && s.head.TEnum?
    ensures r.Some? ==> s == Cons(TEnum(r.value.0), r.value.1)
  {
    match s
    case Cons(TEnum(x), t) => Some((x, t))
    case _ => None
  }

  function ReadHandle(s: Stream): (r: Option<(nat, Stream)>)
    ensures r.Some? <==> s.Cons? && s.head.THandle?
    ensures r.Some? ==> s == Cons(THandle(r.value.0), r.value.1)
  {
    match s
    case Cons(THandle(x), t) => Some((x, t))
    case _ => None
  }

  function ReadDomain(s: Stream): (r: Option<(string, Stream)>)
    ensures r.Some? <==> s.Cons? && s.head.TDomain?
    ensures r.Some? ==> s == Cons(TDomain(r.value.0), r.value.1)
  {
    match s
    case Cons(TDomain(x), t) => Some((x, t))
    case _ => None
  }

  function ReadDomainSet(s: Stream): (r: Option<(set<string>, Stream)>)
    ensures r.Some? <==> s.Cons? && s.head.TDomainSet?
    ensures r.Some? ==> s == Cons(TDomainSet(r.value.0), r.value.1)
  {
    match s
    case Cons(TDomainSet(x), t) => Some((x, t))
    case _ => None
  }

  // ---------------------------------------------------------------------
  // ResourceLoadStatisticsParameters

  /** The two fields that exist only when the build enables resource load
      statistics. */
  datatype StatsOnly = StatsOnly(thirdPartyCookieBlockingMode: nat, sameSiteStrictEnforcementEnabled: nat)

  /** `struct ResourceLoadStatisticsParameters`, in declaration order;
      `statsOnly` is present exactly in builds with
      ENABLE(RESOURCE_LOAD_STATISTICS). */
  datatype RlsParams = RlsParams(
    directory: string,
    directoryExtensionHandle: nat,
    enabled: bool,
    isItpStateExplicitlySet: bool,
    enableLogTestingEvent: bool,
    shouldIncludeLocalhost: bool,
    enableDebugMode: bool,
    statsOnly: Option<StatsOnly>,
    firstPartyWebsiteDataRemovalMode: nat,
    standaloneApplicationDomain: string,
    appBoundDomains: set<string>,
    manualPrevalentResource: string)

  /** A value of the struct as a build with or without the statistics
      feature declares it. */
  predicate RlsFor(p: RlsParams, statsBuild: bool)
  {
    p.statsOnly.Some? <==> statsBuild
  }

  /** The struct's default member initialisers.  The enumerations' default
      codes (`All`, `No`, `AllButCookies`) and the default handle are
      declared elsewhere and are parameters here. */
  function DefaultRls(statsBuild: bool, handle0: nat, allMode: nat, noEnforcement: nat, allButCookies: nat): (p: RlsParams)
    ensures RlsFor(p, statsBuild)
    ensures !p.enabled && !p.isItpStateExplicitlySet && !p.enableLogTestingEvent && !p.enableDebugMode
    ensures p.shouldIncludeLocalhost
    ensures p.directory == "" && p.appBoundDomains == {}
    ensures p.standaloneApplicationDomain == "" && p.manualPrevalentResource == ""
    ensures statsBuild ==> p.statsOnly == Some(StatsOnly(allMode, noEnforcement))
    ensures p.firstPartyWebsiteDataRemovalMode == allButCookies
  {
    RlsParams("", handle0, false, false, false, true, false,
      if statsBuild then Some(StatsOnly(allMode, noEnforcement)) else None,
      allButCookies, "", {}, "")
  }

  /** `ResourceLoadStatisticsParameters::encode`, in front of `rest`. */
  function EncodeRls(p: RlsParams, rest: Stream): Stream
  {
    var tail :=
      Cons(TEnum(p.firstPartyWebsiteDataRemovalMode),
      Cons(TDomain(p.standaloneApplicationDomain),
      Cons(TDomainSet(p.appBoundDomains),
      Cons(TDomain(p.manualPrevalentResource), rest))));
    var middle := match p.statsOnly
      case Some(so) =>
        Cons(TEnum(so.thirdPartyCookieBlockingMode), Cons(TEnum(so.sameSiteStrictEnforcementEnabled), tail))
      case None => tail;
    Cons(TString(p.directory),
    Cons(THandle(p.directoryExtensionHandle),
    Cons(TBool(p.enabled),
    Cons(TBool(p.isItpStateExplicitlySet),
    Cons(TBool(p.enableLogTestingEvent),
    Cons(TBool(p.shouldIncludeLocalhost),
    Cons(TBool(p.enableDebugMode), middle)))))))
  }

  /** The two conditional fields of `decode`, read only in a statistics
      build. */
  function DecodeStatsOnly(s: Stream, statsBuild: bool): (r: Option<(Option<StatsOnly>, Stream)>)
    ensures !statsBuild ==> r == Some((None, s))
    ensures statsBuild && r.Some? ==>
      && r.value.0.Some?
      && s == Cons(TEnum(r.value.0.value.thirdPartyCookieBlockingMode),
              Cons(TEnum(r.value.0.value.sameSiteStrictEnforcementEnabled), r.value.1))
  {
    if !statsBuild then Some((None, s))
    else
      var tpc :- ReadEnum(s);
      var sameSite :- ReadEnum(tpc.1);
      Some((Some(StatsOnly(tpc.0, sameSite.0)), sameSite.1))
  }

  /** `ResourceLoadStatisticsParameters::decode`: the fields in the order
      `encode` writes them, nothing at the first that fails. */
  function DecodeRls(s: Stream, statsBuild: bool): Option<(RlsParams, Stream)>
  {
    var directory :- ReadString(s);
    var handle :- ReadHandle(directory.1);
    var enabled :- ReadBool(handle.1);
    var itpExplicit :- ReadBool(enabled.1);
    var logTesting :- ReadBool(itpExplicit.1);
    var localhost :- ReadBool(logTesting.1);
    var debug :- ReadBool(localhost.1);
    var statsOnly :- DecodeStatsOnly(debug.1, statsBuild);
    var removal :- ReadEnum(statsOnly.1);
    var standalone :- ReadDomain(removal.1);
    var appBound :- ReadDomainSet(standalone.1);
    var manual :- ReadDomain(appBound.1);
    Some((RlsParams(directory.0, handle.0, enabled.0, itpExplicit.0, logTesting.0, localhost.0, debug.0,
                    statsOnly.0, removal.0, standalone.0, appBound.0, manual.0), manual.1))
  }

  /** `decode(encode(p)) == p`: decoding what `encode` wrote gives the value
      back and leaves exactly what followed it. */
  lemma RlsRoundTrip(p: RlsParams, statsBuild: bool, rest: Stream)
    requires RlsFor(p, statsBuild)
    ensures DecodeRls(EncodeRls(p, rest), statsBuild) == Some((p, rest))
  {
  }

  /** Conversely, whatever decodes was written by `encode`, in a build of the
      same kind: a stream that does not start with an encoding fails. */
  lemma RlsDecodeOnlyEncodings(s: Stream, statsBuild: bool)
    ensures var r := DecodeRls(s, statsBuild);
      r.Some? ==> RlsFor(r.value.0, statsBuild) && s == EncodeRls(r.value.0, r.value.1)
  {
  }

  /** The default parameters survive a round trip in either kind of build. */
  lemma DefaultRlsRoundTrip(statsBuild: bool, handle0: nat, allMode: nat, noEnforcement: nat, allButCookies: nat)
    ensures var p := DefaultRls(statsBuild, handle0, allMode, noEnforcement, allButCookies);
      DecodeRls(EncodeRls(p, End), statsBuild) == Some((p, End))
  {
    RlsRoundTrip(DefaultRls(statsBuild, handle0, allMode, noEnforcement, allButCookies), statsBuild, End);
  }

  // ---------------------------------------------------------------------
  // NetworkSessionCreationParameters

  /** `struct NetworkSessionCreationParameters`, its members named and
      ordered as `decode` lists them when it builds the value: the two
      device-management flags come before the cache directory there, but
      after it in the stream. */
  datatype NsParams = NsParams(
    sessionID: nat,
    boundInterfaceIdentifier: string,
    allowsCellularAccess: nat,
    cookiePersistentStoragePath: string,
    cookiePersistentStorageType: nat,
    deviceManagementRestrictionsEnabled: bool,
    allLoadsBlockedByDeviceManagementRestrictionsForTesting: bool,
    networkCacheDirectory: string,
    networkCacheDirectoryExtensionHandle: nat,
    dataConnectionServiceType: string,
    fastServerTrustEvaluationEnabled: bool,
    networkCacheSpeculativeValidationEnabled: bool,
    shouldUseTestingNetworkSession: bool,
    staleWhileRevalidateEnabled: bool,
    testSpeedMultiplier: nat,
    suppressesConnectionTerminationOnSystemChange: bool,
    allowsServerPreconnect: bool,
    requiresSecureHTTPSProxyConnection: bool,
    preventsSystemHTTPProxyAuthentication: bool,
    resourceLoadStatisticsParameters: RlsParams)

  predicate NsFor(p: NsParams, statsBuild: bool)
  {
    RlsFor(p.resourceLoadStatisticsParameters, statsBuild)
  }

  /** The fields `encode` writes before the data-connection service type,
      in stream order. */
  datatype NsHead = NsHead(
    sessionID: nat,
    boundInterfaceIdentifier: string,
    allowsCellularAccess: nat,
    cookiePersistentStoragePath: string,
    cookiePersistentStorageType: nat,
    networkCacheDirectory: string,
    networkCacheDirectoryExtensionHandle: nat,
    deviceManagementRestrictionsEnabled: bool,
    allLoadsBlockedByDeviceManagementRestrictionsForTesting: bool)

  /** The fields `encode` writes from the data-connection service type up to
      the nested statistics parameters, in stream order. */
  datatype NsTail = NsTail(
    dataConnectionServiceType: string,
    fastServerTrustEvaluationEnabled: bool,
    networkCacheSpeculativeValidationEnabled: bool,
    shouldUseTestingNetworkSession: bool,
    staleWhileRevalidateEnabled: bool,
    testSpeedMultiplier: nat,
    suppressesConnectionTerminationOnSystemChange: bool,
    allowsServerPreconnect: bool,
    requiresSecureHTTPSProxyConnection: bool,
    preventsSystemHTTPProxyAuthentication: bool)

  function HeadOf(p: NsParams): NsHead
  {
    NsHead(p.sessionID, p.boundInterfaceIdentifier, p.allowsCellularAccess,
           p.cookiePersistentStoragePath, p.cookiePersistentStorageType,
           p.networkCacheDirectory, p.networkCacheDirectoryExtensionHandle,
           p.deviceManagementRestrictionsEnabled,
           p.allLoadsBlockedByDeviceManagementRestrictionsForTesting)
  }

  function TailOf(p: NsParams): NsTail
  {
    NsTail(p.dataConnectionServiceType, p.fastServerTrustEvaluationEnabled,
           p.networkCacheSpeculativeValidationEnabled, p.shouldUseTestingNetworkSession,
           p.staleWhileRevalidateEnabled, p.testSpeedMultiplier,
           p.suppressesConnectionTerminationOnSystemChange, p.allowsServerPreconnect,
           p.requiresSecureHTTPSProxyConnection, p.preventsSystemHTTPProxyAuthentication)
  }

  /** The value `decode` builds from what it read, by member name: the
      device-management flags go ahead of the cache directory. */
  function Assemble(h: NsHead, t: NsTail, rls: RlsParams): NsParams
  {
    NsParams(h.sessionID, h.boundInterfaceIdentifier, h.allowsCellularAccess,
             h.cookiePersistentStoragePath, h.cookiePersistentStorageType,
             h.deviceManagementRestrictionsEnabled,
             h.allLoadsBlockedByDeviceManagementRestrictionsForTesting,
             h.networkCacheDirectory, h.networkCacheDirectoryExtensionHandle,
             t.dataConnectionServiceType, t.fastServerTrustEvaluationEnabled,
             t.networkCacheSpeculativeValidationEnabled, t.shouldUseTestingNetworkSession,
             t.staleWhileRevalidateEnabled, t.testSpeedMultiplier,
             t.suppressesConnectionTerminationOnSystemChange, t.allowsServerPreconnect,
             t.requiresSecureHTTPSProxyConnection, t.preventsSystemHTTPProxyAuthentication, rls)
  }

  function EncodeNsHead(h: NsHead, rest: Stream): Stream
  {
    Cons(TSessionID(h.sessionID),
    Cons(TString(h.boundInterfaceIdentifier),
    Cons(TEnum(h.allowsCellularAccess),
    Cons(TString(h.cookiePersistentStoragePath),
    Cons(TEnum(h.cookiePersistentStorageType),
    Cons(TString(h.networkCacheDirectory),
    Cons(THandle(h.networkCacheDirectoryExtensionHandle),
    Cons(TBool(h.deviceManagementRestrictionsEnabled),
    Cons(TBool(h.allLoadsBlockedByDeviceManagementRestrictionsForTesting), rest)))))))))
  }

  function DecodeNsHead(s: Stream): Option<(NsHead, Stream)>
  {
    var sessionID :- ReadSessionID(s);
    var bound :- ReadString(sessionID.1);
    var cellular :- ReadEnum(bound.1);
    var cookiePath :- ReadString(cellular.1);
    var cookieType :- ReadEnum(cookiePath.1);
    var cacheDir :- ReadString(cookieType.1);
    var cacheHandle :- ReadHandle(cacheDir.1);
    var devMgmt :- ReadBool(cacheHandle.1);
    var allBlocked :- ReadBool(devMgmt.1);
    Some((NsHead(sessionID.0, bound.0, cellular.0, cookiePath.0, cookieType.0,
                 cacheDir.0, cacheHandle.0, devMgmt.0, allBlocked.0), allBlocked.1))
  }

  function EncodeNsTail(t: NsTail, rest: Stream): Stream
  {
    Cons(TString(t.dataConnectionServiceType),
    Cons(TBool(t.fastServerTrustEvaluationEnabled),
    Cons(TBool(t.networkCacheSpeculativeValidationEnabled),
    Cons(TBool(t.shouldUseTestingNetworkSession),
    Cons(TBool(t.staleWhileRevalidateEnabled),
    Cons(TUnsigned(t.testSpeedMultiplier),
    Cons(TBool(t.suppressesConnectionTerminationOnSystemChange),
    Cons(TBool(t.allowsServerPreconnect),
    Cons(TBool(t.requiresSecureHTTPSProxyConnection),
    Cons(TBool(t.preventsSystemHTTPProxyAuthentication), rest))))))))))
  }

  function DecodeNsTail(s: Stream): Option<(NsTail, Stream)>
  {
    var dataService :- ReadString(s);
    var fastTrust :- ReadBool(dataService.1);
    var speculative :- ReadBool(fastTrust.1);
    var testing :- ReadBool(speculative.1);
    var stale :- ReadBool(testing.1);
    var speed :- ReadUnsigned(stale.1);
    var suppresses :- ReadBool(speed.1);
    var preconnect :- ReadBool(suppresses.1);
    var secureProxy :- ReadBool(preconnect.1);
    var preventsAuth :- ReadBool(secureProxy.1);
    Some((NsTail(dataService.0, fastTrust.0, speculative.0, testing.0, stale.0, speed.0,
                 suppresses.0, preconnect.0, secureProxy.0, preventsAuth.0), preventsAuth.1))
  }

  lemma NsHeadRoundTrip(h: NsHead, rest: Stream)
    ensures DecodeNsHead(EncodeNsHead(h, rest)) == Some((h, rest))
  {
  }

  lemma NsHeadDecodeOnlyEncodings(s: Stream)
    ensures var r := DecodeNsHead(s); r.Some? ==> s == EncodeNsHead(r.value.0, r.value.1)
  {
  }

  lemma NsTailRoundTrip(t: NsTail, rest: Stream)
    ensures DecodeNsTail(EncodeNsTail(t, rest)) == Some((t, rest))
  {
  }

  lemma NsTailDecodeOnlyEncodings(s: Stream)
    ensures var r := DecodeNsTail(s); r.Some? ==> s == EncodeNsTail(r.value.0, r.value.1)
  {
  }

  /** `NetworkSessionCreationParameters::encode`, in front of `rest`:
      nineteen fields, then the nested statistics parameters through their
      own encoder. */
  function EncodeNs(p: NsParams, rest: Stream): Stream
  {
    EncodeNsHead(HeadOf(p), EncodeNsTail(TailOf(p), EncodeRls(p.resourceLoadStatisticsParameters, rest)))
  }

  /** `NetworkSessionCreationParameters::decode`: the nineteen fields in the
      order `encode` writes them, then the nested parameters through their
      own decoder; nothing at the first failure. */
  function DecodeNs(s: Stream, statsBuild: bool): Option<(NsParams, Stream)>
  {
    var head :- DecodeNsHead(s);
    var tail :- DecodeNsTail(head.1);
    var rls :- DecodeRls(tail.1, statsBuild);
    Some((Assemble(head.0, tail.0, rls.0), rls.1))
  }

  /** `decode(encode(p)) == p`, the nested parameters included. */
  lemma NsRoundTrip(p: NsParams, statsBuild: bool, rest: Stream)
    requires NsFor(p, statsBuild)
    ensures DecodeNs(EncodeNs(p, rest), statsBuild) == Some((p, rest))
  {
    var rlsPart := EncodeRls(p.resourceLoadStatisticsParameters, rest);
    var tailPart := EncodeNsTail(TailOf(p), rlsPart);
    NsHeadRoundTrip(HeadOf(p), tailPart);
    NsTailRoundTrip(TailOf(p), rlsPart);
    RlsRoundTrip(p.resourceLoadStatisticsParameters, statsBuild, rest);
  }

  /** Conversely, whatever decodes was written by `encode`; a stream in which
      any field fails to decode yields nothing. */
  lemma NsDecodeOnlyEncodings(s: Stream, statsBuild: bool)
    ensures var r := DecodeNs(s, statsBuild);
      r.Some? ==> NsFor(r.value.0, statsBuild) && s == EncodeNs(r.value.0, r.value.1)
  {
    var r := DecodeNs(s, statsBuild);
    if r.Some? {
      NsHeadDecodeOnlyEncodings(s);
      var head := DecodeNsHead(s).value;
      NsTailDecodeOnlyEncodings(head.1);
      var tail := DecodeNsTail(head.1).value;
      RlsDecodeOnlyEncodings(tail.1, statsBuild);
    }
  }
}

=== FILE: msg_gen.dfy ===
/** The string and numbering helpers of the IPC message code generator
    (`RemoteFetcher/scripts/generator/messages.py`): conditional
    wrapping, parameter types, forward declarations, handler names, the
    sync/async split of a receiver's messages, and the values of the
    `ReceiverName` and `MessageName` enumerations.

    Messages are reduced to what these helpers read: the name, whether
    reply parameters are declared (an empty list counts), the attributes
    and the `#if` condition.  Python's `str.lower` is modelled on ASCII
    letters only. */
module MsgGen {
  import opened Wrappers
  import opened Seqs

  predicate StartsWith(s: string, prefix: string)
  {
    |prefix| <= |s| && s[..|prefix|] == prefix
  }

  // ---------------------------------------------------------------------
  // surround_in_condition

  const ENDIF: string := "#endif\n"

  function IfLine(condition: string): string
  {
    "#if " + condition + "\n"
  }

  /** `surround_in_condition`: unchanged without a condition (`None` or
      empty), otherwise between an `#if` line for it and `#endif`. */
  function SurroundInCondition(s: string, condition: Option<string>): (r: string)
    ensures condition.None? || condition.value == "" ==> r == s
    ensures condition.Some? && condition.value != "" ==>
      var h := IfLine(condition.value);
      && |r| == |h| + |s| + |ENDIF|
      && r[..|h|] == h
      && r[|h|..|h| + |s|] == s
      && r[|h| + |s|..] == ENDIF
  {
    if condition.None? || condition.value == "" then s
    else
      var h := IfLine(condition.value);
      var r := h + s + ENDIF;
      assert r[..|h|] == h;
      assert r[|h|..|h| + |s|] == s;
      assert r[|h| + |s|..] == ENDIF;
      r
  }

  /** The wrapped text gives the original back: two different strings are
      never wrapped into the same text. */
  lemma SurroundInjective(s1: string, s2: string, condition: Option<string>)
    requires SurroundInCondition(s1, condition) == SurroundInCondition(s2, condition)
    ensures s1 == s2
  {
    if condition.Some? && condition.value != "" {
      var h := IfLine(condition.value);
      var r := SurroundInCondition(s1, condition);
      assert s1 == r[|h|..|h| + |s1|];
    }
  }

  // ---------------------------------------------------------------------
  // function_parameter_type

  const BUILTIN_TYPES: set<string> := {
    "bool", "float", "double",
    "uint8_t", "uint16_t", "uint32_t", "uint64_t",
    "int8_t", "int16_t", "int32_t", "int64_t"
  }

  const CONST_PREFIX: string := "const "

  /** Built-in types and `enum:` kinds are passed by value. */
  predicate ByValue(typeName: string, kind: string)
  {
    typeName in BUILTIN_TYPES || StartsWith(kind, "enum:")
  }

  /** `function_parameter_type`: by value for built-in types and
      enumerations, by const reference otherwise. */
  function FunctionParameterType(typeName: string, kind: string): (r: string)
    ensures ByValue(typeName, kind) ==> r == typeName
    ensures !ByValue(typeName, kind) ==>
      |r| == |typeName| + 7 && StartsWith(r, CONST_PREFIX) && r[|r| - 1] == '&' && r[6..|r| - 1] == typeName
  {
    if typeName in BUILTIN_TYPES then typeName
    else if StartsWith(kind, "enum:") then typeName
    else
      var r := CONST_PREFIX + typeName + "&";
      assert r[..6] == CONST_PREFIX;
      assert r[6..|r| - 1] == typeName;
      r
  }

  /** A `const T&` spelling. */
  predicate IsConstRef(t: string)
  {
    |t| >= 7 && StartsWith(t, CONST_PREFIX) && t[|t| - 1] == '&'
  }

  /** The type a parameter type spells, with `const …&` removed. */
  function BaseType(t: string): string
  {
    if IsConstRef(t) then t[6..|t| - 1] else t
  }

  /** Every parameter type names the declared type, and is a reference
      exactly when the declared type is not passed by value. */
  lemma ParameterTypeNamesType(typeName: string, kind: string)
    requires !IsConstRef(typeName)
    ensures BaseType(FunctionParameterType(typeName, kind)) == typeName
    ensures IsConstRef(FunctionParameterType(typeName, kind)) <==> !ByValue(typeName, kind)
  {
  }

  // ---------------------------------------------------------------------
  // forward_declaration

  /** `forward_declaration`: `struct T`, `enum class T : U` for a kind
      `enum:U`, `class T` otherwise. */
  function ForwardDeclaration(kind: string, typeName: string): (r: string)
    ensures kind == "struct" ==> r == "struct " + typeName
    ensures kind != "struct" && StartsWith(kind, "enum:") ==> r == "enum class " + typeName + " : " + kind[5..]
    ensures kind != "struct" && !StartsWith(kind, "enum:") ==> r == "class " + typeName
  {
    if kind == "struct" then "struct " + typeName
    else if StartsWith(kind, "enum:") then "enum class " + typeName + " : " + kind[5..]
    else "class " + typeName
  }

  /** The declaration's keyword tells the kind apart: a `struct` keyword
      exactly for the struct kind, `enum class` exactly for `enum:` kinds,
      and plain `class` for everything else. */
  lemma ForwardDeclarationKeyword(kind: string, typeName: string)
    ensures StartsWith(ForwardDeclaration(kind, typeName), "struct ") <==> kind == "struct"
    ensures StartsWith(ForwardDeclaration(kind, typeName), "enum class ") <==> StartsWith(kind, "enum:")
    ensures StartsWith(ForwardDeclaration(kind, typeName), "class ") <==> kind != "struct" && !StartsWith(kind, "enum:")
  {
    var r := ForwardDeclaration(kind, typeName);
    if kind == "struct" {
      assert r[0] == 's';
      assert !StartsWith(kind, "enum:") by { assert kind[0] != 'e'; }
    } else if StartsWith(kind, "enum:") {
      assert r[0] == 'e';
      assert r[..11] == "enum class ";
    } else {
      assert r[0] == 'c';
      assert r[..6] == "class ";
    }
  }

  // ---------------------------------------------------------------------
  // handler_function

  function LowerAscii(c: char): char
  {
    if 'A' <= c <= 'Z' then (c as int + 32) as char else c
  }

  /** The method name a message is handled by: `url` for a leading `URL`,
      else the first letter lowered; `None` for an empty name, where the
      generator fails on `name[0]`. */
  function HandlerName(name: string): (r: Option<string>)
    ensures r.None? <==> name == ""
    ensures r.Some? ==>
      var k := if StartsWith(name, "URL") then 3 else 1;
      && |r.value| == |name|
      && r.value[k..] == name[k..]
      && forall i :: 0 <= i < k ==> r.value[i] == LowerAscii(name[i])
  {
    if StartsWith(name, "URL") then Some("url" + name[3..])
    else if name == "" then None
    else Some([LowerAscii(name[0])] + name[1..])
  }

  /** `handler_function`: the receiver-qualified handler. */
  function HandlerFunction(receiver: string, message: string): (r: Option<string>)
    ensures r.None? <==> message == ""
    ensures r.Some? ==> StartsWith(r.value, receiver + "::")
  {
    match HandlerName(message)
    case None => None
    case Some(h) => Some(receiver + "::" + h)
  }

  /** A handler name is its message name with at most the case of ASCII
      letters changed. */
  lemma HandlerNameCaseless(name: string)
    requires name != ""
    ensures var h := HandlerName(name).value;
      |h| == |name| && forall i :: 0 <= i < |h| ==> LowerAscii(h[i]) == LowerAscii(name[i])
  {
    var h := HandlerName(name).value;
    var k := if StartsWith(name, "URL") then 3 else 1;
    forall i | 0 <= i < |h|
      ensures LowerAscii(h[i]) == LowerAscii(name[i])
    {
      if i >= k {
        assert h[i] == h[k..][i - k];
      }
    }
  }

  // ---------------------------------------------------------------------
  // isSync and the sync/async split

  const ASYNC_ATTRIBUTE: string := "Async"

  datatype Message = Message(
    name: string,
    hasReplyParameters: bool,
    attributes: set<string>,
    condition: Option<string>)

  /** `isSync`: reply parameters are declared and the message is not
      Async. */
  predicate IsSync(m: Message)
  {
    m.hasReplyParameters && ASYNC_ATTRIBUTE !in m.attributes
  }

  /** The messages of the given kind, in order. */
  function Filter(ms: seq<Message>, sync: bool): (r: seq<Message>)
    ensures |r| <= |ms|
    ensures forall i :: 0 <= i < |r| ==> IsSync(r[i]) == sync
    decreases |ms|
  {
    if |ms| == 0 then []
    else
      var last := ms[|ms| - 1];
      Filter(ms[..|ms| - 1], sync) + (if IsSync(last) == sync then [last] else [])
  }

  /** The two kinds together hold every message once. */
  lemma {:induction false} FilterPartition(ms: seq<Message>)
    ensures multiset(Filter(ms, false)) + multiset(Filter(ms, true)) == multiset(ms)
    decreases |ms|
  {
    if |ms| > 0 {
      var prev := ms[..|ms| - 1];
      FilterPartition(prev);
      SnocTake(ms);
    }
  }

  /** The split before the dispatch functions: sync messages (reply
      parameters, not Async) and async ones (all others), each in the
      receiver's order, together a permutation of the messages. */
  method SplitMessages(messages: seq<Message>) returns (asyncMessages: seq<Message>, syncMessages: seq<Message>)
    ensures asyncMessages == Filter(messages, false) && syncMessages == Filter(messages, true)
    ensures forall i :: 0 <= i < |syncMessages| ==> IsSync(syncMessages[i])
    ensures forall i :: 0 <= i < |asyncMessages| ==> !IsSync(asyncMessages[i])
    ensures multiset(asyncMessages) + multiset(syncMessages) == multiset(messages)
  {
    asyncMessages, syncMessages := [], [];
    var i := 0;
    while i < |messages|
      invariant 0 <= i <= |messages|
      invariant asyncMessages == Filter(messages[..i], false)
      invariant syncMessages == Filter(messages[..i], true)
    {
      assert messages[..i + 1][..i] == messages[..i];
      var m := messages[i];
      if m.hasReplyParameters && ASYNC_ATTRIBUTE !in m.attributes {
        syncMessages := syncMessages + [m];
      } else {
        asyncMessages := asyncMessages + [m];
      }
      i := i + 1;
    }
    assert messages[..i] == messages;
    FilterPartition(messages);
  }

  // ---------------------------------------------------------------------
  // Enumeration values

  /** `enum class ReceiverName`: the receivers numbered from 1, then IPC,
      AsyncReply and Invalid. */
  method ReceiverNames(receivers: seq<string>) returns (entries: seq<(string, nat)>)
    ensures |entries| == |receivers| + 3
    ensures forall j :: 0 <= j < |entries| ==> entries[j].1 == j + 1
    ensures forall j :: 0 <= j < |receivers| ==> entries[j].0 == receivers[j]
    ensures entries[|receivers|..] == [("IPC", |receivers| + 1), ("AsyncReply", |receivers| + 2), ("Invalid", |receivers| + 3)]
  {
    entries := [];
    var enumValue := 1;
    var i := 0;
    while i < |receivers|
      invariant 0 <= i <= |receivers|
      invariant enumValue == i + 1 && |entries| == i
      invariant forall j :: 0 <= j < i ==> entries[j] == (receivers[j], j + 1)
    {
      entries := entries + [(receivers[i], enumValue)];
      enumValue := enumValue + 1;
      i := i + 1;
    }
    entries := entries + [("IPC", enumValue)];
    enumValue := enumValue + 1;
    entries := entries + [("AsyncReply", enumValue)];
    enumValue := enumValue + 1;
    entries := entries + [("Invalid", enumValue)];
  }

  datatype Receiver = Receiver(name: string, messages: seq<Message>)

  /** A message as `MessageName` lists it: `Receiver_Message`, and whether
      it is Async. */
  datatype MessageRef = MessageRef(fullName: string, isAsync: bool)

  function RefsOf(receiver: Receiver, ms: seq<Message>): (r: seq<MessageRef>)
    ensures |r| == |ms|
    decreases |ms|
  {
    if |ms| == 0 then []
    else
      var ref := MessageRef(receiver.name + "_" + ms[0].name, ASYNC_ATTRIBUTE in ms[0].attributes);
      [ref] + RefsOf(receiver, ms[1..])
  }

  /** Every receiver's messages, receiver by receiver. */
  function AllMessages(receivers: seq<Receiver>): seq<MessageRef>
    decreases |receivers|
  {
    if |receivers| == 0 then []
    else RefsOf(receivers[0], receivers[0].messages) + AllMessages(receivers[1..])
  }

  /** The names one message takes: its own, then its Reply if Async. */
  function NamesOf(m: MessageRef): seq<string>
  {
    [m.fullName] + (if m.isAsync then [m.fullName + "Reply"] else [])
  }

  /** The enumerators the messages take, in order. */
  function Expand(ms: seq<MessageRef>): seq<string>
    decreases |ms|
  {
    if |ms| == 0 then [] else Expand(ms[..|ms| - 1]) + NamesOf(ms[|ms| - 1])
  }

  function CountAsync(ms: seq<MessageRef>): nat
    decreases |ms|
  {
    if |ms| == 0 then 0 else CountAsync(ms[..|ms| - 1]) + (if ms[|ms| - 1].isAsync then 1 else 0)
  }

  const TRAILING_MESSAGE_NAMES: seq<string> :=
    ["WrappedAsyncMessageForTesting", "SyncMessageReply", "InitializeConnection", "LegacySessionState"]

  /** `enum class MessageName`: every message numbered consecutively from 1,
      an Async message followed by its Reply, then the four fixed names. */
  method MessageNames(receivers: seq<Receiver>) returns (entries: seq<(string, nat)>)
    ensures var names := Expand(AllMessages(receivers)) + TRAILING_MESSAGE_NAMES;
      && |entries| == |names|
      && forall j :: 0 <= j < |entries| ==> entries[j] == (names[j], j + 1)
  {
    var ms := AllMessages(receivers);
    entries := NumberMessages(ms);
    var enumValue := |entries| + 1;
    var k := 0;
    while k < |TRAILING_MESSAGE_NAMES|
      invariant 0 <= k <= |TRAILING_MESSAGE_NAMES|
      invariant enumValue == |entries| + 1
      invariant |entries| == |Expand(ms)| + k
      invariant forall j :: 0 <= j < |entries| ==> entries[j] == ((Expand(ms) + TRAILING_MESSAGE_NAMES)[j], j + 1)
    {
      entries := entries + [(TRAILING_MESSAGE_NAMES[k], enumValue)];
      enumValue := enumValue + 1;
      k := k + 1;
    }
  }

  /** The first loop of `MessageName`: each message numbered in turn, an
      Async message's Reply right after it. */
  method NumberMessages(ms: seq<MessageRef>) returns (entries: seq<(string, nat)>)
    ensures |entries| == |Expand(ms)|
    ensures forall j :: 0 <= j < |entries| ==> entries[j] == (Expand(ms)[j], j + 1)
  {
    entries := [];
    var enumValue := 1;
    var i := 0;
    while i < |ms|
      invariant 0 <= i <= |ms|
      invariant enumValue == |entries| + 1
      invariant |entries| == |Expand(ms[..i])|
      invariant forall j :: 0 <= j < |entries| ==> entries[j] == (Expand(ms[..i])[j], j + 1)
    {
      ExpandNext(ms, i);
      var m := ms[i];
      entries := entries + [(m.fullName, enumValue)];
      enumValue := enumValue + 1;
      if m.isAsync {
        entries := entries + [(m.fullName + "Reply", enumValue)];
        enumValue := enumValue + 1;
      }
      i := i + 1;
    }
    TakeAll(ms);
  }

  /** Reading one more message appends the names it takes. */
  lemma {:induction false} ExpandNext(ms: seq<MessageRef>, i: nat)
    requires i < |ms|
    ensures Expand(ms[..i + 1]) == Expand(ms[..i]) + NamesOf(ms[i])
  {
    TakeNextParts(ms, i);
  }

  /** Each Async message takes one extra value. */
  lemma {:induction false} ExpandLength(ms: seq<MessageRef>)
    ensures |Expand(ms)| == |ms| + CountAsync(ms)
    decreases |ms|
  {
    if |ms| > 0 {
      ExpandLength(ms[..|ms| - 1]);
    }
  }

  /** Message i gets the value i + 1 plus the number of Async messages before
      it, and an Async message's Reply takes the value right after it. */
  lemma {:induction false} MessageValue(ms: seq<MessageRef>, i: nat)
    requires i < |ms|
    ensures var k := i + CountAsync(ms[..i]);
      && k < |Expand(ms)| && Expand(ms)[k] == ms[i].fullName
      && (ms[i].isAsync ==> k + 1 < |Expand(ms)| && Expand(ms)[k + 1] == ms[i].fullName + "Reply")
    decreases |ms|
  {
    var n := |ms|;
    var prev := ms[..n - 1];
    ExpandLength(prev);
    if i == n - 1 {
      assert ms[..i] == prev;
    } else {
      MessageValue(prev, i);
      assert prev[..i] == ms[..i];
    }
  }
}

=== FILE: rwswrap.dfy ===
/** The character push-back buffer of the HVML tokenizer
    (`hvml/hvml-rwswrap.c`): characters handed back by the tokenizer are
    kept in a list and returned before anything new is read from the
    underlying stream.

    The stream is not part of this model: it is an oracle that gives, for
    the n-th read, the byte count and the code point
    `purc_rwstream_read_utf8_char` would report.  Allocation of a list node
    is modelled by a budget: the number of node allocations that succeed
    before one fails. */
module RwsWrap {

  const UINT32_LIMIT: nat := 0x1_0000_0000

  /** `PCHVML_INVALID_CHARACTER`. */
  const INVALID_CHARACTER: nat := 0xFFFF_FFFF

  type Uc = x: nat | x < UINT32_LIMIT

  /** What one call of `purc_rwstream_read_utf8_char` reports: the number of
      bytes read (negative on failure) and the code point. */
  datatype StreamRead = StreamRead(nrC: int, uc: Uc)

  type Stream = nat -> StreamRead

  /** The wrapper: the pushed-back characters, head first, and how many
      reads of the stream have been made. */
  datatype Wrap = Wrap(ucList: seq<Uc>, nrRead: nat)

  /** `pchvml_rwswrap_new`: nothing buffered, nothing read. */
  function NewWrap(): (w: Wrap)
    ensures |w.ucList| == 0 && w.nrRead == 0
  {
    Wrap([], 0)
  }

  /** `pchvml_rwswrap_read_from_rwstream`: a failed read yields the invalid
      character, any other read its code point. */
  function ReadFromStream(r: StreamRead): (uc: Uc)
    ensures r.nrC < 0 ==> uc == INVALID_CHARACTER
    ensures r.nrC >= 0 ==> uc == r.uc
  {
    if r.nrC < 0 then INVALID_CHARACTER else r.uc
  }

  /** `pchvml_rwswrap_next_char`: the head of the push-back list if there
      is one (removing it), otherwise the next character of the stream. */
  function NextChar(w: Wrap, rws: Stream): (r: (Wrap, Uc))
    ensures |w.ucList| > 0 ==> r.1 == w.ucList[0] && r.0 == Wrap(w.ucList[1..], w.nrRead)
    ensures |w.ucList| == 0 ==> r.1 == ReadFromStream(rws(w.nrRead)) && r.0 == Wrap([], w.nrRead + 1)
  {
    if |w.ucList| == 0 then (w.(nrRead := w.nrRead + 1), ReadFromStream(rws(w.nrRead)))
    else (w.(ucList := w.ucList[1..]), w.ucList[0])
  }

  /** n successive calls of `NextChar`, with the characters they return. */
  function NextChars(w: Wrap, rws: Stream, n: nat): (Wrap, seq<Uc>)
    decreases n
  {
    if n == 0 then (w, [])
    else
      var (w1, c) := NextChar(w, rws);
      var (w2, cs) := NextChars(w1, rws, n - 1);
      (w2, [c] + cs)
  }

  /** The effect the buffering loops are meant to have, stated without a
      loop: with enough allocations the characters end up in front of the
      list in their own order; otherwise only the suffix pushed before the
      failing allocation does, and the call reports failure. */
  function Buffered(w: Wrap, ucs: seq<Uc>, budget: nat): (r: (bool, Wrap))
  {
    if budget >= |ucs| then (true, w.(ucList := ucs + w.ucList))
    else (false, w.(ucList := ucs[|ucs| - budget..] + w.ucList))
  }

  /** `pchvml_rwswrap_buffer_chars`: push the characters at the head of the
      list from the last to the first, so that they come out in order. */
  method BufferChars(w: Wrap, ucs: seq<Uc>, budget: nat) returns (ok: bool, w': Wrap)
    ensures (ok, w') == Buffered(w, ucs, budget)
    ensures w'.nrRead == w.nrRead
  {
    var list := w.ucList;
    var left: nat := budget;
    var i := |ucs|;
    while i > 0
      invariant 0 <= i <= |ucs|
      invariant list == ucs[i..] + w.ucList
      invariant left + (|ucs| - i) == budget
    {
      if left == 0 {
        return false, w.(ucList := list);
      }
      left := left - 1;
      i := i - 1;
      list := [ucs[i]] + list;
    }
    assert ucs[0..] == ucs;
    return true, w.(ucList := list);
  }

  /** `(uint32_t)(uintptr_t)`: an array-list entry truncated to 32 bits. */
  function AsUc(x: nat): Uc
  {
    x % UINT32_LIMIT
  }

  function AsUcs(xs: seq<nat>): (r: seq<Uc>)
    ensures |r| == |xs|
    ensures forall i :: 0 <= i < |xs| ==> r[i] == AsUc(xs[i])
  {
    seq(|xs|, i requires 0 <= i < |xs| => AsUc(xs[i]))
  }

  /** `pchvml_rwswrap_buffer_arrlist`: the same loop over the entries of an
      array list. */
  method BufferArrlist(w: Wrap, arr: seq<nat>, budget: nat) returns (ok: bool, w': Wrap)
    ensures (ok, w') == Buffered(w, AsUcs(arr), budget)
  {
    var list := w.ucList;
    var left: nat := budget;
    var i := |arr|;
    ghost var ucs := AsUcs(arr);
    while i > 0
      invariant 0 <= i <= |arr|
      invariant list == ucs[i..] + w.ucList
      invariant left + (|arr| - i) == budget
    {
      if left == 0 {
        return false, w.(ucList := list);
      }
      left := left - 1;
      i := i - 1;
      list := [AsUc(arr[i])] + list;
    }
    assert ucs[0..] == ucs;
    return true, w.(ucList := list);
  }

  /** `pchvml_rwswrap_destroy`: every buffered node is released, from the
      head of the list; the results are the number released and the
      characters they held, in release order.  Those are exactly the
      characters the next `NextChar` calls would have returned before
      reading the stream again. */
  method Destroy(w: Wrap) returns (released: nat, freed: seq<Uc>)
    ensures released == |w.ucList| == |freed|
    ensures forall rws: Stream :: NextChars(w, rws, released) == (Wrap([], w.nrRead), freed)
  {
    var list := w.ucList;
    released, freed := 0, [];
    while |list| > 0
      invariant released + |list| == |w.ucList| && |freed| == released
      invariant freed + list == w.ucList
    {
      freed := freed + [list[0]];
      list := list[1..];
      released := released + 1;
    }
    assert freed == w.ucList;
    forall rws: Stream
      ensures NextChars(w, rws, released) == (Wrap([], w.nrRead), freed)
    {
      assert w == Wrap(freed + [], w.nrRead);
      ReadBackBuffered(freed, [], w.nrRead, rws);
    }
  }

  // ---------------------------------------------------------------------
  // Properties

  /** Whatever is buffered is returned, in order, by the next calls of
      `NextChar`, and the stream is not touched meanwhile. */
  lemma {:induction false} ReadBackBuffered(ucs: seq<Uc>, rest: seq<Uc>, nrRead: nat, rws: Stream)
    ensures NextChars(Wrap(ucs + rest, nrRead), rws, |ucs|) == (Wrap(rest, nrRead), ucs)
    decreases |ucs|
  {
    if |ucs| > 0 {
      var w := Wrap(ucs + rest, nrRead);
      assert NextChar(w, rws) == (Wrap(ucs[1..] + rest, nrRead), ucs[0]) by {
        assert (ucs + rest)[1..] == ucs[1..] + rest;
      }
      ReadBackBuffered(ucs[1..], rest, nrRead, rws);
      var tail := NextChars(Wrap(ucs[1..] + rest, nrRead), rws, |ucs| - 1);
      assert tail == (Wrap(rest, nrRead), ucs[1..]);
      assert NextChars(w, rws, |ucs|) == (tail.0, [ucs[0]] + tail.1);
      assert [ucs[0]] + ucs[1..] == ucs;
    } else {
      assert ucs + rest == rest;
    }
  }

  /** After a successful `buffer_chars(ucs)`, the next |ucs| characters are
      exactly `ucs`, and what was buffered before comes after them. */
  lemma BufferThenRead(w: Wrap, ucs: seq<Uc>, budget: nat, rws: Stream)
    requires budget >= |ucs|
    ensures Buffered(w, ucs, budget).0
    ensures NextChars(Buffered(w, ucs, budget).1, rws, |ucs|) == (w, ucs)
  {
    ReadBackBuffered(ucs, w.ucList, w.nrRead, rws);
  }

  /** Characters buffered later are returned before those buffered
      earlier. */
  lemma {:induction false} LaterBufferedFirst(w: Wrap, a: seq<Uc>, b: seq<Uc>, budget: nat, rws: Stream)
    requires budget >= |a| + |b|
    ensures NextChars(Buffered(Buffered(w, a, budget).1, b, budget).1, rws, |b + a|) == (w, b + a)
  {
    var w2 := Buffered(Buffered(w, a, budget).1, b, budget).1;
    assert w2 == Wrap((b + a) + w.ucList, w.nrRead) by {
      assert b + (a + w.ucList) == (b + a) + w.ucList;
    }
    ReadBackBuffered(b + a, w.ucList, w.nrRead, rws);
  }

  /** With nothing buffered, `NextChar` reads the stream: the next read's
      code point, or the invalid character if that read fails. */
  lemma EmptyReadsStream(nrRead: nat, rws: Stream)
    ensures rws(nrRead).nrC < 0 ==> NextChar(Wrap([], nrRead), rws).1 == INVALID_CHARACTER
    ensures rws(nrRead).nrC >= 0 ==> NextChar(Wrap([], nrRead), rws).1 == rws(nrRead).uc
  {
  }

  /** When an allocation fails part-way, the call reports failure and the
      characters already pushed, a suffix of `ucs`, stay buffered in order
      ahead of the old list. */
  lemma PartialBufferOnFailure(w: Wrap, ucs: seq<Uc>, budget: nat)
    requires budget < |ucs|
    ensures var r := Buffered(w, ucs, budget);
      && !r.0
      && |r.1.ucList| == |w.ucList| + budget
      && r.1.ucList[..budget] == ucs[|ucs| - budget..]
      && r.1.ucList[budget..] == w.ucList
  {
  }

  /** Buffering an array list of 32-bit values is buffering those values as
      characters. */
  lemma ArrlistIsChars(w: Wrap, arr: seq<nat>, budget: nat)
    requires forall i :: 0 <= i < |arr| ==> arr[i] < UINT32_LIMIT
    ensures AsUcs(arr) == arr
    ensures Buffered(w, AsUcs(arr), budget) == Buffered(w, arr, budget)
  {
    assert AsUcs(arr) == arr;
  }
}

=== FILE: seqs.dfy ===
/** Facts about sequences shared by the proofs.  Stating them once for
    any element type keeps the solver away from the element type's own
    equality when a sequence is split at its last element. */
module Seqs {

  /** A non-empty sequence is its prefix followed by its last element. */
  lemma {:induction false} SnocTake<T>(xs: seq<T>)
    requires |xs| > 0
    ensures xs == xs[..|xs| - 1] + [xs[|xs| - 1]]
  {
  }

  /** Appending an element keeps every prefix of the original. */
  lemma {:induction false} TakeSnoc<T>(xs: seq<T>, x: T, p: nat)
    requires p <= |xs|
    ensures (xs + [x])[..p] == xs[..p]
  {
  }

  /** Appending an element appends it to every suffix of the original. */
  lemma {:induction false} DropSnoc<T>(xs: seq<T>, x: T, s: nat)
    requires s <= |xs|
    ensures (xs + [x])[s..] == xs[s..] + [x]
  {
  }

  /** Equal sequences with one element appended agree on both parts. */
  lemma {:induction false} SnocInjective<T>(a: seq<T>, x: T, b: seq<T>, y: T)
    requires a + [x] == b + [y]
    ensures a == b && x == y
  {
    assert (a + [x])[..|a|] == a && (b + [y])[..|b|] == b;
    assert (a + [x])[|a|] == x && (b + [y])[|b|] == y;
  }

  /** A prefix grows by the next element. */
  lemma {:induction false} TakeNext<T>(xs: seq<T>, i: nat)
    requires i < |xs|
    ensures xs[..i + 1] == xs[..i] + [xs[i]]
  {
  }

  /** The full prefix is the sequence. */
  lemma {:induction false} TakeAll<T>(xs: seq<T>)
    ensures xs[..|xs|] == xs
  {
  }

  /** The next prefix starts with the current one and ends with the next
      element. */
  lemma {:induction false} TakeNextParts<T>(xs: seq<T>, i: nat)
    requires i < |xs|
    ensures xs[..i + 1][..i] == xs[..i]
    ensures xs[..i + 1][i] == xs[i]
  {
  }
}

=== FILE: variant.dfy ===
/** The PurC variant value and the documented contracts of its container
    operations, size queries, iterators and casts.

    Values are immutable here: an operation that the C interface performs in
    place on a container returns the updated container, and `None` stands for
    the C `false` (the container is then unchanged) or for
    `PURC_VARIANT_INVALID`.  Reference counting is not modelled.  C text
    buffers are `string`s with one `char` per byte. */
module Variant {
  import opened Wrappers

  const UINT64_LIMIT: int := 0x1_0000_0000_0000_0000
  const INT64_MIN: int := -0x8000_0000_0000_0000
  const INT64_MAX: int := 0x7fff_ffff_ffff_ffff
  /** `PURC_VARIANT_BADSIZE`, that is `(size_t)(-1)`. */
  const BADSIZE: int := UINT64_LIMIT - 1

  /** An opaque host function pointer: a dynamic getter or setter, or a
      native property method. */
  type FnId = nat

  /** One value of every `purc_variant_type`.  Floating-point payloads are
      reals: rounding is not modelled. */
  datatype Value =
    | Undefined
    | Null
    | Boolean(b: bool)
    | Number(d: real)
    | LongInt(i: int)
    | ULongInt(u: nat)
    | LongDouble(ld: real)
    | AtomString(atom: string)
    | String(s: string)
    | ByteSeq(bytes: string)
    | Dynamic(getter: Option<FnId>, setter: Option<FnId>)
    | Native(entity: nat, ops: Option<nat>)
    | Object(entries: seq<KeyValue>)
    | Array(items: seq<Value>)
    | Set(uniqueKeys: Option<seq<string>>, members: seq<Value>)

  /** One key-value pair of an object, in insertion order. */
  datatype KeyValue = KV(key: Value, val: Value)

  // ---------------------------------------------------------------------
  // Sequence helpers

  function Insert<T>(s: seq<T>, i: nat, x: T): (r: seq<T>)
    requires i <= |s|
    ensures |r| == |s| + 1 && r[i] == x
    ensures forall j :: 0 <= j < i ==> r[j] == s[j]
    ensures forall j :: i <= j < |s| ==> r[j + 1] == s[j]
  {
    s[..i] + [x] + s[i..]
  }

  function Delete<T>(s: seq<T>, i: nat): (r: seq<T>)
    requires i < |s|
    ensures |r| == |s| - 1
    ensures forall j :: 0 <= j < i ==> r[j] == s[j]
    ensures forall j :: i <= j < |r| ==> r[j] == s[j + 1]
    ensures multiset(r) + multiset{s[i]} == multiset(s)
  {
    assert s == s[..i] + [s[i]] + s[i + 1..];
    s[..i] + s[i + 1..]
  }

  lemma {:induction false} DeleteInsert<T>(s: seq<T>, i: nat, x: T)
    requires i <= |s|
    ensures Delete(Insert(s, i, x), i) == s
  {
    var t := Insert(s, i, x);
    var d := Delete(t, i);
    assert |d| == |s|;
    forall j | 0 <= j < |s|
      ensures d[j] == s[j]
    {
      if j < i {
        assert d[j] == t[j];
      } else {
        assert d[j] == t[j + 1];
      }
    }
  }

  /** The deprecated `*_get_size` wrappers: a failed size query becomes
      `PURC_VARIANT_BADSIZE`. */
  function SizeOrBad(sz: Option<nat>): int
  {
    if sz.Some? then sz.value else BADSIZE
  }

  // ---------------------------------------------------------------------
  // Arrays

  /** `purc_variant_array_size`: fails for anything but an array. */
  function ArraySize(a: Value): (r: Option<nat>)
    ensures r.Some? <==> a.Array?
  {
    if a.Array? then Some(|a.items|) else None
  }

  function ArrayGetSize(a: Value): int
  {
    SizeOrBad(ArraySize(a))
  }

  /** `purc_variant_array_get`: INVALID for a non-array or an index out of
      range. */
  function ArrayGet(a: Value, idx: int): (r: Option<Value>)
    ensures r.Some? <==> a.Array? && 0 <= idx < |a.items|
  {
    if a.Array? && 0 <= idx < |a.items| then Some(a.items[idx]) else None
  }

  /** `purc_variant_array_append`: the value goes to the tail. */
  function ArrayAppend(a: Value, v: Value): (r: Option<Value>)
    ensures r.Some? <==> a.Array?
    ensures r.Some? ==> ArraySize(r.value) == Some(|a.items| + 1)
    ensures r.Some? ==> ArrayGet(r.value, |a.items|) == Some(v)
    ensures r.Some? ==> forall j :: 0 <= j < |a.items| ==> ArrayGet(r.value, j) == ArrayGet(a, j)
  {
    if a.Array? then Some(Array(a.items + [v])) else None
  }

  /** `purc_variant_array_prepend`: the value goes to the head and every
      element moves up by one. */
  function ArrayPrepend(a: Value, v: Value): (r: Option<Value>)
    ensures r.Some? <==> a.Array?
    ensures r.Some? ==> ArraySize(r.value) == Some(|a.items| + 1)
    ensures r.Some? ==> ArrayGet(r.value, 0) == Some(v)
    ensures r.Some? ==> forall j :: 0 <= j < |a.items| ==> ArrayGet(r.value, j + 1) == ArrayGet(a, j)
  {
    if a.Array? then Some(Array([v] + a.items)) else None
  }

  /** `purc_variant_array_set`: fails when idx is past the maximum index. */
  function ArraySet(a: Value, idx: int, v: Value): (r: Option<Value>)
    ensures r.Some? <==> a.Array? && 0 <= idx < |a.items|
    ensures r.Some? ==> ArraySize(r.value) == ArraySize(a)
    ensures r.Some? ==> ArrayGet(r.value, idx) == Some(v)
    ensures r.Some? ==> forall j :: 0 <= j < |a.items| && j != idx ==> ArrayGet(r.value, j) == ArrayGet(a, j)
  {
    if a.Array? && 0 <= idx < |a.items| then Some(Array(a.items[idx := v])) else None
  }

  /** `purc_variant_array_remove`: fails when idx is past the maximum
      index; later elements move down by one. */
  function ArrayRemove(a: Value, idx: int): (r: Option<Value>)
    ensures r.Some? <==> a.Array? && 0 <= idx < |a.items|
    ensures r.Some? ==> ArraySize(r.value) == Some(|a.items| - 1)
    ensures r.Some? ==> forall j :: 0 <= j < idx ==> ArrayGet(r.value, j) == ArrayGet(a, j)
    ensures r.Some? ==> forall j :: idx <= j < |a.items| - 1 ==> ArrayGet(r.value, j) == ArrayGet(a, j + 1)
  {
    if a.Array? && 0 <= idx < |a.items| then Some(Array(Delete(a.items, idx))) else None
  }

  /** `purc_variant_array_insert_before`: idx must be an existing index. */
  function ArrayInsertBefore(a: Value, idx: int, v: Value): (r: Option<Value>)
    ensures r.Some? <==> a.Array? && 0 <= idx < |a.items|
    ensures r.Some? ==> ArrayGet(r.value, idx) == Some(v)
    ensures r.Some? ==> ArraySize(r.value) == Some(|a.items| + 1)
  {
    if a.Array? && 0 <= idx < |a.items| then Some(Array(Insert(a.items, idx, v))) else None
  }

  /** Where `purc_variant_array_insert_after` places the new element: right
      after element idx, or at the tail when idx is one past the maximum. */
  function AfterPosition(size: nat, idx: nat): nat
    requires idx <= size
  {
    if idx + 1 <= size then idx + 1 else size
  }

  /** `purc_variant_array_insert_after`: idx may be one past the maximum
      index. */
  function ArrayInsertAfter(a: Value, idx: int, v: Value): (r: Option<Value>)
    ensures r.Some? <==> a.Array? && 0 <= idx <= |a.items|
    ensures r.Some? ==> ArrayGet(r.value, AfterPosition(|a.items|, idx)) == Some(v)
    ensures r.Some? ==> ArraySize(r.value) == Some(|a.items| + 1)
  {
    if a.Array? && 0 <= idx <= |a.items| then
      Some(Array(Insert(a.items, AfterPosition(|a.items|, idx), v)))
    else
      None
  }

  /** The deprecated size wrapper returns BADSIZE exactly for a non-array
      (no real array is that large). */
  lemma {:induction false} ArrayGetSizeBad(a: Value)
    requires a.Array? ==> |a.items| < BADSIZE
    ensures ArrayGetSize(a) == BADSIZE <==> !a.Array?
    ensures a.Array? ==> ArrayGetSize(a) == |a.items|
  {
  }

  /** Appending and then removing the last element gives back the array. */
  lemma {:induction false} ArrayAppendRemove(a: Value, v: Value)
    requires a.Array?
    ensures ArrayRemove(ArrayAppend(a, v).value, |a.items|) == Some(a)
  {
    assert Delete(a.items + [v], |a.items|) == a.items;
  }

  /** Prepending and then removing the head gives back the array. */
  lemma {:induction false} ArrayPrependRemove(a: Value, v: Value)
    requires a.Array?
    ensures ArrayRemove(ArrayPrepend(a, v).value, 0) == Some(a)
  {
    assert Delete([v] + a.items, 0) == a.items;
  }

  /** Both insertions are undone by removing the inserted position, and
      every old element is still there, shifted past the insertion point. */
  lemma {:induction false} ArrayInsertRemove(a: Value, idx: int, v: Value, before: bool)
    requires a.Array? && 0 <= idx
    requires if before then idx < |a.items| else idx <= |a.items|
    ensures var p := if before then idx else AfterPosition(|a.items|, idx);
      var r := if before then ArrayInsertBefore(a, idx, v) else ArrayInsertAfter(a, idx, v);
      r.Some? && ArrayRemove(r.value, p) == Some(a)
      && (forall j :: 0 <= j < p ==> ArrayGet(r.value, j) == ArrayGet(a, j))
      && (forall j :: p <= j < |a.items| ==> ArrayGet(r.value, j + 1) == ArrayGet(a, j))
  {
    var p := if before then idx else AfterPosition(|a.items|, idx);
    DeleteInsert(a.items, p, v);
  }

  /** Setting twice is setting once; setting the current value changes
      nothing. */
  lemma {:induction false} ArraySetSet(a: Value, idx: int, v: Value, w: Value)
    requires a.Array? && 0 <= idx < |a.items|
    ensures ArraySet(ArraySet(a, idx, v).value, idx, w) == ArraySet(a, idx, w)
    ensures ArraySet(a, idx, a.items[idx]) == Some(a)
  {
    assert a.items[idx := v][idx := w] == a.items[idx := w];
    assert a.items[idx := a.items[idx]] == a.items;
  }

  // ---------------------------------------------------------------------
  // Objects

  predicate KeysUnique(entries: seq<KeyValue>)
  {
    forall i, j :: 0 <= i < j < |entries| ==> entries[i].key != entries[j].key
  }

  /** The index of the first pair with key k. */
  function FindKey(entries: seq<KeyValue>, k: Value, from: nat := 0): (r: Option<nat>)
    requires from <= |entries|
    ensures r.Some? ==> from <= r.value < |entries| && entries[r.value].key == k
    ensures r.Some? ==> forall j :: from <= j < r.value ==> entries[j].key != k
    ensures r.None? ==> forall j :: from <= j < |entries| ==> entries[j].key != k
    decreases |entries| - from
  {
    if from == |entries| then None
    else if entries[from].key == k then Some(from)
    else FindKey(entries, k, from + 1)
  }

  /** `purc_variant_object_get`: INVALID for a non-object or a missing key. */
  function ObjectGet(o: Value, k: Value): (r: Option<Value>)
    ensures r.Some? ==> o.Object? && exists i :: 0 <= i < |o.entries| && o.entries[i] == KV(k, r.value)
    ensures r.None? ==> !o.Object? || forall i :: 0 <= i < |o.entries| ==> o.entries[i].key != k
  {
    if !o.Object? then None
    else
      match FindKey(o.entries, k)
      case Some(i) => Some(o.entries[i].val)
      case None => None
  }

  /** `purc_variant_object_size`. */
  function ObjectSize(o: Value): (r: Option<nat>)
    ensures r.Some? <==> o.Object?
  {
    if o.Object? then Some(|o.entries|) else None
  }

  function ObjectGetSize(o: Value): int
  {
    SizeOrBad(ObjectSize(o))
  }

  /** `purc_variant_object_set`: replaces the value of an existing key in
      place, or appends a new pair. */
  function ObjectSet(o: Value, k: Value, v: Value): (r: Option<Value>)
    ensures r.Some? <==> o.Object?
    ensures r.Some? ==> r.value.Object?
  {
    if !o.Object? then None
    else
      match FindKey(o.entries, k)
      case Some(i) => Some(Object(o.entries[i := KV(k, v)]))
      case None => Some(Object(o.entries + [KV(k, v)]))
  }

  /** `purc_variant_object_remove`: fails for a non-object or a missing key. */
  function ObjectRemove(o: Value, k: Value): (r: Option<Value>)
    ensures r.Some? <==> o.Object? && ObjectGet(o, k).Some?
    ensures r.Some? ==> r.value.Object?
  {
    if !o.Object? then None
    else
      match FindKey(o.entries, k)
      case Some(i) => Some(Object(Delete(o.entries, i)))
      case None => None
  }

  /** In an object with unique keys, the pair holding key k is the one
      `object_get` reports. */
  lemma {:induction false} ObjectGetUnique(es: seq<KeyValue>, i: nat)
    requires KeysUnique(es) && i < |es|
    ensures ObjectGet(Object(es), es[i].key) == Some(es[i].val)
  {
    var f := FindKey(es, es[i].key);
    assert f.Some?;
  }

  /** After `object_set` the key maps to the new value, every other key
      keeps its value, the keys stay unique, and the size grows by one
      exactly when the key was new. */
  lemma {:induction false} ObjectSetSpec(o: Value, k: Value, v: Value)
    requires o.Object? && KeysUnique(o.entries)
    ensures var r := ObjectSet(o, k, v).value;
      && KeysUnique(r.entries)
      && ObjectGet(r, k) == Some(v)
      && (forall k' :: k' != k ==> ObjectGet(r, k') == ObjectGet(o, k'))
      && |r.entries| == |o.entries| + (if ObjectGet(o, k).None? then 1 else 0)
  {
    var r := ObjectSet(o, k, v).value;
    var es := o.entries;
    var f := FindKey(es, k);
    assert KeysUnique(r.entries) by {
      if f.None? {
        assert r.entries == es + [KV(k, v)];
      } else {
        assert r.entries == es[f.value := KV(k, v)];
      }
    }
    var n := if f.Some? then f.value else |es|;
    assert r.entries[n] == KV(k, v);
    ObjectGetUnique(r.entries, n);
    forall k' | k' != k
      ensures ObjectGet(r, k') == ObjectGet(o, k')
    {
      var g := ObjectGet(o, k');
      if g.Some? {
        var i :| 0 <= i < |es| && es[i] == KV(k', g.value);
        assert r.entries[i] == es[i];
        ObjectGetUnique(r.entries, i);
      } else {
        assert forall i :: 0 <= i < |r.entries| ==> r.entries[i].key != k' by {
          forall i | 0 <= i < |r.entries|
            ensures r.entries[i].key != k'
          {
            if i < |es| && r.entries[i] != KV(k, v) {
              assert r.entries[i] == es[i];
            }
          }
        }
      }
    }
  }

  /** After `object_remove` the key is gone, every other key keeps its
      value, and the size drops by one. */
  lemma {:induction false} ObjectRemoveSpec(o: Value, k: Value)
    requires o.Object? && KeysUnique(o.entries) && ObjectGet(o, k).Some?
    ensures var r := ObjectRemove(o, k).value;
      && KeysUnique(r.entries)
      && ObjectGet(r, k).None?
      && (forall k' :: k' != k ==> ObjectGet(r, k') == ObjectGet(o, k'))
      && |r.entries| == |o.entries| - 1
  {
    var es := o.entries;
    var i := FindKey(es, k).value;
    var r := ObjectRemove(o, k).value;
    assert r.entries == Delete(es, i);
    assert KeysUnique(r.entries) by {
      forall a, b | 0 <= a < b < |r.entries|
        ensures r.entries[a].key != r.entries[b].key
      {
        var a' := if a < i then a else a + 1;
        var b' := if b < i then b else b + 1;
        assert r.entries[a] == es[a'] && r.entries[b] == es[b'];
      }
    }
    forall j | 0 <= j < |r.entries|
      ensures r.entries[j].key != k
    {
      var j' := if j < i then j else j + 1;
      assert r.entries[j] == es[j'];
    }
    forall k' | k' != k
      ensures ObjectGet(r, k') == ObjectGet(o, k')
    {
      var g := ObjectGet(o, k');
      if g.Some? {
        var m :| 0 <= m < |es| && es[m] == KV(k', g.value);
        var m' := if m < i then m else m - 1;
        assert r.entries[m'] == es[m];
        ObjectGetUnique(r.entries, m');
      } else {
        forall j | 0 <= j < |r.entries|
          ensures r.entries[j].key != k'
        {
          var j' := if j < i then j else j + 1;
          assert r.entries[j] == es[j'];
        }
      }
    }
  }

  /** Setting a fresh key and removing it again gives back the object. */
  lemma {:induction false} ObjectSetRemove(o: Value, k: Value, v: Value)
    requires o.Object? && ObjectGet(o, k).None?
    ensures ObjectRemove(ObjectSet(o, k, v).value, k) == Some(o)
  {
    var es := o.entries;
    assert FindKey(es, k).None?;
    var es' := es + [KV(k, v)];
    assert forall j :: 0 <= j < |es| ==> es'[j] == es[j];
    assert es'[|es|].key == k;
    assert FindKey(es', k) == Some(|es|);
    assert Delete(es', |es|) == es;
  }

  // ---------------------------------------------------------------------
  // Iterators over objects and sets

  /** A begin iterator: the position of the head member; NULL when empty. */
  function IterBegin(n: nat): (r: Option<nat>)
    ensures r.None? <==> n == 0
    ensures r.Some? ==> r.value < n
  {
    if n == 0 then None else Some(0)
  }

  /** An end iterator: the position of the tail member; NULL when empty. */
  function IterEnd(n: nat): (r: Option<nat>)
    ensures r.None? <==> n == 0
    ensures r.Some? ==> r.value < n
  {
    if n == 0 then None else Some(n - 1)
  }

  /** The number of members an iterator walks over. */
  function IterCount(c: Value): nat
  {
    match c
    case Object(es) => |es|
    case Set(_, ms) => |ms|
    case _ => 0
  }

  /** `purc_variant_{object,set}_make_iterator_begin`. */
  function MakeIteratorBegin(c: Value): (r: Option<nat>)
    ensures r.None? <==> IterCount(c) == 0
  {
    IterBegin(IterCount(c))
  }

  /** `purc_variant_{object,set}_make_iterator_end`. */
  function MakeIteratorEnd(c: Value): (r: Option<nat>)
    ensures r.None? <==> IterCount(c) == 0
  {
    IterEnd(IterCount(c))
  }

  /** `*_iterator_next`: reports whether a successor exists and moves to it
      (the reading of the usage example in the header). */
  function IteratorNext(pos: nat, n: nat): (r: (bool, nat))
    requires pos < n
    ensures r.0 <==> pos + 1 < n
    ensures r.0 ==> r.1 == pos + 1
  {
    if pos + 1 < n then (true, pos + 1) else (false, pos)
  }

  /** `*_iterator_prev`: reports whether a predecessor exists and moves to
      it. */
  function IteratorPrev(pos: nat, n: nat): (r: (bool, nat))
    requires pos < n
    ensures r.0 ==> r.1 + 1 == pos
    ensures !r.0 <==> pos == 0
  {
    if pos > 0 then (true, pos - 1) else (false, pos)
  }

  /** `*_iterator_get_key`, `*_iterator_get_value` on a position. */
  function IteratorGet(c: Value, pos: nat): Value
    requires pos < IterCount(c)
  {
    match c
    case Object(es) => es[pos].key
    case Set(_, ms) => ms[pos]
  }

  /** The iteration loop of the header's usage example visits every member
      once, from head to tail. */
  method IterateAll(c: Value) returns (visited: seq<Value>)
    ensures |visited| == IterCount(c)
    ensures forall i :: 0 <= i < |visited| ==> visited[i] == IteratorGet(c, i)
  {
    var n := IterCount(c);
    visited := [];
    var it := MakeIteratorBegin(c);
    while it.Some?
      invariant it.Some? ==> it.value == |visited| < n
      invariant it.None? ==> |visited| == n
      invariant forall i :: 0 <= i < |visited| ==> visited[i] == IteratorGet(c, i)
      decreases n - |visited|
    {
      visited := visited + [IteratorGet(c, it.value)];
      var step := IteratorNext(it.value, n);
      if !step.0 {
        it := None;
      } else {
        it := Some(step.1);
      }
    }
  }

  // ---------------------------------------------------------------------
  // Sets

  /** The values of the unique keys of a member; an absent key counts as
      `undefined`. */
  function KeyTuple(m: Value, keys: seq<string>): (r: seq<Value>)
    ensures |r| == |keys|
  {
    seq(|keys|, i requires 0 <= i < |keys| => ObjectGet(m, String(keys[i])).GetOr(Undefined))
  }

  /** When two members count as equal: same values under the unique keys,
      or plain equality for a generic set. */
  predicate SameMember(keys: Option<seq<string>>, a: Value, b: Value)
  {
    if keys.Some? then KeyTuple(a, keys.value) == KeyTuple(b, keys.value) else a == b
  }

  predicate SetWellFormed(s: Value)
  {
    && s.Set?
    && (s.uniqueKeys.Some? ==> forall i :: 0 <= i < |s.members| ==> s.members[i].Object?)
    && forall i, j :: 0 <= i < j < |s.members| ==> !SameMember(s.uniqueKeys, s.members[i], s.members[j])
  }

  /** The first member equal to v under the set's notion of equality. */
  function FindMember(keys: Option<seq<string>>, ms: seq<Value>, v: Value, from: nat := 0): (r: Option<nat>)
    requires from <= |ms|
    ensures r.Some? ==> from <= r.value < |ms| && SameMember(keys, ms[r.value], v)
    ensures r.Some? ==> forall j :: from <= j < r.value ==> !SameMember(keys, ms[j], v)
    ensures r.None? ==> forall j :: from <= j < |ms| ==> !SameMember(keys, ms[j], v)
    decreases |ms| - from
  {
    if from == |ms| then None
    else if SameMember(keys, ms[from], v) then Some(from)
    else FindMember(keys, ms, v, from + 1)
  }

  /** `purc_variant_set_add`. */
  function SetAdd(s: Value, v: Value, overwrite: bool): (r: Option<Value>)
    ensures r.Some? <==>
      && s.Set?
      && (s.uniqueKeys.Some? ==> v.Object?)
      && (FindMember(s.uniqueKeys, s.members, v).Some? ==> overwrite && s.uniqueKeys.Some?)
    ensures r.Some? ==> r.value.Set? && r.value.uniqueKeys == s.uniqueKeys
    ensures r.Some? ==> v in r.value.members
    ensures r.Some? ==> forall m :: m in r.value.members ==> m == v || m in s.members
    ensures r.Some? ==> forall m :: m in s.members && !SameMember(s.uniqueKeys, m, v) ==> m in r.value.members
    ensures r.Some? ==>
      |r.value.members| == |s.members| + (if FindMember(s.uniqueKeys, s.members, v).None? then 1 else 0)
  {
    if !s.Set? then None
    else if s.uniqueKeys.Some? && !v.Object? then None
    else
      match FindMember(s.uniqueKeys, s.members, v)
      case None => Some(Set(s.uniqueKeys, s.members + [v]))
      case Some(j) =>
        if s.uniqueKeys.Some? && overwrite then
          var ms := s.members[j := v];
          assert ms[j] == v;
          assert forall i :: 0 <= i < |ms| && i != j ==> ms[i] == s.members[i];
          Some(Set(s.uniqueKeys, ms))
        else
          None
  }

  /** `purc_variant_set_remove`: removes the member equal to v. */
  function SetRemove(s: Value, v: Value): (r: Option<Value>)
    ensures r.Some? <==> s.Set? && FindMember(s.uniqueKeys, s.members, v).Some?
    ensures r.Some? ==> r.value.Set? && r.value.uniqueKeys == s.uniqueKeys && |r.value.members| + 1 == |s.members|
    ensures r.Some? ==> exists m :: m in s.members && SameMember(s.uniqueKeys, m, v)
                                    && multiset(r.value.members) + multiset{m} == multiset(s.members)
    ensures r.Some? ==> forall m :: m in s.members && !SameMember(s.uniqueKeys, m, v) ==> m in r.value.members
  {
    if !s.Set? then None
    else
      match FindMember(s.uniqueKeys, s.members, v)
      case None => None
      case Some(j) => Some(Set(s.uniqueKeys, Delete(s.members, j)))
  }

  /** The first member whose unique-key values are `vals`. */
  function FindByKeyValues(keys: seq<string>, ms: seq<Value>, vals: seq<Value>, from: nat := 0): (r: Option<nat>)
    requires from <= |ms|
    ensures r.Some? ==> from <= r.value < |ms| && KeyTuple(ms[r.value], keys) == vals
    ensures r.None? ==> forall j :: from <= j < |ms| ==> KeyTuple(ms[j], keys) != vals
    decreases |ms| - from
  {
    if from == |ms| then None
    else if KeyTuple(ms[from], keys) == vals then Some(from)
    else FindByKeyValues(keys, ms, vals, from + 1)
  }

  /** `purc_variant_set_get_member_by_key_values`: INVALID for a set not
      managed by unique keys or when no member matches. */
  function SetGetByKeyValues(s: Value, vals: seq<Value>): (r: Option<Value>)
    ensures r.Some? <==> s.Set? && s.uniqueKeys.Some?
                         && exists j :: 0 <= j < |s.members| && KeyTuple(s.members[j], s.uniqueKeys.value) == vals
    ensures r.Some? ==> r.value in s.members && KeyTuple(r.value, s.uniqueKeys.value) == vals
  {
    if !s.Set? || s.uniqueKeys.None? then None
    else
      match FindByKeyValues(s.uniqueKeys.value, s.members, vals)
      case None => None
      case Some(j) => Some(s.members[j])
  }

  /** `purc_variant_set_remove_member_by_key_values`: the set without the
      matching member. */
  function SetRemoveByKeyValues(s: Value, vals: seq<Value>): (r: Option<Value>)
    ensures r.Some? <==> SetGetByKeyValues(s, vals).Some?
    ensures r.Some? ==> r.value.Set? && r.value.uniqueKeys == s.uniqueKeys && |r.value.members| + 1 == |s.members|
    ensures r.Some? ==> exists m :: m in s.members && KeyTuple(m, s.uniqueKeys.value) == vals
                                    && multiset(r.value.members) + multiset{m} == multiset(s.members)
    ensures r.Some? ==> forall m :: m in s.members && KeyTuple(m, s.uniqueKeys.value) != vals ==> m in r.value.members
  {
    if !s.Set? || s.uniqueKeys.None? then None
    else
      match FindByKeyValues(s.uniqueKeys.value, s.members, vals)
      case None => None
      case Some(j) => Some(Set(s.uniqueKeys, Delete(s.members, j)))
  }

  /** `purc_variant_set_size`. */
  function SetSize(s: Value): (r: Option<nat>)
    ensures r.Some? <==> s.Set?
  {
    if s.Set? then Some(|s.members|) else None
  }

  function SetGetSize(s: Value): int
  {
    SizeOrBad(SetSize(s))
  }

  /** `purc_variant_set_get_by_index`. */
  function SetGetByIndex(s: Value, idx: int): (r: Option<Value>)
    ensures r.Some? <==> s.Set? && 0 <= idx < |s.members|
  {
    if s.Set? && 0 <= idx < |s.members| then Some(s.members[idx]) else None
  }

  /** `purc_variant_set_remove_by_index`: the removed member and the set
      left behind. */
  function SetRemoveByIndex(s: Value, idx: int): (r: Option<(Value, Value)>)
    ensures r.Some? <==> s.Set? && 0 <= idx < |s.members|
    ensures r.Some? ==> Some(r.value.0) == SetGetByIndex(s, idx)
  {
    if s.Set? && 0 <= idx < |s.members| then
      Some((s.members[idx], Set(s.uniqueKeys, Delete(s.members, idx))))
    else
      None
  }

  /** Object and set size wrappers report BADSIZE exactly for a value of
      the wrong type. */
  lemma {:induction false} GetSizeBad(c: Value)
    requires c.Object? ==> |c.entries| < BADSIZE
    requires c.Set? ==> |c.members| < BADSIZE
    ensures ObjectGetSize(c) == BADSIZE <==> !c.Object?
    ensures SetGetSize(c) == BADSIZE <==> !c.Set?
    ensures c.Object? ==> ObjectGetSize(c) == ObjectSize(c).value
    ensures c.Set? ==> SetGetSize(c) == SetSize(c).value
  {
  }

  /** `set_add` keeps a well-formed set well formed. */
  lemma {:induction false} SetAddWellFormed(s: Value, v: Value, overwrite: bool)
    requires SetWellFormed(s) && SetAdd(s, v, overwrite).Some?
    ensures SetWellFormed(SetAdd(s, v, overwrite).value)
  {
    var r := SetAdd(s, v, overwrite).value;
    var ms := s.members;
    var keys := s.uniqueKeys;
    var f := FindMember(keys, ms, v);
    if f.None? {
      assert r.members == ms + [v];
      forall i, j | 0 <= i < j < |r.members|
        ensures !SameMember(keys, r.members[i], r.members[j])
      {
        assert r.members[i] == ms[i];
        if j < |ms| {
          assert r.members[j] == ms[j];
        }
      }
    } else {
      var m := f.value;
      assert r.members == ms[m := v];
      forall i, j | 0 <= i < j < |r.members|
        ensures !SameMember(keys, r.members[i], r.members[j])
      {
        assert SameMember(keys, ms[m], v);
      }
    }
  }

  /** After a successful `set_add` into a keyed set, looking up the added
      value's key values finds exactly that value. */
  lemma {:induction false} SetAddThenGet(s: Value, v: Value, overwrite: bool)
    requires SetWellFormed(s) && s.uniqueKeys.Some? && SetAdd(s, v, overwrite).Some?
    ensures SetGetByKeyValues(SetAdd(s, v, overwrite).value, KeyTuple(v, s.uniqueKeys.value)) == Some(v)
  {
    var r := SetAdd(s, v, overwrite).value;
    var keys := s.uniqueKeys.value;
    SetAddWellFormed(s, v, overwrite);
    var p :| 0 <= p < |r.members| && r.members[p] == v;
    var g := FindByKeyValues(keys, r.members, KeyTuple(v, keys));
    assert g.Some?;
    if g.value != p {
      var a, b := if g.value < p then g.value else p, if g.value < p then p else g.value;
      assert SameMember(s.uniqueKeys, r.members[a], r.members[b]);
      assert false;
    }
  }

  /** Adding a new value to a generic set and removing it gives back the
      set. */
  lemma {:induction false} SetAddRemove(s: Value, v: Value)
    requires s.Set? && s.uniqueKeys.None? && SetAdd(s, v, false).Some?
    ensures SetRemove(SetAdd(s, v, false).value, v) == Some(s)
  {
    var ms := s.members;
    var ms' := ms + [v];
    assert FindMember(s.uniqueKeys, ms, v).None?;
    assert forall j :: 0 <= j < |ms| ==> ms'[j] == ms[j];
    assert ms'[|ms|] == v;
    assert FindMember(s.uniqueKeys, ms', v) == Some(|ms|);
    assert Delete(ms', |ms|) == ms;
  }

  /** Deleting a member keeps the remaining members pairwise distinct. */
  lemma {:induction false} DeleteWellFormed(s: Value, j: nat)
    requires SetWellFormed(s) && j < |s.members|
    ensures SetWellFormed(Set(s.uniqueKeys, Delete(s.members, j)))
  {
    var ms := s.members;
    var d := Delete(ms, j);
    forall a, b | 0 <= a < b < |d|
      ensures !SameMember(s.uniqueKeys, d[a], d[b])
    {
      var a', b' := if a < j then a else a + 1, if b < j then b else b + 1;
      assert d[a] == ms[a'] && d[b] == ms[b'] && a' < b';
    }
    if s.uniqueKeys.Some? {
      forall a | 0 <= a < |d|
        ensures d[a].Object?
      {
        assert d[a] == ms[if a < j then a else a + 1];
      }
    }
  }

  /** `set_remove` on a well-formed set leaves a well-formed set in which
      no member equals the removed value any more. */
  lemma {:induction false} SetRemoveGone(s: Value, v: Value)
    requires SetWellFormed(s) && SetRemove(s, v).Some?
    ensures SetWellFormed(SetRemove(s, v).value)
    ensures forall m :: m in SetRemove(s, v).value.members ==> !SameMember(s.uniqueKeys, m, v)
  {
    var ms := s.members;
    var j := FindMember(s.uniqueKeys, ms, v).value;
    var d := Delete(ms, j);
    assert SetRemove(s, v).value.members == d;
    DeleteWellFormed(s, j);
    forall m | m in d
      ensures !SameMember(s.uniqueKeys, m, v)
    {
      var a :| 0 <= a < |d| && d[a] == m;
      var a' := if a < j then a else a + 1;
      assert d[a] == ms[a'] && SameMember(s.uniqueKeys, ms[j], v);
      if a' < j {
        assert !SameMember(s.uniqueKeys, ms[a'], ms[j]);
      } else {
        assert !SameMember(s.uniqueKeys, ms[j], ms[a']);
      }
    }
  }

  /** After `remove_member_by_key_values` on a well-formed set, looking the
      same key values up finds nothing. */
  lemma {:induction false} SetRemoveByKeyValuesGone(s: Value, vals: seq<Value>)
    requires SetWellFormed(s) && SetRemoveByKeyValues(s, vals).Some?
    ensures SetWellFormed(SetRemoveByKeyValues(s, vals).value)
    ensures SetGetByKeyValues(SetRemoveByKeyValues(s, vals).value, vals).None?
  {
    var keys := s.uniqueKeys.value;
    var ms := s.members;
    var j := FindByKeyValues(keys, ms, vals).value;
    var d := Delete(ms, j);
    assert SetRemoveByKeyValues(s, vals).value.members == d;
    DeleteWellFormed(s, j);
    forall a | 0 <= a < |d|
      ensures KeyTuple(d[a], keys) != vals
    {
      var a' := if a < j then a else a + 1;
      assert d[a] == ms[a'] && KeyTuple(ms[j], keys) == vals;
      if a' < j {
        assert !SameMember(s.uniqueKeys, ms[a'], ms[j]);
      } else {
        assert !SameMember(s.uniqueKeys, ms[j], ms[a']);
      }
    }
  }

  // ---------------------------------------------------------------------
  // Sizes against lookups

  /** The array size is the number of indices `array_get` answers for. */
  lemma {:induction false} ArraySizeCountsIndices(a: Value, i: int)
    requires a.Array?
    ensures ArrayGet(a, i).Some? <==> 0 <= i < ArraySize(a).value
  {
  }

  /** The set size is the number of indices `set_get_by_index` answers
      for. */
  lemma {:induction false} SetSizeCountsIndices(s: Value, i: int)
    requires s.Set?
    ensures SetGetByIndex(s, i).Some? <==> 0 <= i < SetSize(s).value
  {
  }

  /** The keys of a sequence of pairs. */
  function KeysOf(es: seq<KeyValue>): set<Value>
    decreases |es|
  {
    if |es| == 0 then {} else KeysOf(es[..|es| - 1]) + {es[|es| - 1].key}
  }

  /** A key is in `KeysOf` exactly when some pair carries it. */
  lemma {:induction false} KeysOfSpec(es: seq<KeyValue>, k: Value)
    ensures k in KeysOf(es) <==> exists i :: 0 <= i < |es| && es[i].key == k
    decreases |es|
  {
    if |es| > 0 {
      var n := |es| - 1;
      var p := es[..n];
      KeysOfSpec(p, k);
      if k in KeysOf(p) {
        var i :| 0 <= i < |p| && p[i].key == k;
        assert es[i].key == k;
      }
      if i :| 0 <= i < |es| && es[i].key == k {
        if i < n {
          assert p[i].key == k;
        }
      }
    }
  }

  /** With unique keys there are as many keys as pairs. */
  lemma {:induction false} KeysOfCount(es: seq<KeyValue>)
    requires KeysUnique(es)
    ensures |KeysOf(es)| == |es|
    decreases |es|
  {
    if |es| > 0 {
      var n := |es| - 1;
      var p := es[..n];
      assert KeysUnique(p) by {
        forall i, j | 0 <= i < j < |p|
          ensures p[i].key != p[j].key
        {
          assert p[i] == es[i] && p[j] == es[j];
        }
      }
      KeysOfCount(p);
      KeysOfSpec(p, es[n].key);
      forall i | 0 <= i < |p|
        ensures p[i].key != es[n].key
      {
        assert p[i] == es[i];
      }
      assert es[n].key !in KeysOf(p);
    }
  }

  /** With unique keys the object size is the number of distinct keys, and
      those are exactly the keys `object_get` answers for. */
  lemma {:induction false} ObjectSizeCountsKeys(o: Value, k: Value)
    requires o.Object? && KeysUnique(o.entries)
    ensures ObjectSize(o).value == |KeysOf(o.entries)|
    ensures k in KeysOf(o.entries) <==> ObjectGet(o, k).Some?
  {
    KeysOfCount(o.entries);
    KeysOfSpec(o.entries, k);
    if k in KeysOf(o.entries) {
      var i :| 0 <= i < |o.entries| && o.entries[i].key == k;
      assert FindKey(o.entries, k).Some?;
    }
  }

  // ---------------------------------------------------------------------
  // Casts

  /** The kinds the header promises can always be cast to a number. */
  predicate NumericKind(v: Value)
  {
    v.Null? || v.Boolean? || v.Number? || v.LongInt? || v.ULongInt? || v.LongDouble?
  }

  /** C's conversion of a floating value to an integer truncates toward
      zero; out of range the model saturates. */
  function TruncToward0(d: real): int
  {
    if d >= 0.0 then d.Floor else -((-d).Floor)
  }

  function Clamp(x: int, lo: int, hi: int): (r: int)
    requires lo <= hi
    ensures lo <= r <= hi
    ensures lo <= x <= hi ==> r == x
  {
    if x < lo then lo else if x > hi then hi else x
  }

  /** Reinterpretation as `int64_t` (two's complement wrap-around). */
  function AsInt64(x: int): (r: int)
    ensures INT64_MIN <= r <= INT64_MAX
    ensures (r - x) % UINT64_LIMIT == 0
  {
    var m := x % UINT64_LIMIT;
    if m > INT64_MAX then m - UINT64_LIMIT else m
  }

  /** Reinterpretation as `uint64_t`. */
  function AsUInt64(x: int): (r: nat)
    ensures r < UINT64_LIMIT
    ensures (r - x) % UINT64_LIMIT == 0
  {
    x % UINT64_LIMIT
  }

  /** `purc_variant_cast_to_longint`.  A string or atom string is handed to
      `parse` (the string-to-integer conversion, not modelled) only when
      `parse_str` is set. */
  function CastToLongInt(v: Value, parseStr: bool, parse: string -> Option<int>): (r: Option<int>)
    ensures NumericKind(v) ==> r.Some? && INT64_MIN <= r.value <= INT64_MAX
    ensures r.Some? ==> NumericKind(v) || (parseStr && (v.String? || v.AtomString?))
  {
    match v
    case Null => Some(0)
    case Boolean(b) => Some(if b then 1 else 0)
    case Number(d) => Some(Clamp(TruncToward0(d), INT64_MIN, INT64_MAX))
    case LongInt(i) => Some(AsInt64(i))
    case ULongInt(u) => Some(AsInt64(u))
    case LongDouble(ld) => Some(Clamp(TruncToward0(ld), INT64_MIN, INT64_MAX))
    case String(s) => if parseStr then parse(s) else None
    case AtomString(s) => if parseStr then parse(s) else None
    case _ => None
  }

  /** `purc_variant_cast_to_ulongint`. */
  function CastToULongInt(v: Value, parseStr: bool, parse: string -> Option<int>): (r: Option<int>)
    ensures NumericKind(v) ==> r.Some? && 0 <= r.value < UINT64_LIMIT
    ensures r.Some? ==> NumericKind(v) || (parseStr && (v.String? || v.AtomString?))
  {
    match v
    case Null => Some(0)
    case Boolean(b) => Some(if b then 1 else 0)
    case Number(d) => Some(Clamp(TruncToward0(d), 0, UINT64_LIMIT - 1))
    case LongInt(i) => Some(AsUInt64(i))
    case ULongInt(u) => Some(AsUInt64(u))
    case LongDouble(ld) => Some(Clamp(TruncToward0(ld), 0, UINT64_LIMIT - 1))
    case String(s) => if parseStr then parse(s) else None
    case AtomString(s) => if parseStr then parse(s) else None
    case _ => None
  }

  /** `purc_variant_cast_to_number` and `purc_variant_cast_to_long_double`
      (the same, as precision is not modelled). */
  function CastToReal(v: Value, parseStr: bool, parse: string -> Option<real>): (r: Option<real>)
    ensures NumericKind(v) ==> r.Some?
    ensures r.Some? ==> NumericKind(v) || (parseStr && (v.String? || v.AtomString?))
  {
    match v
    case Null => Some(0.0)
    case Boolean(b) => Some(if b then 1.0 else 0.0)
    case Number(d) => Some(d)
    case LongInt(i) => Some(i as real)
    case ULongInt(u) => Some(u as real)
    case LongDouble(ld) => Some(ld)
    case String(s) => if parseStr then parse(s) else None
    case AtomString(s) => if parseStr then parse(s) else None
    case _ => None
  }

  /** `purc_variant_cast_to_byte_sequence`: only the three text kinds. */
  function CastToByteSequence(v: Value): (r: Option<string>)
    ensures r.Some? <==> v.String? || v.AtomString? || v.ByteSeq?
  {
    match v
    case String(s) => Some(s)
    case AtomString(s) => Some(s)
    case ByteSeq(b) => Some(b)
    case _ => None
  }

  lemma {:induction false} ModWrap(x: int, y: int)
    requires (x - y) % UINT64_LIMIT == 0
    ensures x % UINT64_LIMIT == y % UINT64_LIMIT
  {
    var q := (x - y) / UINT64_LIMIT;
    assert x == y + q * UINT64_LIMIT;
  }

  /** Casting a long integer to an unsigned one and back is the identity:
      the two reinterpretations are inverse on the 64-bit range. */
  lemma {:induction false} CastLongIntRoundTrip(i: int, parse: string -> Option<int>)
    requires INT64_MIN <= i <= INT64_MAX
    ensures var u := CastToULongInt(LongInt(i), false, parse).value;
      CastToLongInt(ULongInt(u), false, parse) == Some(i)
  {
    var u := AsUInt64(i);
    assert u == i % UINT64_LIMIT;
    if i >= 0 {
      assert u == i;
    } else {
      assert u == i + UINT64_LIMIT;
    }
  }
}

=== FILE: vcm_literal.dfy ===
/** The literal converter of `utils/vcm.c`: a tree of literal VCM nodes
    becomes a value directly, without the evaluator.  Objects take their
    children pairwise as key and value, arrays take every child in order,
    scalar nodes convert their text buffer.

    The C text-to-number conversions (`atof`, `atoll`) are not part of this
    model; they are supplied as functions. */
module VcmLiteral {
  import opened Wrappers
  import opened Variant
  import opened VcmTree

  /** `atof` and `atoll` on a node buffer. */
  datatype NumParsers = NumParsers(atof: string -> real, atoll: string -> int)

  /** What the converter demands of a tree: `pcvcm_node_object_to_variant`
      reads the first child's successor without checking, so every object
      node has at least one child. */
  predicate LiteralOk(n: VcmNode)
    decreases n
  {
    && (n.kind.ObjectNode? ==> |n.children| > 0)
    && forall i :: 0 <= i < |n.children| ==> LiteralOk(n.children[i])
  }

  predicate ForestOk(cs: seq<VcmNode>)
  {
    forall i :: 0 <= i < |cs| ==> LiteralOk(cs[i])
  }

  lemma {:induction false} ForestOkTail(cs: seq<VcmNode>, k: nat)
    requires ForestOk(cs) && k <= |cs|
    ensures ForestOk(cs[k..])
  {
    forall i | 0 <= i < |cs[k..]|
      ensures LiteralOk(cs[k..][i])
    {
      assert cs[k..][i] == cs[k + i];
    }
  }

  /** `pcvcm_node_to_variant`. */
  function NodeToVariant(n: VcmNode, p: NumParsers): Value
    requires LiteralOk(n)
    decreases n, 2
  {
    match n.kind
    case ObjectNode => ObjectFromPairs(n.children, Object([]), p)
    case ArrayNode => ArrayFromItems(n.children, Array([]), p)
    case KeyNode => String(n.buf)
    case StringNode => String(n.buf)
    case NullNode => Null
    case BooleanNode => Boolean(n.buf == "true")
    case NumberNode => Number(p.atof(n.buf))
    case LongIntNode => LongInt(AsInt64(p.atoll(n.buf)))
    case ULongIntNode => ULongInt(AsUInt64(AsInt64(p.atoll(n.buf))))
    case LongDoubleNode => LongDouble(p.atof(n.buf))
    case ByteSeqNode => ByteSeq(n.buf)
    case _ => Null
  }

  /** The loop of `pcvcm_node_object_to_variant`: set the pairs
      (child 0, child 1), (child 2, child 3), ... in order; a trailing
      unpaired child is ignored. */
  function ObjectFromPairs(cs: seq<VcmNode>, obj: Value, p: NumParsers): Value
    requires ForestOk(cs) && obj.Object?
    decreases cs, 1
  {
    if |cs| < 2 then obj
    else
      ForestOkTail(cs, 2);
      ObjectFromPairs(cs[2..], ObjectSet(obj, NodeToVariant(cs[0], p), NodeToVariant(cs[1], p)).value, p)
  }

  /** The loop of `pcvcm_node_array_to_variant`: append every child. */
  function ArrayFromItems(cs: seq<VcmNode>, arr: Value, p: NumParsers): Value
    requires ForestOk(cs) && arr.Array?
    decreases cs, 1
  {
    if |cs| == 0 then arr
    else
      ForestOkTail(cs, 1);
      ArrayFromItems(cs[1..], ArrayAppend(arr, NodeToVariant(cs[0], p)).value, p)
  }

  /** `pcvcm_eval`: a missing tree is null. */
  function Eval(tree: Option<VcmNode>, p: NumParsers): Value
    requires tree.Some? ==> LiteralOk(tree.value)
  {
    if tree.None? then Null else NodeToVariant(tree.value, p)
  }

  // ---------------------------------------------------------------------
  // Arrays

  /** Appending the children one by one keeps what was there and adds the
      children's values after it, in order. */
  lemma {:induction false} ArrayFromItemsSpec(cs: seq<VcmNode>, arr: Value, p: NumParsers)
    requires ForestOk(cs) && arr.Array?
    ensures var r := ArrayFromItems(cs, arr, p);
      && r.Array?
      && |r.items| == |arr.items| + |cs|
      && (forall j :: 0 <= j < |arr.items| ==> r.items[j] == arr.items[j])
      && (forall j :: |arr.items| <= j < |r.items| ==> r.items[j] == NodeToVariant(cs[j - |arr.items|], p))
    decreases |cs|
  {
    if |cs| > 0 {
      ForestOkTail(cs, 1);
      var next := ArrayAppend(arr, NodeToVariant(cs[0], p)).value;
      assert next.items == arr.items + [NodeToVariant(cs[0], p)];
      ArrayFromItemsSpec(cs[1..], next, p);
      var r := ArrayFromItems(cs, arr, p);
      forall j | |arr.items| <= j < |r.items|
        ensures r.items[j] == NodeToVariant(cs[j - |arr.items|], p)
      {
        if j > |arr.items| {
          assert cs[1..][j - |next.items|] == cs[j - |arr.items|];
        }
      }
    }
  }

  /** An array node yields an array with one element per child, in the same
      order. */
  lemma {:induction false} ArrayLiteral(n: VcmNode, p: NumParsers)
    requires LiteralOk(n) && n.kind.ArrayNode?
    ensures var r := NodeToVariant(n, p);
      && r.Array?
      && |r.items| == |n.children|
      && forall i :: 0 <= i < |n.children| ==> r.items[i] == NodeToVariant(n.children[i], p)
  {
    ArrayFromItemsSpec(n.children, Array([]), p);
  }

  // ---------------------------------------------------------------------
  // Objects

  /** The (key, value) pairs of an object node's children, as converted
      values; a trailing unpaired child has no pair. */
  function Pairs(cs: seq<VcmNode>, p: NumParsers): (r: seq<(Value, Value)>)
    requires ForestOk(cs)
    ensures |r| == |cs| / 2
    decreases |cs|
  {
    if |cs| < 2 then []
    else
      ForestOkTail(cs, 2);
      [(NodeToVariant(cs[0], p), NodeToVariant(cs[1], p))] + Pairs(cs[2..], p)
  }

  /** The value of the last pair with key k: later pairs win. */
  function LookupLast(ps: seq<(Value, Value)>, k: Value): Option<Value>
    decreases |ps|
  {
    if |ps| == 0 then None
    else
      match LookupLast(ps[1..], k)
      case Some(v) => Some(v)
      case None => if ps[0].0 == k then Some(ps[0].1) else None
  }

  /** Setting the pairs one by one into an object with unique keys keeps
      the keys unique; a key then maps to the value of its last pair, and a
      key of no pair keeps its old value. */
  lemma {:induction false} ObjectFromPairsSpec(cs: seq<VcmNode>, obj: Value, p: NumParsers, k: Value)
    requires ForestOk(cs) && obj.Object? && KeysUnique(obj.entries)
    ensures var r := ObjectFromPairs(cs, obj, p);
      && r.Object?
      && KeysUnique(r.entries)
      && ObjectGet(r, k) == (match LookupLast(Pairs(cs, p), k) case Some(v) => Some(v) case None => ObjectGet(obj, k))
    decreases |cs|
  {
    if |cs| >= 2 {
      ForestOkTail(cs, 2);
      var key := NodeToVariant(cs[0], p);
      var val := NodeToVariant(cs[1], p);
      var next := ObjectSet(obj, key, val).value;
      ObjectSetSpec(obj, key, val);
      ObjectFromPairsSpec(cs[2..], next, p, k);
      var ps := Pairs(cs, p);
      assert ps[1..] == Pairs(cs[2..], p);
      assert ps[0] == (key, val);
    }
  }

  /** An object node yields an object with unique keys in which every key
      maps to the value of the last child pair carrying it, and no other key
      is present. */
  lemma {:induction false} ObjectLiteral(n: VcmNode, p: NumParsers, k: Value)
    requires LiteralOk(n) && n.kind.ObjectNode?
    ensures var r := NodeToVariant(n, p);
      && r.Object?
      && KeysUnique(r.entries)
      && ObjectGet(r, k) == LookupLast(Pairs(n.children, p), k)
  {
    ObjectFromPairsSpec(n.children, Object([]), p, k);
    assert ObjectGet(Object([]), k).None?;
  }

  /** A trailing unpaired child of an object node changes nothing. */
  lemma {:induction false} ObjectTrailingIgnored(cs: seq<VcmNode>, obj: Value, p: NumParsers)
    requires ForestOk(cs) && obj.Object? && |cs| % 2 == 1
    ensures ForestOk(cs[..|cs| - 1])
    ensures ObjectFromPairs(cs, obj, p) == ObjectFromPairs(cs[..|cs| - 1], obj, p)
    decreases |cs|
  {
    var init := cs[..|cs| - 1];
    assert ForestOk(init) by {
      forall i | 0 <= i < |init|
        ensures LiteralOk(init[i])
      {
        assert init[i] == cs[i];
      }
    }
    if |cs| >= 3 {
      ForestOkTail(cs, 2);
      ForestOkTail(init, 2);
      var next := ObjectSet(obj, NodeToVariant(cs[0], p), NodeToVariant(cs[1], p)).value;
      ObjectTrailingIgnored(cs[2..], next, p);
      assert cs[2..][..|cs[2..]| - 1] == init[2..];
      assert init[0] == cs[0] && init[1] == cs[1];
    }
  }

  // ---------------------------------------------------------------------
  // Scalars

  /** KEY and STRING nodes yield their buffer as a string; a BOOLEAN node
      is true exactly when its buffer is "true"; an unsigned long integer
      literal is the signed conversion reinterpreted as unsigned, so a
      negative one wraps; a missing tree and any node type the converter
      does not know yield null. */
  lemma {:induction false} ScalarLiterals(n: VcmNode, p: NumParsers)
    requires LiteralOk(n)
    ensures n.kind.KeyNode? || n.kind.StringNode? ==> NodeToVariant(n, p) == String(n.buf)
    ensures n.kind.BooleanNode? ==> (NodeToVariant(n, p) == Boolean(true) <==> n.buf == "true")
    ensures n.kind.BooleanNode? ==> NodeToVariant(n, p).Boolean?
    ensures n.kind.ULongIntNode? && INT64_MIN <= p.atoll(n.buf) < 0 ==>
      NodeToVariant(n, p) == ULongInt(p.atoll(n.buf) + UINT64_LIMIT)
    ensures n.kind.OtherNode? || n.kind.GetElementNode? || n.kind.CallGetterNode? || n.kind.CallSetterNode? ==>
      NodeToVariant(n, p) == Null
    ensures Eval(None, p) == Null
    ensures Eval(Some(n), p) == NodeToVariant(n, p)
  {
    if n.kind.ULongIntNode? && INT64_MIN <= p.atoll(n.buf) < 0 {
      var x := p.atoll(n.buf);
      assert AsInt64(x) == x;
      assert AsUInt64(x) == x + UINT64_LIMIT;
    }
  }
}

=== FILE: vcm_tree.dfy ===
/** The VCM expression tree: an n-ary tree of typed nodes with a text
    buffer.  A node's `id` stands for its address: two nodes are the same
    node exactly when their ids are equal, and the ids of one tree are
    pairwise distinct. */
module VcmTree {

  /** The node types the evaluator and the literal converter tell apart;
      every other type (variables, string concatenation, operators, ...) is
      an `OtherNode`. */
  datatype NodeType =
    | ObjectNode
    | ArrayNode
    | KeyNode
    | StringNode
    | NullNode
    | BooleanNode
    | NumberNode
    | LongIntNode
    | ULongIntNode
    | LongDoubleNode
    | ByteSeqNode
    | GetElementNode
    | CallGetterNode
    | CallSetterNode
    | OtherNode(tag: nat)

  datatype VcmNode = VcmNode(id: nat, kind: NodeType, buf: string, children: seq<VcmNode>)

  /** The number of nodes of a tree. */
  function Count(n: VcmNode): nat
    decreases n, 1
  {
    1 + CountForest(n.children)
  }

  /** The number of nodes of a sequence of trees. */
  function CountForest(cs: seq<VcmNode>): nat
    decreases cs, 0
  {
    if |cs| == 0 then 0 else Count(cs[0]) + CountForest(cs[1..])
  }

  lemma {:induction false} CountForestConcat(a: seq<VcmNode>, b: seq<VcmNode>)
    ensures CountForest(a + b) == CountForest(a) + CountForest(b)
    decreases |a|
  {
    if |a| == 0 {
      assert a + b == b;
    } else {
      assert (a + b)[1..] == a[1..] + b;
      CountForestConcat(a[1..], b);
    }
  }

  lemma {:induction false} CountForestAtLeastLength(cs: seq<VcmNode>)
    ensures CountForest(cs) >= |cs|
    decreases |cs|
  {
    if |cs| > 0 {
      CountForestAtLeastLength(cs[1..]);
    }
  }

  /** The ids of a tree. */
  function Ids(n: VcmNode): set<nat>
    decreases n, 1
  {
    {n.id} + IdsForest(n.children)
  }

  function IdsForest(cs: seq<VcmNode>): set<nat>
    decreases cs, 0
  {
    if |cs| == 0 then {} else Ids(cs[0]) + IdsForest(cs[1..])
  }

  /** No two nodes of the tree share an id (an address). */
  predicate UniqueIds(n: VcmNode)
    decreases n, 1
  {
    n.id !in IdsForest(n.children) && UniqueForest(n.children)
  }

  predicate UniqueForest(cs: seq<VcmNode>)
    decreases cs, 0
  {
    |cs| == 0 || (UniqueIds(cs[0]) && Ids(cs[0]) !! IdsForest(cs[1..]) && UniqueForest(cs[1..]))
  }

  lemma {:induction false} IdsForestElem(cs: seq<VcmNode>, i: nat)
    requires i < |cs|
    ensures Ids(cs[i]) <= IdsForest(cs)
    ensures cs[i].id in IdsForest(cs)
    decreases i
  {
    if i > 0 {
      IdsForestElem(cs[1..], i - 1);
    }
  }

  lemma {:induction false} IdsForestConcat(a: seq<VcmNode>, b: seq<VcmNode>)
    ensures IdsForest(a + b) == IdsForest(a) + IdsForest(b)
    decreases |a|
  {
    if |a| == 0 {
      assert a + b == b;
    } else {
      assert (a + b)[1..] == a[1..] + b;
      IdsForestConcat(a[1..], b);
    }
  }

  /** Node types whose first child is evaluated as a callee rather than as
      a getter: `is_action_node`. */
  predicate IsAction(t: NodeType)
  {
    t.GetElementNode? || t.CallGetterNode? || t.CallSetterNode?
  }

  /** A breadth-first walk: the order in which the level-order traversal
      visits (and numbers) the nodes. */
  function LevelOrder(queue: seq<VcmNode>): seq<VcmNode>
    decreases CountForest(queue)
  {
    if |queue| == 0 then []
    else
      CountForestConcat(queue[1..], queue[0].children);
      assert CountForest(queue) == Count(queue[0]) + CountForest(queue[1..]);
      assert Count(queue[0]) == 1 + CountForest(queue[0].children);
      [queue[0]] + LevelOrder(queue[1..] + queue[0].children)
  }

  /** The level-order walk visits every node of the queued trees once, so
      the number it assigns is the node count. */
  lemma {:induction false} LevelOrderCount(queue: seq<VcmNode>)
    ensures |LevelOrder(queue)| == CountForest(queue)
    decreases CountForest(queue)
  {
    if |queue| > 0 {
      CountForestConcat(queue[1..], queue[0].children);
      assert Count(queue[0]) == 1 + CountForest(queue[0].children);
      LevelOrderCount(queue[1..] + queue[0].children);
    }
  }

  /** `nr_nodes` as computed by `assign_idx_cb` over the level-order
      traversal. */
  function NrNodes(tree: VcmNode): (r: nat)
    ensures r == Count(tree)
  {
    LevelOrderCount([tree]);
    assert CountForest([tree]) == Count(tree) + CountForest([]);
    |LevelOrder([tree])|
  }
}

=== FILE: wrappers.dfy ===
/** The optional-value datatype shared by every module of the model.
    `None` stands for a C `NULL` pointer or for `PURC_VARIANT_INVALID`,
    `Some(v)` for a present value. */
module Wrappers {

  datatype Option<+T> = None | Some(value: T) {

    predicate IsFailure() {
      None?
    }

    function PropagateFailure<U>(): Option<U>
      requires None?
    {
      None
    }

    function Extract(): T
      requires Some?
    {
      value
    }

    function GetOr(fallback: T): T {
      if Some? then value else fallback
    }
  }
}
